=== FILE: README.md ===
# ZuvoPet API gateway: a Dafny model of its core

ZuvoPet connects animal shelters (`Refugio`) with people who want to adopt
(`Adoptante`). This project models the deterministic core of its API
gateway in Dafny and proves properties of that model. The core has three
parts:

- **Credentials and the session token** (`HelperCriptography`,
  `HelperUsuarioToken`, `AuthController.Login`):
  - the salted, iterated SHA-512 password digest;
  - the SHA-256 key derivation;
  - deterministic AES encryption of the identity payload under a zero IV;
  - the four claims issued at sign-in, and how a later request recovers the
    user from them.
- **Validators and pure string functions**:
  - the `Registro` checks on role, password and e-mail, each proved to agree
    with what the .NET regular expression matches;
  - the upload guards and extension whitelist;
  - the extension-to-MIME table;
  - avatar initials;
  - the S3 request and URL;
  - the JSON column holding an adopter's resources.
- **`RepositoryZuvoPet` and the controller actions around it**, as pure
  state transitions on an immutable `Db` record whose tables are sequences.
  This covers:
  - accounts, favourites, success stories and their reactions;
  - pets: age, featured list, create, update, delete, photo and views;
  - adoption requests and how they are answered;
  - notifications with paging, and direct messages.

The vendor code is the `Platform.Library` record of function values: UTF-8,
SHA-256/512, AES-CBC, Base64 and the JSON serialisers. What the model uses
about them is stated as explicit laws, passed to the lemmas that need them:

- `DigestLengths`;
- `CodecRoundTrips`;
- `Base64Length`;
- `JsonRoundTrips`.

The following are parameters:

- clock readings;
- the random salt bytes;
- the text of `Guid.NewGuid()`;
- the S3 bucket name;
- results decided by stored-procedure views the model does not hold.

Each repository method is one atomic transition returning
`Outcome<T> = Done(db, value) | Failed(fault)`. `Failed` stands for a thrown
exception that saves nothing. Its fault says why:

- `NullReference` — a missing row dereferenced;
- `EmptyTable` — `MaxAsync` on an empty table;
- `DuplicateKey` — two tracked rows with one key;
- `RejectedPaging` — MySQL refusing a negative `LIMIT` or `OFFSET`.

C# `int` arithmetic (`GetMaxIdAsync`'s `+ 1`, `CantidadAnimales++`,
`Vistas++`, the paging offset) wraps around explicitly (`Numerics.Wrap32`).

## Model

| member | source | states |
|---|---|---|
| Cryptography.Initialize | Helpers/HelperCriptography.cs:11-16 | salt and key are kept verbatim; initialisation succeeds exactly when the iteration count parses as an `int` |
| Cryptography.InitializeReadsIterationCount | Helpers/HelperCriptography.cs:11-16 | a configuration whose count was written by `Int32.ToString()` initialises to exactly that count |
| Cryptography.EncriptarPasswordSalt | Helpers/HelperCriptography.cs:61-88 | the loop computes `numhash` rounds of SHA-256 over UTF-8(`contenido + salt`), and no round at all for a non-positive count |
| Cryptography.IterateHashLast | Helpers/HelperCriptography.cs:79-80 | n+1 rounds are one more hash applied to the n-round result |
| Cryptography.IterateHashLength | Helpers/HelperCriptography.cs:61-88 | after at least one round, the result has the digest's fixed length |
| Cryptography.EncryptionSucceeds | Helpers/HelperCriptography.cs:18-23 | with at least one SHA-256 round, the derived key is a valid 32-byte AES key, so `EncryptString` never throws |
| Cryptography.EncryptWithKey | Helpers/HelperCriptography.cs:32-59 | encryption fails exactly when the key is not 16, 24 or 32 bytes long |
| Cryptography.DecryptWithKey | Helpers/HelperCriptography.cs:90-112 | malformed Base64 fails before the key is examined; a bad key size fails next |
| Cryptography.ZeroIv | Helpers/HelperCriptography.cs:34 | the IV has the 16 bytes an AES block needs, and both directions use the same one |
| Cryptography.EncryptString | Helpers/HelperCriptography.cs:18-23 | public encryption succeeds exactly when the key derived from the settings is a valid AES key |
| Cryptography.DecryptUndoesEncrypt | Helpers/HelperCriptography.cs:25-30 | `DecryptString(EncryptString(s)) == s`: both directions derive the same key and use the same IV |
| Cryptography.DecryptString | Helpers/HelperCriptography.cs:25-30 | malformed Base64 fails first, a derived key of the wrong size next; success needs both well-formed |
| Cryptography.EqualCiphertextsIffEqualPlaintexts | Helpers/HelperCriptography.cs:32-59 | encryption is deterministic and injective: equal ciphertexts exactly when the plaintexts are equal |
| Cryptography.EncryptPassword | Helpers/HelperCriptography.cs:153-166 | the loop computes exactly 15 SHA-512 rounds over UTF-8(`password + salt`) |
| Cryptography.PasswordDigestLength | Helpers/HelperCriptography.cs:153-166 | a stored password digest is always 64 bytes |
| Cryptography.SaltShape | Helpers/HelperCriptography.cs:113-131 | a salt is 44 Base64 characters that decode back to the 32 random bytes |
| Cryptography.SameBytesIsEquality | Helpers/HelperCriptography.cs:132-151 | element-wise comparison is sequence equality, so it is reflexive and symmetric |
| Cryptography.CompararArrays | Helpers/HelperCriptography.cs:132-151 | true exactly when the arrays have equal length and agree at every index; a length mismatch gives false |
| Tokens.FindFirst | Helpers/HelperUsuarioToken.cs:19-20 | the first claim of the type, or none exactly when no claim has it |
| Tokens.SessionClaims | Controllers/AuthController.cs:131-150 | four claims, in order: "UserData" holding the encrypted user JSON, the name, the id in decimal as `NameIdentifier`, and the role; building them fails exactly when encrypting the user JSON fails |
| Tokens.TokenLifetime | Controllers/AuthController.cs:153-159 | `notBefore` is the issuance reading; the token lives exactly two hours when both clock readings agree and never longer |
| Tokens.GetUsuario | Helpers/HelperUsuarioToken.cs:16-36 | only the first "UserData" claim is read: without one the result is `null`; if it does not decrypt, the lookup fails; otherwise the result is exactly what its plaintext parses to: the user, `null`, or a JSON error |
| Tokens.GetAuthenticatedUserId | Helpers/HelperUsuarioToken.cs:38-42 | the found user's id; no user is a `NullReferenceException`, never a default id |
| Tokens.SessionClaimsIdentifyUser | Helpers/HelperUsuarioToken.cs:28-41 | the claims issued at sign-in decrypt and parse back to the same user; the `NameIdentifier` claim parses to the same id |
| AuthApi.Login | Controllers/AuthController.cs:112-171 | `Unauthorized` exactly when sign-in fails; a token exactly when sign-in succeeds and the session claims build, else the encryption's error; the token's claims are the user's session claims, starting at the second clock reading and ending two hours after the first |
| AuthApi.LoginTokenIdentifiesUser | Controllers/AuthController.cs:131-159 | every request carrying the issued token is attributed to the user who signed in |
| AuthApi.RegistroCheck | Controllers/AuthController.cs:176-199 | role, then password, then e-mail, then the existing user: the first failing check alone decides the rejection |
| AuthApi.Registro | Controllers/AuthController.cs:174-285 | BadRequest carrying the reason of the first failed check exactly when a check fails; after the checks, an error exactly when `RegisterUserAsync` throws, with its fault; success is the user it created, with the database it left |
| AuthApi.RegistroNeverNotCreated | Controllers/AuthController.cs:207-216 | "No se pudo crear el usuario" is unreachable; a request passing every check registers unless the user table is empty |
| AuthApi.RegistroThenLogIn | Controllers/AuthController.cs:174-285 | whoever registers can sign in at once with the same name and password |
| AuthApi.LandingStories | Controllers/AuthController.cs:96-108 | the three earliest published stories, oldest first, each taken at most as often as it is published; no published story left out is earlier than one shown |
| AuthApi.GetHistoriasExitoLanding | Controllers/AuthController.cs:92-109 | one entry per story of `LandingStories`, in the same order: its title, text and photo; so at most three, each from a published story |
| Validation.PasswordCheckMatchesPattern | Controllers/AuthController.cs:182-186 | the direct password check accepts exactly the strings the .NET expression matches: lengths in UTF-16 code units, `\d` any decimal digit of the Basic Multilingual Plane, `.` excluding a line feed, and `$` allowed before a final line feed |
| Validation.StrongPasswordOnOneLine | Controllers/AuthController.cs:182-186 | without line feeds: accepted iff at least 8 UTF-16 code units with an ASCII lower-case letter, an ASCII upper-case letter, a decimal digit of any script, and a character that is none of these |
| Validation.StrongFromParts | Controllers/AuthController.cs:182-186 | one line of at least 8 code units with an upper-case letter, a lower-case letter, a digit and a special character is accepted |
| Validation.ArabicDigitIsNoSpecial | Controllers/AuthController.cs:182 | "Abcdefg1" followed by an Arabic-Indic three is refused: that character is a digit, so nothing is special |
| Validation.ArabicDigitCounts | Controllers/AuthController.cs:182 | an Arabic-Indic three satisfies the digit lookahead: "Abcdef٣!" is accepted |
| Validation.EmojiCountTwice | Controllers/AuthController.cs:182 | six characters can be eight code units: "Aa1!" followed by two emoji is accepted |
| Validation.LookaheadInFirstLine | Controllers/AuthController.cs:182 | a `(?=.*C)` lookahead at the start holds exactly when the first line contains a character of class C |
| Validation.TrailingLineFeedIsSpecial | Controllers/AuthController.cs:182 | "Abcdefg1" is rejected but "Abcdefg1\n" is accepted: the final line feed counts as the special character |
| Validation.EmailCheckMatchesPattern | Controllers/AuthController.cs:189-193 | the direct e-mail check accepts exactly the strings the .NET expression matches |
| Validation.ValidEmailMatches | Controllers/AuthController.cs:189 | every address the direct check accepts is matched by the expression |
| Validation.MatchedEmailIsValid | Controllers/AuthController.cs:189 | every string the expression matches is accepted by the direct check |
| Mime.GetContentType | Controllers/RefugioController.cs:303-319 | the type of the lower-cased extension from the table, octet-stream otherwise; the same table is repeated in three other files |
| Mime.ContentTypeIgnoresCase | Controllers/AdoptanteController.cs:205-221 | two names that differ only in the case of the extension get the same type |
| Mime.UnknownExtensionIsOctetStream | Services/ServiceStorageS3.cs:35-48 | a name with no extension, or one not in the table, is served as `application/octet-stream` |
| Text.ToLowerIdempotent | Controllers/RefugioController.cs:74 | lower-casing a lower-cased extension changes nothing |
| Text.ExtensionOfSuffix | Controllers/RefugioController.cs:74 | a name ending in a dot-extension without separators has exactly that extension |
| Text.GetExtension | Controllers/RefugioController.cs:74 | either empty or a dot-extension without separators that ends the path |
| Uploads.CheckUpload | Controllers/RefugioController.cs:68-78 | a null or empty file is refused first; then anything but .jpg, .jpeg or .png after lower-casing; an accepted image carries its lower-cased extension |
| Uploads.BlobNameKeepsExtension | Controllers/RefugioController.cs:100 | a stored name (GUID + extension) passes the same guards with the same extension and is served as an image |
| Uploads.CallerId | Controllers/RefugioController.cs:81 | the caller is `int.Parse` of the first `NameIdentifier` claim's value; without such a claim it is unknown |
| Uploads.CallerIdOfSession | Controllers/AuthController.cs:148 | the claims a login issues give back, through `int.Parse`, exactly the key the session was issued for |
| RefugioApi.PostFotoMascota | Controllers/RefugioController.cs:63-132 | each status exactly when its guards say: BadRequest, then 500, NotFound and Forbid; every non-Ok status changes nothing; Ok repoints only that pet's photo to the new name and replaces the old blob |
| RefugioApi.PhotoChangeKeepsLookups | Controllers/RefugioController.cs:84-94 | changing a photo moves no row, so the same pet is found and ownership is unchanged |
| RefugioApi.ReplacedPhotoIsAnImage | Controllers/RefugioController.cs:96-126 | after success, the pet names the returned file, which keeps the accepted extension and is served as an image |
| RefugioApi.SecondPostReplacesFirst | Controllers/RefugioController.cs:96-111 | a second replacement by the same shelter deletes exactly the blob the first one stored |
| RefugioApi.SubirImagen | Controllers/RefugioController.cs:134-176 | BadRequest exactly when the guards refuse; otherwise Ok with the fresh GUID name; the database is untouched |
| RefugioApi.SubirImagenNamesUpload | Controllers/RefugioController.cs:151-169 | the returned name is the one name an object was stored under, and it is an image |
| RefugioApi.PostFotoPerfil | Controllers/RefugioController.cs:178-237 | BadRequest, NotFound without a shelter, and Ok only with a profile photo to replace; 500 exactly for an unparsable caller id or a shelter without a profile photo; only Ok touches storage |
| AdoptanteApi.SubirImagenAsWritten | Controllers/AdoptanteController.cs:31-74 | as written, the response names the GUID blob while the only object stored is keyed by the client's file name |
| AdoptanteApi.SubirImagenAsWrittenLosesName | Controllers/AdoptanteController.cs:49-67 | "foto.png" with GUID text "g": the client is told "g.png", and no object "g.png" is ever stored |
| AdoptanteApi.PostFotoPerfil | Controllers/AdoptanteController.cs:76-139 | BadRequest from the guards, NotFound without an adopter, Ok with the new name only when the update succeeds, and 500 exactly for an unparsable caller id, a missing profile photo or an update reporting false |
| AdoptanteApi.FailedUpdateStillReplacesBlob | Controllers/AdoptanteController.cs:109-122 | a failed profile update answers 500 after the old blob is already replaced |
| AdoptanteApi.CrearHistoriaExito | Controllers/AdoptanteController.cs:510-525 | an identified caller gets exactly the repository's answer for the story built from the form; it succeeds exactly when the story table is not empty and the caller has an adopter; the stored story copies pet, title, text and photo from the form, is "Aprobada" and belongs to the caller's adopter |
| AdoptanteApi.StoryIgnoresControllerClock | Controllers/AdoptanteController.cs:521 | the date the controller sets is discarded: the outcome is the same for any controller clock reading |
| AdoptanteApi.StoredStoryIsPublished | Controllers/AdoptanteController.cs:510-525 | a stored story is on the public list at once, and its pet leaves the adopter's list of pets without a story |
| InboxApi.GetNotificacionesUsuario | Controllers/AdoptanteController.cs:421-436 | a non-positive page or size is BadRequest before any lookup; an identified caller gets a 500 exactly when the wrapped offset is negative; otherwise at most `size` of the caller's own notifications |
| InboxApi.HugePageIsRejected | Controllers/AdoptanteController.cs:425-435 | the guards let page 3 of size 2^30 through, and the database refuses it |
| InboxApi.DefaultPageIsNewestTen | Controllers/RefugioController.cs:472-487 | with the default parameters, the caller gets their ten newest notifications, or all of them if fewer |
| Avatar.SplitWords | Helpers/HelperAvatarDinamico.cs:25 | every word is non-empty and contains no space |
| Avatar.SplitKeepsEverythingButSpaces | Helpers/HelperAvatarDinamico.cs:25 | the words, joined, are the name with its spaces removed |
| Avatar.SplitEdgeCases | Helpers/HelperAvatarDinamico.cs:25-32 | a name of spaces only has no words; a name without spaces is a single word |
| Avatar.GetIniciales | Helpers/HelperAvatarDinamico.cs:23-33 | min(2, number of words) UTF-16 code units, each the upper-cased first code unit of its word, in order |
| Avatar.InitialOfWord | Helpers/HelperAvatarDinamico.cs:28 | a word opening in the Basic Multilingual Plane gives its first character upper-cased; any other word gives a lone high surrogate |
| Avatar.EmojiInitialIsHalfAPair | Helpers/HelperAvatarDinamico.cs:23-33 | for a dog emoji followed by " Bobby", the first initial is the high surrogate 0xD83D and the second is "B" |
| Storage.UploadFileAsync | Services/ServiceStorageS3.cs:18-33 | the request keys the object by the file name, in the bucket, with the MIME type of the name; success means HTTP 200 |
| Storage.GetFileUrl | Services/ServiceStorageS3.cs:89-95 | empty exactly for a null or empty name |
| Storage.UrlNamesUploadedKey | Services/ServiceStorageS3.cs:89-95 | the URL of a non-empty name is the bucket prefix followed by exactly the key the upload used |
| ResourceColumn.ToColumn | Data/ZuvoPetContext.cs:44 | a null or empty list is written as "[]" |
| ResourceColumn.FromColumn | Data/ZuvoPetContext.cs:46 | null, "" and "[]" read as the empty list |
| ResourceColumn.ColumnRoundTrip | Data/ZuvoPetContext.cs:44-46 | a stored list reads back as itself, and a null list reads back empty |
| Numerics.Wrap32Congruent | Repositories/RepositoryZuvoPet.cs:337 | the wrapped C# `int` differs from the exact value by a multiple of 2^32 |
| Numerics.DecUndoesInc | Repositories/RepositoryZuvoPet.cs:773 | `CantidadAnimales--` undoes `CantidadAnimales++`, even across the wrap-around |
| Numerics.ParseFormatRoundTrip | Controllers/AuthController.cs:148 | `int.Parse` reads back exactly what `Int32.ToString()` writes, negatives included |
| Numerics.ParseInt32 | Controllers/RefugioController.cs:81 | a text without a decimal digit never parses |
| Numerics.IntToDecimal | Controllers/AuthController.cs:148 | a non-empty string of ASCII digits, with a leading minus sign exactly for a negative value |
| Ids.NextId | Repositories/RepositoryZuvoPet.cs:329-338 | none exactly for an empty table (`MaxAsync` throws); otherwise the largest key plus one, in `int` arithmetic |
| Ids.NextKeyIsFresh | Repositories/RepositoryZuvoPet.cs:329-338 | below `Int32.MaxValue`, the new key is the maximum plus one and larger than every existing key |
| Ids.NextKeyWrapsAtMaximum | Repositories/RepositoryZuvoPet.cs:337 | at `Int32.MaxValue` the allocated key wraps to `Int32.MinValue` |
| Queries.MascotaIndex | Repositories/RepositoryZuvoPet.cs:780-784 | the first pet with the key, or none exactly when no pet has it |
| Queries.RefugioOfUsuario | Repositories/RepositoryZuvoPet.cs:712-718 | the first shelter owned by the account, or none exactly when it owns none |
| Queries.AdoptanteOfUsuario | Repositories/RepositoryZuvoPet.cs:201-205 | the first adopter of the account, or none exactly when it has none |
| Accounts.UserExists | Repositories/RepositoryZuvoPet.cs:42-48 | true exactly when some user has the name or the e-mail, ignoring case |
| Accounts.RegisterUser | Repositories/RepositoryZuvoPet.cs:340-361 | fails exactly on an empty table (`MaxAsync`); null with no change exactly on a case-sensitive clash; otherwise one new last user under the next key (`GetMaxIdAsync`), whose key is returned, with the given fields, a Base64 salt of the random bytes and the password digest under it |
| Accounts.ExactConflictImpliesUserExists | Repositories/RepositoryZuvoPet.cs:42-48 | an exact clash is also a clash ignoring case |
| Accounts.CaseOnlyClashPassesRegistration | Repositories/RepositoryZuvoPet.cs:340-361 | "ana" is reported taken when "Ana" exists, yet `RegisterUserAsync` would create it |
| Accounts.LogInUser | Repositories/RepositoryZuvoPet.cs:426-453 | the first user with the name, exactly when the digest of the password under that user's salt equals the stored one |
| Accounts.RegisterThenLogIn | Repositories/RepositoryZuvoPet.cs:355-356 | a user who has just registered signs in with the same password and gets the new row |
| Accounts.WrongPasswordRefused | Repositories/RepositoryZuvoPet.cs:426-453 | a password whose digest differs from the stored one is refused |
| Accounts.RegisterAdoptante | Repositories/RepositoryZuvoPet.cs:377-394 | fails exactly on an empty table; otherwise one new last adopter with the next key, the account, the given name, housing, garden, other-animals and time-at-home fields, and the single default resource in place of the resources argument |
| Accounts.RegisteredAdopterIsFound | Repositories/RepositoryZuvoPet.cs:377-394 | an account without an adopter finds the new one afterwards |
| Calendar.LeIsTotalOrder | Repositories/RepositoryZuvoPet.cs:1009 | the order on dates is total, transitive and antisymmetric, so every date sort is well defined |
| Pets.AgeClosedForm | Repositories/RepositoryZuvoPet.cs:100-125 | the age is 12 × year difference + month difference, less one before the day of the month |
| Pets.AgeSign | Repositories/RepositoryZuvoPet.cs:100-125 | the age is non-negative exactly when birth is not after today, and 0 on the day of birth |
| Pets.FeaturedPets | Repositories/RepositoryZuvoPet.cs:20-40 | min(6, available) available pets in featured order: more views first, then earlier birth; no available pet left out ranks before one shown |
| Pets.ObtenerMascotasDestacadas | Repositories/RepositoryZuvoPet.cs:20-40 | the i-th card is the card of the i-th pet of `FeaturedPets`, with its age in months; so at most six, each of an available pet |
| Pets.CrearMascotaRefugio | Repositories/RepositoryZuvoPet.cs:741-778 | succeeds exactly when the pet table is not empty and the account has a shelter (an empty table fails first); then the shelter gets one new last pet with the next key and no views, and its count goes up by one; nothing else changes |
| Pets.UpdateMascota | Repositories/RepositoryZuvoPet.cs:786-822 | false with no change for an unknown pet; otherwise only that pet changes: profile and state copied, photo only when one is given |
| Pets.UpdateMascotaIdempotent | Repositories/RepositoryZuvoPet.cs:786-822 | updating twice with the same data is updating once |
| Pets.DeleteMascota | Repositories/RepositoryZuvoPet.cs:824-891 | false for an unknown pet and true whenever a known pet is deleted; a known pet fails exactly when its shelter is missing; otherwise the pet, its favourites, requests and stories are removed and its shelter's count goes down by one, all or nothing |
| Pets.CreatedPetLocated | Repositories/RepositoryZuvoPet.cs:741-778 | below `Int32.MaxValue`, looking up the new key finds the new pet, and it belongs to the account's shelter |
| Pets.CreateThenDeleteRestores | Repositories/RepositoryZuvoPet.cs:824-891 | deleting the pet just created gives back the pet and shelter tables as they were |
| Pets.ActualizarFotoMascota | Repositories/RepositoryZuvoPet.cs:1452-1469 | false with no change for an unknown pet; otherwise only that pet's photo changes |
| Pets.IncrementarVistasMascota | Repositories/RepositoryZuvoPet.cs:1471-1488 | false with no change for an unknown pet; otherwise only that pet changes, in its view count alone, which goes up by one below `Int32.MaxValue` |
| Pets.ViewRaisesRank | Repositories/RepositoryZuvoPet.cs:1471-1488 | a view puts the pet strictly ahead of its former self in featured order |
| Favorites.FavoritoIndex | Repositories/RepositoryZuvoPet.cs:504-521 | the first favourite of the pair, or none exactly when the pair has none |
| Favorites.EsFavorito | Repositories/RepositoryZuvoPet.cs:479-484 | fails without an adopter; otherwise true exactly when the adopter keeps the pet as a favourite |
| Favorites.InsertMascotaFavorita | Repositories/RepositoryZuvoPet.cs:486-502 | succeeds exactly when the table is not empty and the account has an adopter; an empty table fails first, then a missing adopter; on success one new last favourite with the next key |
| Favorites.EliminarFavorito | Repositories/RepositoryZuvoPet.cs:504-521 | fails without an adopter; false with no change when the pair has no favourite; otherwise removes the first one |
| Favorites.InsertThenEsFavorito | Repositories/RepositoryZuvoPet.cs:486-502 | a pet just added is a favourite |
| Favorites.InsertThenEliminarRestores | Repositories/RepositoryZuvoPet.cs:504-521 | removing a favourite just added to a pair without one gives back the table as it was |
| Favorites.EliminarCountsDown | Repositories/RepositoryZuvoPet.cs:504-521 | a removal lowers the pair's count by exactly one |
| Favorites.ObtenerUltimaAccionFavorito | Repositories/RepositoryZuvoPet.cs:557-566 | fails exactly when the account has no adopter |
| Favorites.UltimaAccionIsLatest | Repositories/RepositoryZuvoPet.cs:557-566 | the date returned is that of one of the pair's favourites, with none later; none means the pair has no favourite |
| Favorites.GuardarUltimaAccionFavorito | Repositories/RepositoryZuvoPet.cs:568-579 | fails exactly without an adopter; otherwise one new last favourite of the pair at the given date, under the default key 0 |
| Favorites.GuardarThenUltimaAccion | Repositories/RepositoryZuvoPet.cs:557-579 | saving an action no earlier than any recorded for the pair makes it the last action reported, and the pet a favourite |
| Stories.ObtenerHistoriasExito | Repositories/RepositoryZuvoPet.cs:127-136 | exactly the approved stories, each as often as it is stored (same multiset), newest first |
| Stories.GetMascotasAdoptadasSinHistoria | Repositories/RepositoryZuvoPet.cs:148-177 | fails exactly without an adopter; otherwise a list of pets from the table |
| Stories.PetsWithoutStoryAre | Repositories/RepositoryZuvoPet.cs:148-177 | a pet is listed exactly when the adopter adopted it and has written no story about it |
| Stories.CrearHistoriaExito | Repositories/RepositoryZuvoPet.cs:179-199 | succeeds exactly when the table is not empty and the account has an adopter; an empty table fails first, then a missing adopter; on success one new last story, published under the adopter with the given content |
| Stories.CreatedStoryIsPublished | Repositories/RepositoryZuvoPet.cs:179-199 | a story just written is on the public list |
| Stories.CreatedStoryClosesPending | Repositories/RepositoryZuvoPet.cs:148-199 | writing a story takes its pet off the list of pets without a story, and adds no pet to it |
| Stories.ObtenerLikeHistoria | Repositories/RepositoryZuvoPet.cs:207-215 | the story's reactions, newest first, each as often as it is stored |
| Stories.ObtenerLikeUsuarioHistoria | Repositories/RepositoryZuvoPet.cs:216-224 | the user's reaction to the story, or none exactly when there is none |
| Stories.CrearLikeHistoria | Repositories/RepositoryZuvoPet.cs:226-258 | false with no change for an unknown user or an empty table; otherwise one new last reaction |
| Stories.ActualizarLikeHistoria | Repositories/RepositoryZuvoPet.cs:260-285 | false with no change when the user has no reaction; otherwise only that reaction gets the new kind and date |
| Stories.ActualizarThenObtenerLike | Repositories/RepositoryZuvoPet.cs:260-285 | after an update, reading the user's reaction back gives the same row with the new kind and date |
| Stories.EliminarLikeHistoria | Repositories/RepositoryZuvoPet.cs:287-309 | false with no change when the user has no reaction; otherwise removes the first one |
| Stories.ObtenerContadoresReacciones | Repositories/RepositoryZuvoPet.cs:311-327 | exactly the five counter keys |
| Stories.ContadoresCountTable | Repositories/RepositoryZuvoPet.cs:311-327 | each counter is the number of stored reactions of its kind to the story |
| Stories.CrearLikeRaisesItsCounter | Repositories/RepositoryZuvoPet.cs:226-258 | a new reaction raises its own counter on its own story by one and no other |
| Stories.EliminarLikeLowersItsCounter | Repositories/RepositoryZuvoPet.cs:287-309 | removing a reaction lowers its kind's counter by one and leaves the others |
| Adoptions.CrearSolicitudAdopcion | Repositories/RepositoryZuvoPet.cs:625-655 | succeeds exactly when the account has an adopter and the table is not empty; a missing adopter fails first, then an empty table; on success one new last pending request carrying the adopter's home details |
| Adoptions.ExisteSolicitudAdopcion | Repositories/RepositoryZuvoPet.cs:698-710 | true exactly when the account's adopter has a request, in any state, for the pet |
| Adoptions.FiledRequestExists | Repositories/RepositoryZuvoPet.cs:625-710 | once filed, a request exists |
| Adoptions.CrearNotificacion | Repositories/RepositoryZuvoPet.cs:673-697 | succeeds exactly when the table is not empty and the shelter exists; an empty table fails first, then a missing shelter; on success the shelter's account gets one unread notice linking the request |
| Adoptions.CrearNotificacionTellsShelter | Repositories/RepositoryZuvoPet.cs:673-697 | the shelter's account has one more notification and one more unread, and something new since any earlier moment; other accounts' totals stay |
| Adoptions.ProcesarSolicitudAdopcion | Repositories/RepositoryZuvoPet.cs:923-1004 | false with no change exactly for an unknown request; a known request fails exactly when there is no notice yet, its adopter has no account, the pet is missing for "Aprobada" or "Rechazada", or on approval a rival's adopter is missing; a known request that does not fail answers true |
| Adoptions.AnswerAt | Repositories/RepositoryZuvoPet.cs:937-1003 | answering a known request fails exactly under the conditions of `AnswerFails`, an empty notice table with `EmptyTable`; success always reports true |
| Adoptions.AnswerKeepsTheRest | Repositories/RepositoryZuvoPet.cs:923-1004 | the request gets the state and time; notices are only appended; users, adopters, shelters, stories, likes and messages stay; any state but "Aprobada" adds one notice and touches no pet |
| Adoptions.AnswerNotice | Repositories/RepositoryZuvoPet.cs:923-1004 | an answer other than "Aprobada" appends one notice, under the next key, to the adopter's account: "Rechazada" names the pet and links to the pet listing; any other state has neither text nor link |
| Adoptions.ApprovalSettlesPet | Repositories/RepositoryZuvoPet.cs:948-978 | after approval the pet is "Adoptado", nobody keeps it as a favourite, no other request for it is pending, and requests for other pets are untouched |
| Adoptions.ApprovalNotifiesEveryRival | Repositories/RepositoryZuvoPet.cs:958-972 | each turned-down rival gets exactly one notice, in table order, sent to its adopter's account with the adopted-elsewhere text |
| Adoptions.ApprovalNotifiesAdopter | Repositories/RepositoryZuvoPet.cs:974-990 | the approved adopter's congratulation comes last |
| Adoptions.ApprovalNoticeKeysFresh | Repositories/RepositoryZuvoPet.cs:943-990 | below `Int32.MaxValue`, every notice of an approval has a key of its own, none already in the table |
| Adoptions.RejectionNoticesContent | Repositories/RepositoryZuvoPet.cs:958-972 | the i-th rejection goes to the i-th rival's account with the adopted-elsewhere text |
| Adoptions.RejectionNoticesKeys | Repositories/RepositoryZuvoPet.cs:943-972 | the i-th rejection has key `firstId + i` |
| Adoptions.ProcesarSolicitudAsWritten | Repositories/RepositoryZuvoPet.cs:923-1004 | as written, the answer agrees with the intended one for every state but "Aprobada" |
| Adoptions.ApprovalWithRivalFailsAsWritten | Repositories/RepositoryZuvoPet.cs:943-980 | as written, approving while another request for the pet is pending always throws |
| Adoptions.TwoPendingRequestsExample | Repositories/RepositoryZuvoPet.cs:943-980 | pet 1 with pending requests from adopters 1 and 2: approving request 1 as written throws `NullReferenceException`, while the intended answer succeeds and tells account 20 |
| Adoptions.ApprovalWithoutRivalAsIntended | Repositories/RepositoryZuvoPet.cs:923-1004 | as written, an approval with no rival is the intended one |
| Notifications.Inbox | Repositories/RepositoryZuvoPet.cs:1006-1014 | exactly the user's notifications, newest first, each as often as stored |
| Notifications.GetNotificacionesUsuario | Repositories/RepositoryZuvoPet.cs:1006-1014 | fails exactly when the wrapped offset or the size is negative; otherwise only the user's notifications, newest first, never more than the page size, none for size 0, with the database unchanged |
| Notifications.WrappedOffsetIsRejected | Repositories/RepositoryZuvoPet.cs:1011 | page 3 of size 2^30 has offset `int.MinValue`, and the query fails |
| Notifications.WrappedOffsetRestarts | Repositories/RepositoryZuvoPet.cs:1011 | page 5 of size 2^30 has offset 0, so it is the first page again |
| Notifications.PagingAnsweredWhenOffsetFits | Repositories/RepositoryZuvoPet.cs:1006-1014 | a positive page and size whose offset fits an `int` are answered |
| Notifications.PageOffset | Repositories/RepositoryZuvoPet.cs:1011 | `(pagina - 1) * tamañoPagina` in `int` arithmetic, exact while it fits |
| Notifications.PageIsSlice | Repositories/RepositoryZuvoPet.cs:1006-1014 | a page is the slice of the newest-first list that starts after `(pagina - 1) × size` notifications |
| Notifications.PagesCoverInbox | Repositories/RepositoryZuvoPet.cs:1006-1014 | every notification appears on the page its position says, so paging through shows each one |
| Notifications.TotalIsInboxLength | Repositories/RepositoryZuvoPet.cs:1016-1021 | the total is the length of the list that pages are cut from |
| Notifications.GetTotalNotificacionesUsuario | Repositories/RepositoryZuvoPet.cs:1016-1021 | zero exactly when the user has no notification, and never more than the table holds |
| Notifications.GetTotalNotificacionesNoLeidas | Repositories/RepositoryZuvoPet.cs:1023-1028 | zero exactly when every notification of the user is read |
| Notifications.MarcarNotificacionComoLeida | Repositories/RepositoryZuvoPet.cs:1030-1043 | true exactly when the user owns such a notification; then only that one becomes read; otherwise nothing changes |
| Notifications.MarcarLeidaCounts | Repositories/RepositoryZuvoPet.cs:1030-1043 | the total stays, and the unread count drops by one exactly when the notice was unread |
| Notifications.MarcarTodasClearsUnread | Repositories/RepositoryZuvoPet.cs:1045-1058 | afterwards the user has no unread notification, and marking again changes nothing |
| Notifications.MarcarTodasKeepsTheRest | Repositories/RepositoryZuvoPet.cs:1045-1058 | other users' notifications and counts are untouched; only the user's read flags change |
| Notifications.MarcarTodasNotificacionesComoLeidas | Repositories/RepositoryZuvoPet.cs:1045-1058 | always reports true; only the notification table changes, and it keeps its length |
| Notifications.EliminarNotificacion | Repositories/RepositoryZuvoPet.cs:1060-1073 | true exactly when the user owns such a notification; then that one is removed; otherwise nothing changes |
| Notifications.EliminarCountsDown | Repositories/RepositoryZuvoPet.cs:1060-1073 | a deletion lowers the user's total by one and leaves every other user's |
| Notifications.HayNotificacionesNuevasDesde | Repositories/RepositoryZuvoPet.cs:1075-1082 | true exactly when the user has a notification later than the given instant |
| Notifications.NewShowsFirst | Repositories/RepositoryZuvoPet.cs:1006-1082 | when something is new, the first page starts with a new notification |
| Messages.GetMensajesConversacion | Repositories/RepositoryZuvoPet.cs:1083-1092 | exactly the messages between the two users, in either direction, oldest first |
| Messages.ConversationIsSymmetric | Repositories/RepositoryZuvoPet.cs:1083-1092 | both participants see the same conversation in the same order |
| Messages.AgregarMensaje | Repositories/RepositoryZuvoPet.cs:1194-1209 | an empty table fails; otherwise one new last unread message with the next key and the given content |
| Messages.SentMessageIsDelivered | Repositories/RepositoryZuvoPet.cs:1194-1209 | a sent message is in the receiver's view and raises the receiver's unread count from the sender by one |
| Messages.MarcarMensajesComoLeidos | Repositories/RepositoryZuvoPet.cs:1321-1351 | the answer is whether anything from the other user was unread |
| Messages.MarcarMensajesSettles | Repositories/RepositoryZuvoPet.cs:1321-1351 | afterwards nothing from the other user is unread, and a second call answers false and changes nothing |
| Messages.MarcarMensajesKeepsTheRest | Repositories/RepositoryZuvoPet.cs:1321-1351 | only messages from the other user to the caller become read; every other message stays |

## Left out

- Vendor code:
  - SHA-256/512, AES-CBC, Base64, UTF-8 and the JSON serialisers are function values; their laws are stated, not derived.
  - JWT signing and serialisation (`JwtSecurityTokenHandler`, `SigningCredentials`) are not modelled.
- Storage I/O:
  - blob and S3 uploads, downloads and deletions are recorded as calls, with no effect modelled;
  - `GetImagen`, `DeleteFotoMascota` and `ObtenerFotoPerfilUrl` are not modelled;
  - the response's `fotoUrl` is not modelled.
- Avatar image rendering, the font download and `GenerarColorAleatorio`: random values and floating point.
- `Registro` after `RegisterUserAsync`:
  - the avatar upload, `RegisterPerfilUserAsync` and `RegisterRefugioAsync` are not modelled;
  - `RegisterRefugioAsync` and the coordinates handle floating point, including the latitude/longitude swap.
- `Login`'s `GetFotoPerfilAsync` call: its result is not used in the response.
- Listing and profile methods of `RepositoryZuvoPet` that are plain projections, or backed by `CALL SP_*` stored procedures whose SQL is not part of this model:
  - the listings: `ObtenerMascotasAsync`, `ObtenerMascotasRefugioAsync`, `ObtenerRefugiosAsync`, `GetSolicitudesAprobadasAdoptante`, `GetFotoPerfilAsync`, `GetPerfilAdoptante`, `GetPerfilRefugio`, `ObtenerMascotasFavoritas`, `ObtenerMascotasAdoptadas`;
  - the detail getters: `GetDetallesMascotaAsync`, `GetDetallesRefugioAsync`, `GetRefugio`, `GetMascotasPorRefugioAsync`, `IdRefugioPorMascotaAsync`, `GetNombreMascotaAsync`;
  - the counts and requests: `GetSolicitudesPendientesCountAsync`, `GetMascotasByRefugioIdAsync`, `GetSolicitudesByEstadoAndRefugioAsync`, `GetSolicitudesRefugioAsync`, `GetSolicitudByIdAsync`;
  - conversations and chat getters: `GetConversacionesAdoptanteAsync`, `GetConversacionesRefugioAsync`, the chat getters at the end of the file.
- The profile updates (`Actualizar*` at lines 1211-1450 of the repository):
  - they write profile and description fields through views the model does not hold;
  - `ActualizarUbicacionRefugioAsync` rounds floating point.
- The controllers' one-line pass-through actions: each calls a modelled repository method with the caller's id.
- `Startup.cs`, `Program.cs`, `HelperSecretsManager.cs` and `HelperActionServicesOAuth.cs`: bootstrap, dependency injection, secret retrieval and JWT validation configuration.
- `Include` and navigation properties:
  - a navigation is modelled as a lookup of the first row with the foreign key, and a missing row is a `NullReference` fault;
  - the one place where an unloaded navigation matters is modelled in `Adoptions.ProcesarSolicitudAsWritten`.
- String comparison:
  - comparisons are C# ordinal comparisons; MySQL collation, which may compare case-insensitively on the server, is not modelled;
  - `ToLower`/`ToUpper` change ASCII letters only; the culture-aware mapping of other letters is not modelled.
- Decimal digits: `Text.IsDecimalDigit` lists the Basic Multilingual Plane digit ranges of Unicode 15; a runtime built on another Unicode version may differ by a range.
- Avatar.GetIniciales: `char.ToUpper` is modelled on ASCII letters only, so a word opening with "é" keeps it lower-case in the model.
- The `Mascota` record holds no `Latitud` or `Longitud`: no modelled operation reads them, and they are floating point.
- Counts returned as `int` (`GetTotalNotificacionesUsuarioAsync`, the reaction counters) are unbounded naturals: a table of more than `Int32.MaxValue` rows is not modelled.
- Asynchrony, `SaveChangesAsync` batching and concurrent requests: each repository method is one atomic transition, and `DeleteMascotaAsync`'s transaction is all-or-nothing.
- RefugioApi.PostFotoPerfil: the database is returned unchanged. The new profile photo is written by `ActualizarFotoPerfilAsync` through a view this model does not hold, and that method's result is ignored by the action.
- AdoptanteApi.PostFotoPerfil: the database is returned unchanged. Whether `ActualizarFotoPerfilAdoptante` succeeded is the parameter `updated`.
- Favorites.ObtenerUltimaAccionFavorito: its own contract states only the failure case; what it returns is stated by `Favorites.UltimaAccionIsLatest`.
- Stories.GetMascotasAdoptadasSinHistoria: its own contract states only the failure case and a bound; which pets are listed is stated by `Stories.PetsWithoutStoryAre`.
- Pets.CalcularEdadEnMeses: its properties are stated by `Pets.AgeClosedForm` and `Pets.AgeSign`. The intermediate month value (0..11 after adjustment) is not stated separately.
- Favorites.GuardarUltimaAccionFavorito: the new row keeps key 0 as the code leaves it. The entity classes are not part of this model, so whether the store generates the key on insert is not modelled. No controller action calls this method.
- Culture: `Numerics.ParseInt32` and `Numerics.IntToDecimal` follow the invariant culture (ASCII digits and `-`). `int.Parse` and `Int32.ToString()` use the current culture, whose negative sign or digits may differ; that is not modelled.
- Numerics.ParseInt32: its own contract states only that a text without a decimal digit never parses; that it reads back what `Int32.ToString()` writes is stated by `Numerics.ParseFormatRoundTrip`.
- Uploads.CallerId: `int.Parse` of a missing `NameIdentifier` claim is modelled as a failure that answers 500, as the actions' `catch` does.

## Differences from the written descriptions

- Password message and expression (Controllers/AuthController.cs:182-186):
  - the message says "al menos 8 caracteres"; the expression counts UTF-16 code units, so six characters with two emoji pass (`Validation.EmojiCountTwice`);
  - `\d` is any decimal digit of the Basic Multilingual Plane, so an Arabic-Indic digit satisfies "números" (`Validation.ArabicDigitCounts`);
  - `$` also matches before a final line feed, so "Abcdefg1\n" passes, with the line feed as its special character (`Validation.TrailingLineFeedIsSpecial`).
- E-mail expression (Controllers/AuthController.cs:189-193): for the same reason, an address may end in one line feed.
- Duplicate names and e-mails:
  - `UserExistsAsync` (Repositories/RepositoryZuvoPet.cs:42-48) ignores case, while `RegisterUserAsync`'s own test (Repositories/RepositoryZuvoPet.cs:342-348) is case-sensitive;
  - so after the check at Controllers/AuthController.cs:195-199, the "No se pudo crear el usuario" branch at Controllers/AuthController.cs:212-215 can never be taken (`AuthApi.RegistroNeverNotCreated`).
- `RegisterAdoptanteAsync` (Repositories/RepositoryZuvoPet.cs:377-394) takes a `recursosDisponibles` argument but stores the single default resource "Compromiso emocional" instead.
- Token lifetime (Controllers/AuthController.cs:153-159): `expires` reads the clock before `notBefore` does, so the token can live a little under the two hours `AddHours(2)` suggests.

## Findings

| source | as written | input that shows it | evidently intended | confidence | as-written member | corrected member |
|---|---|---|---|---|---|---|
| Repositories/RepositoryZuvoPet.cs:943-980 | every notice of one approval takes the key of the single `GetMaxIdAsync` reading, and each rival's adopter is reached through an `Adoptante` navigation that is never loaded | pet 1 with pending requests 1 (adopter 1) and 2 (adopter 2): approving request 1 dereferences request 2's `Adoptante`, which is `null`; if both requests were by adopter 1, the two tracked notices would share one key | each rival is turned down and told under a key of its own, and the adopter is looked up by key | not executed | Adoptions.TwoPendingRequestsExample | Adoptions.ApprovalNotifiesEveryRival |
| Controllers/AdoptanteController.cs:49-67 | the file is uploaded to S3 under the client's `archivo.FileName`, but the response reports the fresh `blobName` | a PNG called "foto.png" with GUID text "g": the client is told "g.png", and only "foto.png" is stored | the object is stored under the returned name, as the shelter's `SubirImagen` does | not executed | AdoptanteApi.SubirImagenAsWrittenLosesName | RefugioApi.SubirImagenNamesUpload |

=== FILE: accounts.dfy ===
/** The account part of `RepositoryZuvoPet`: the existence check used by
    registration, user creation with a fresh salt and password digest, and
    sign-in by name and password. Equality is C#'s ordinal string equality. */
module Accounts {
  import opened Wrappers
  import opened Numerics
  import opened Text
  import opened Seqs
  import opened Platform
  import opened Cryptography
  import opened Entities
  import opened Ids
  import opened Queries

  predicate SameNameOrEmail(u: Usuario, nombreUsuario: string, email: string)
  {
    u.nombreUsuario == nombreUsuario || u.email == email
  }

  predicate SameNameOrEmailIgnoringCase(u: Usuario, nombreUsuario: string, email: string)
  {
    ToLower(u.nombreUsuario) == ToLower(nombreUsuario) || ToLower(u.email) == ToLower(email)
  }

  /** `UserExistsAsync`: some user has the name or the e-mail, ignoring case. */
  function UserExists(db: Db, username: string, email: string): (r: bool)
    ensures r <==> exists i :: 0 <= i < |db.usuarios| && SameNameOrEmailIgnoringCase(db.usuarios[i], username, email)
  {
    FirstIndex(db.usuarios, (u: Usuario) => SameNameOrEmailIgnoringCase(u, username, email)).Some?
  }

  /** The exact-match test of `RegisterUserAsync`. */
  function ExactConflict(db: Db, nombreUsuario: string, email: string): (r: Option<nat>)
    ensures r.Some? ==> r.value < |db.usuarios| && SameNameOrEmail(db.usuarios[r.value], nombreUsuario, email)
    ensures r.None? <==> forall i :: 0 <= i < |db.usuarios| ==> !SameNameOrEmail(db.usuarios[i], nombreUsuario, email)
  {
    FirstIndex(db.usuarios, (u: Usuario) => SameNameOrEmail(u, nombreUsuario, email))
  }

  /** `RegisterUserAsync`: `None` when a user has exactly this name or
      e-mail; otherwise a new user with the next key, a salt made from
      `saltBytes` and the digest of the password under that salt. The clear
      password is stored as well. */
  function RegisterUser(lib: Library, db: Db, nombreUsuario: string, email: string, contrasenaLimpia: string,
                        tipoUsuario: string, saltBytes: Bytes): (r: Outcome<Option<Int32>>)
    requires |saltBytes| == SaltByteCount
    ensures ExactConflict(db, nombreUsuario, email).Some? <==> r == Done(db, None)
    ensures r.Failed? <==> |db.usuarios| == 0
    ensures r.Done? ==> (r.value.Some? <==> ExactConflict(db, nombreUsuario, email).None?)
    ensures r.Done? && r.value.Some? ==> r.value.value == NextKey(db.usuarios, (u: Usuario) => u.id).value
    ensures r.Done? && r.value.Some? ==>
      var n := |db.usuarios|;
      |r.db.usuarios| == n + 1 && r.db.usuarios[..n] == db.usuarios
      && r.db == db.(usuarios := r.db.usuarios)
      && var u := r.db.usuarios[n];
         u.id == r.value.value && u.nombreUsuario == nombreUsuario && u.email == email
         && u.tipoUsuario == tipoUsuario && u.contrasenaLimpia == contrasenaLimpia
         && u.contrasenaEncriptada == PasswordDigest(lib, contrasenaLimpia, u.salt)
         && lib.toBase64(saltBytes) == u.salt
  {
    if ExactConflict(db, nombreUsuario, email).Some? then Done(db, None)
    else match NextKey(db.usuarios, (u: Usuario) => u.id)
      case None => Failed(EmptyTable)
      case Some(id) =>
        var salt := GenerateSalt(lib, saltBytes);
        var user := Usuario(id, nombreUsuario, email, contrasenaLimpia, salt,
                            PasswordDigest(lib, contrasenaLimpia, salt), tipoUsuario);
        assert (db.usuarios + [user])[..|db.usuarios|] == db.usuarios;
        Done(db.(usuarios := db.usuarios + [user]), Some(id))
  }

  /** An exact clash is also a clash ignoring case, so after `UserExists`
      has said no, `RegisterUser` does not return `None`. */
  lemma ExactConflictImpliesUserExists(db: Db, nombreUsuario: string, email: string)
    requires ExactConflict(db, nombreUsuario, email).Some?
    ensures UserExists(db, nombreUsuario, email)
  {
    var i := ExactConflict(db, nombreUsuario, email).value;
    assert SameNameOrEmailIgnoringCase(db.usuarios[i], nombreUsuario, email);
  }

  /** The converse fails: a name that differs only in case passes the
      repository's own test although `UserExists` reports it taken. */
  lemma CaseOnlyClashPassesRegistration(lib: Library, saltBytes: Bytes)
    requires |saltBytes| == SaltByteCount
    ensures var db := Db([Usuario(1, "Ana", "ana@x.es", "", "", [], "Adoptante")], [], [], [], [], [], [], [], [], []);
      UserExists(db, "ana", "otra@x.es")
      && RegisterUser(lib, db, "ana", "otra@x.es", "Secret#123A", "Adoptante", saltBytes).Done?
      && RegisterUser(lib, db, "ana", "otra@x.es", "Secret#123A", "Adoptante", saltBytes).value == Some(2)
  {
    var db := Db([Usuario(1, "Ana", "ana@x.es", "", "", [], "Adoptante")], [], [], [], [], [], [], [], [], []);
    assert SameNameOrEmailIgnoringCase(db.usuarios[0], "ana", "otra@x.es");
    assert !SameNameOrEmail(db.usuarios[0], "ana", "otra@x.es");
    assert Select(db.usuarios, (u: Usuario) => u.id) == [1];
  }

  /** The first user whose name equals `nombreUsuario` (`FirstOrDefaultAsync`). */
  function FirstNamed(db: Db, nombreUsuario: string): (r: Option<nat>)
    ensures r.Some? ==> r.value < |db.usuarios| && db.usuarios[r.value].nombreUsuario == nombreUsuario
    ensures r.Some? ==> forall j :: 0 <= j < r.value ==> db.usuarios[j].nombreUsuario != nombreUsuario
    ensures r.None? <==> forall j :: 0 <= j < |db.usuarios| ==> db.usuarios[j].nombreUsuario != nombreUsuario
  {
    FirstIndex(db.usuarios, (u: Usuario) => u.nombreUsuario == nombreUsuario)
  }

  /** `LogInUserAsync`: the first user with the name, provided the digest of
      the given password under that user's salt equals the stored one
      (`CompararArrays`). */
  function LogInUser(lib: Library, db: Db, nombreUsuario: string, contrasena: string): (r: Option<Usuario>)
    ensures r.Some? <==> (FirstNamed(db, nombreUsuario).Some?
      && var u := db.usuarios[FirstNamed(db, nombreUsuario).value];
         PasswordDigest(lib, contrasena, u.salt) == u.contrasenaEncriptada)
    ensures r.Some? ==> r.value == db.usuarios[FirstNamed(db, nombreUsuario).value]
  {
    match FirstNamed(db, nombreUsuario)
    case None => None
    case Some(k) =>
      var user := db.usuarios[k];
      var temp := PasswordDigest(lib, contrasena, user.salt);
      SameBytesIsEquality(temp, user.contrasenaEncriptada);
      if SameBytes(temp, user.contrasenaEncriptada) then Some(user) else None
  }

  /** A user who has just registered can sign in with the same name and
      password, and sign-in returns the new row. */
  lemma RegisterThenLogIn(lib: Library, db: Db, nombreUsuario: string, email: string, contrasenaLimpia: string,
                          tipoUsuario: string, saltBytes: Bytes)
    requires |saltBytes| == SaltByteCount
    requires RegisterUser(lib, db, nombreUsuario, email, contrasenaLimpia, tipoUsuario, saltBytes).Done?
    requires RegisterUser(lib, db, nombreUsuario, email, contrasenaLimpia, tipoUsuario, saltBytes).value.Some?
    ensures var after := RegisterUser(lib, db, nombreUsuario, email, contrasenaLimpia, tipoUsuario, saltBytes).db;
      LogInUser(lib, after, nombreUsuario, contrasenaLimpia) == Some(after.usuarios[|db.usuarios|])
  {
    var after := RegisterUser(lib, db, nombreUsuario, email, contrasenaLimpia, tipoUsuario, saltBytes).db;
    var n := |db.usuarios|;
    assert forall j :: 0 <= j < n ==> after.usuarios[j].nombreUsuario != nombreUsuario by {
      forall j | 0 <= j < n ensures after.usuarios[j].nombreUsuario != nombreUsuario {
        assert after.usuarios[j] == db.usuarios[j];
        assert !SameNameOrEmail(db.usuarios[j], nombreUsuario, email);
      }
    }
    assert FirstNamed(after, nombreUsuario) == Some(n);
  }

  /** A password whose digest under the user's salt differs from the stored
      one is refused. */
  lemma WrongPasswordRefused(lib: Library, db: Db, nombreUsuario: string, contrasena: string)
    requires FirstNamed(db, nombreUsuario).Some?
    requires var u := db.usuarios[FirstNamed(db, nombreUsuario).value];
      PasswordDigest(lib, contrasena, u.salt) != u.contrasenaEncriptada
    ensures LogInUser(lib, db, nombreUsuario, contrasena).None?
  {
  }

  const DefaultResources: seq<string> := ["Compromiso emocional"]

  /** `RegisterAdoptanteAsync`: a new adopter row with the next key; the
      resources argument is ignored and the row always gets the one default
      resource. */
  function RegisterAdoptante(db: Db, idUsuario: Int32, nombre: string, tipoVivienda: string, tieneJardin: bool,
                             otrosAnimales: bool, recursosDisponibles: seq<string>, tiempoEnCasa: string): (r: Outcome<()>)
    ensures r.Failed? <==> |db.adoptantes| == 0
    ensures r.Done? ==>
      var n := |db.adoptantes|;
      |r.db.adoptantes| == n + 1 && r.db.adoptantes[..n] == db.adoptantes
      && r.db == db.(adoptantes := r.db.adoptantes)
      && r.db.adoptantes[n] == Adoptante(NextKey(db.adoptantes, (a: Adoptante) => a.id).value, idUsuario, nombre,
                                         tipoVivienda, tieneJardin, otrosAnimales, DefaultResources, tiempoEnCasa)
      && r.db.adoptantes[n].recursosDisponibles == DefaultResources
  {
    match NextKey(db.adoptantes, (a: Adoptante) => a.id)
    case None => Failed(EmptyTable)
    case Some(id) =>
      var adoptante := Adoptante(id, idUsuario, nombre, tipoVivienda, tieneJardin, otrosAnimales, DefaultResources, tiempoEnCasa);
      assert (db.adoptantes + [adoptante])[..|db.adoptantes|] == db.adoptantes;
      Done(db.(adoptantes := db.adoptantes + [adoptante]), ())
  }

  /** An account without an adopter finds the one just registered for it,
      in the new last row. */
  lemma RegisteredAdopterIsFound(db: Db, idUsuario: Int32, nombre: string, tipoVivienda: string, tieneJardin: bool,
                                 otrosAnimales: bool, recursosDisponibles: seq<string>, tiempoEnCasa: string)
    requires RegisterAdoptante(db, idUsuario, nombre, tipoVivienda, tieneJardin, otrosAnimales, recursosDisponibles, tiempoEnCasa).Done?
    requires AdoptanteOfUsuario(db, idUsuario).None?
    ensures var after := RegisterAdoptante(db, idUsuario, nombre, tipoVivienda, tieneJardin, otrosAnimales,
                                           recursosDisponibles, tiempoEnCasa).db;
      AdoptanteOfUsuario(after, idUsuario) == Some(|db.adoptantes|)
  {
    var after := RegisterAdoptante(db, idUsuario, nombre, tipoVivienda, tieneJardin, otrosAnimales,
                                   recursosDisponibles, tiempoEnCasa).db;
    assert forall j :: 0 <= j < |db.adoptantes| ==> after.adoptantes[j] == db.adoptantes[j];
  }
}

=== FILE: adopterapi.dfy ===
/** `AdoptanteController`'s upload actions and the construction of a success
    story from the client's form. */
module AdoptanteApi {
  import opened Wrappers
  import opened Numerics
  import opened Calendar
  import opened Text
  import opened Platform
  import opened Cryptography
  import opened Entities
  import opened Queries
  import opened Tokens
  import opened Storage
  import opened Uploads
  import Stories

  /** `SubirImagen` as the adopter controller has it: the guards and the
      fresh name are those of the shelter's action, but the file goes to S3
      under the client's own file name while the response names the fresh
      blob. `bucketName` is the configured S3 bucket; the reported success
      of the upload is discarded, so the S3 status plays no part. */
  function SubirImagenAsWritten(db: Db, archivo: Option<FormFile>, guid: string, bucketName: string): (r: Reply)
    ensures r.status == BadRequest <==> !CheckUpload(archivo).Image?
    ensures r.status == BadRequest || r.status == Ok
    ensures r.db == db
    ensures r.status == BadRequest ==> r.calls == [] && r.nombreFoto.None?
    ensures r.status == Ok ==>
      r.nombreFoto == Some(BlobName(guid, CheckUpload(archivo).extension))
      && StoredNames(r.calls) == {archivo.value.fileName}
  {
    match CheckUpload(archivo)
    case NoFile => Early(BadRequest, db)
    case NotAnImage => Early(BadRequest, db)
    case Image(extension) =>
      var blobName := BlobName(guid, extension);
      var request := UploadFileAsync(bucketName, archivo.value.fileName, HttpOk).0;
      Reply(Ok, db, [PutObject(request)], Some(blobName))
  }

  /** A PNG called "foto.png" with the GUID text "g": the client is told
      the image is "g.png", but the only object written is "foto.png". */
  lemma SubirImagenAsWrittenLosesName(db: Db, bucketName: string)
    ensures var r := SubirImagenAsWritten(db, Some(FormFile("foto.png", 1)), "g", bucketName);
      r.status == Ok && r.nombreFoto == Some("g.png")
      && StoredNames(r.calls) == {"foto.png"} && "g.png" !in StoredNames(r.calls)
  {
    assert "foto" + ".png" == "foto.png";
    assert ExtensionShaped(".png");
    ExtensionOfSuffix("foto", ".png");
    assert ToLower(".png") == ".png";
    assert "g" + ".png" == "g.png";
    assert "g.png" != "foto.png" by {
      assert "g.png"[0] != "foto.png"[0];
    }
  }

  /** `PostFotoPerfil`. `fotoPerfil` is `adoptante.Usuario.PerfilUsuario.FotoPerfil`,
      `None` when the navigation is `null`; `updated` is what
      `ActualizarFotoPerfilAdoptante` reports, decided by a stored-procedure
      view that this model does not hold, so the database is returned
      unchanged. */
  function PostFotoPerfil(db: Db, archivo: Option<FormFile>, claims: seq<Claim>, guid: string,
                          fotoPerfil: Option<string>, updated: bool): (r: Reply)
    ensures r.db == db
    ensures r.status == BadRequest <==> !CheckUpload(archivo).Image?
    ensures r.status == NotFound <==>
      CheckUpload(archivo).Image? && CallerId(claims).Some? && AdoptanteOfUsuario(db, CallerId(claims).value).None?
    ensures r.status == Ok <==>
      CheckUpload(archivo).Image? && CallerId(claims).Some? && AdoptanteOfUsuario(db, CallerId(claims).value).Some?
      && fotoPerfil.Some? && updated
    ensures r.status == ServerError <==>
      CheckUpload(archivo).Image?
      && (CallerId(claims).None? || (AdoptanteOfUsuario(db, CallerId(claims).value).Some? && !(fotoPerfil.Some? && updated)))
    ensures r.status == Ok ==> r.nombreFoto == Some(BlobName(guid, CheckUpload(archivo).extension))
    ensures r.status != Ok ==> r.nombreFoto.None?
    ensures r.status != Ok && r.calls != [] ==> r.status == ServerError
  {
    match CheckUpload(archivo)
    case NoFile => Early(BadRequest, db)
    case NotAnImage => Early(BadRequest, db)
    case Image(extension) =>
      match CallerId(claims)
      case None => Early(ServerError, db)
      case Some(idUsuario) =>
        if AdoptanteOfUsuario(db, idUsuario).None? then Early(NotFound, db)
        else if fotoPerfil.None? then Early(ServerError, db)
        else
          var newFotoName := BlobName(guid, extension);
          var calls := [UpdateBlob(fotoPerfil.value, newFotoName)];
          if !updated then Reply(ServerError, db, calls, None)
          else Reply(Ok, db, calls, Some(newFotoName))
  }

  /** The blob is replaced before the profile is updated: when the update
      reports failure the old photo is already gone from storage and the
      500 leaves the profile naming it. */
  lemma FailedUpdateStillReplacesBlob(db: Db, archivo: Option<FormFile>, claims: seq<Claim>, guid: string, fotoPerfil: string)
    requires CheckUpload(archivo).Image? && CallerId(claims).Some?
    requires AdoptanteOfUsuario(db, CallerId(claims).value).Some?
    ensures var r := PostFotoPerfil(db, archivo, claims, guid, Some(fotoPerfil), false);
      r.status == ServerError && r.calls == [UpdateBlob(fotoPerfil, BlobName(guid, CheckUpload(archivo).extension))]
  {
  }

  /** `HistoriaExitoCreacionDTO`: what the client sends for a new story. */
  datatype HistoriaExitoCreacion = HistoriaExitoCreacion(idMascota: Int32, titulo: string, descripcion: string, foto: string)

  /** The `HistoriaExito` the action builds; the key and the adopter key are
      left at their default 0. */
  function StoryOfForm(dto: HistoriaExitoCreacion, controllerNow: DateTime): HistoriaExito
  {
    HistoriaExito(0, dto.idMascota, 0, dto.titulo, dto.descripcion, dto.foto, controllerNow, Stories.Aprobada)
  }

  /** The action's answer: the exception of an unidentified caller, or what
      the repository did. */
  datatype StoryResponse = StoryUnidentified(error: TokenError) | StoryStored(outcome: Outcome<bool>)

  /** `CrearHistoriaExito`. `controllerNow` and `repositoryNow` are the two
      readings of `DateTime.Now`, in the controller and in the repository. */
  function CrearHistoriaExito(lib: Library, settings: CipherSettings, db: Db, httpContext: Option<seq<Claim>>,
                              dto: HistoriaExitoCreacion, controllerNow: DateTime, repositoryNow: DateTime): (r: StoryResponse)
    ensures r.StoryUnidentified? <==> GetAuthenticatedUserId(lib, settings, httpContext).Failure?
    ensures r.StoryStored? ==>
      r.outcome == Stories.CrearHistoriaExito(db, StoryOfForm(dto, controllerNow),
                                              GetAuthenticatedUserId(lib, settings, httpContext).value, repositoryNow)
    ensures r.StoryStored? ==>
      (r.outcome.Done? <==>
         |db.historias| > 0 && AdoptanteOfUsuario(db, GetAuthenticatedUserId(lib, settings, httpContext).value).Some?)
    ensures r.StoryStored? && r.outcome.Done? ==>
      |r.outcome.db.historias| == |db.historias| + 1
      && var added := r.outcome.db.historias[|db.historias|];
      added.idMascota == dto.idMascota && added.titulo == dto.titulo
      && added.descripcion == dto.descripcion && added.foto == dto.foto
      && added.estado == Stories.Aprobada && added.fechaPublicacion == repositoryNow
      && AdopterKey(db, GetAuthenticatedUserId(lib, settings, httpContext).value).Success?
      && added.idAdoptante == AdopterKey(db, GetAuthenticatedUserId(lib, settings, httpContext).value).value
  {
    match GetAuthenticatedUserId(lib, settings, httpContext)
    case Failure(e) => StoryUnidentified(e)
    case Success(idUsuario) =>
      StoryStored(Stories.CrearHistoriaExito(db, StoryOfForm(dto, controllerNow), idUsuario, repositoryNow))
  }

  /** The date the controller puts on the story is discarded: the answer
      is the same whatever the controller's clock read. */
  lemma StoryIgnoresControllerClock(lib: Library, settings: CipherSettings, db: Db, httpContext: Option<seq<Claim>>,
                                    dto: HistoriaExitoCreacion, now1: DateTime, now2: DateTime, repositoryNow: DateTime)
    ensures CrearHistoriaExito(lib, settings, db, httpContext, dto, now1, repositoryNow)
         == CrearHistoriaExito(lib, settings, db, httpContext, dto, now2, repositoryNow)
  {
  }

  /** A story the action stores is on the public list straight away, and
      the pet leaves the adopter's list of adopted pets without a story. */
  lemma StoredStoryIsPublished(lib: Library, settings: CipherSettings, db: Db, httpContext: Option<seq<Claim>>,
                               dto: HistoriaExitoCreacion, controllerNow: DateTime, repositoryNow: DateTime)
    requires CrearHistoriaExito(lib, settings, db, httpContext, dto, controllerNow, repositoryNow).StoryStored?
    requires CrearHistoriaExito(lib, settings, db, httpContext, dto, controllerNow, repositoryNow).outcome.Done?
    ensures var idUsuario := GetAuthenticatedUserId(lib, settings, httpContext).value;
      var after := CrearHistoriaExito(lib, settings, db, httpContext, dto, controllerNow, repositoryNow).outcome.db;
      after.historias[|db.historias|] in Stories.ObtenerHistoriasExito(after)
      && Stories.GetMascotasAdoptadasSinHistoria(after, idUsuario).Success?
      && forall m :: m in Stories.GetMascotasAdoptadasSinHistoria(after, idUsuario).value ==> m.id != dto.idMascota
  {
    var idUsuario := GetAuthenticatedUserId(lib, settings, httpContext).value;
    var h := StoryOfForm(dto, controllerNow);
    Stories.CreatedStoryIsPublished(db, h, idUsuario, repositoryNow);
    Stories.CreatedStoryClosesPending(db, h, idUsuario, repositoryNow);
  }
}

=== FILE: adoptions.dfy ===
/** Adoption requests in `RepositoryZuvoPet`: an adopter files a request,
    the shelter is told, and the shelter answers it. Answering with
    "Aprobada" settles the pet: it is marked adopted, its favourites go,
    and every other pending request for it is turned down with a notice.

    The repository allocates the key of every notice of one answer with the
    same `GetMaxIdAsync` reading and reaches the turned-down adopters through
    a navigation it never loads. `ProcesarSolicitudAsWritten` models that;
    `ProcesarSolicitudAdopcion` is the evidently intended behaviour, with
    consecutive keys and the adopters looked up by key. */
module Adoptions {
  import opened Wrappers
  import opened Numerics
  import opened Calendar
  import opened Seqs
  import opened Entities
  import opened Ids
  import opened Queries
  import Notifications

  const Pendiente: string := "Pendiente"
  const Aprobada: string := "Aprobada"
  const Rechazada: string := "Rechazada"
  const Adoptado: string := "Adoptado"

  /** The `Tipo` of every notice an answer sends ("Aprobación"). */
  const TipoAprobacion: string := "Aprobaci\U{F3}n"
  const TipoMensaje: string := "Mensaje"

  function ApprovedMessage(nombre: string): string
  {
    "\U{A1}Felicidades! Tu solicitud para adoptar a " + nombre + " ha sido aprobada."
  }

  function RejectedMessage(nombre: string): string
  {
    "Lo sentimos, tu solicitud para adoptar a " + nombre + " ha sido rechazada."
  }

  function SupersededMessage(nombre: string): string
  {
    "Lo sentimos, tu solicitud para adoptar a " + nombre
      + " ha sido rechazada porque la mascota ya ha sido adoptada."
  }

  const ListadoAdoptanteUrl: string := "/Adoptante/Listado"
  const ListadoMascotasUrl: string := "/Mascotas/Listado"

  function DetallesMascotaUrl(idMascota: Int32): string
  {
    "/Adoptante/DetallesMascota?idmascota=" + IntToDecimal(idMascota)
  }

  function NewRequestMessage(nombreMascota: string): string
  {
    "Te ha llegado una nueva solicitud por " + nombreMascota
  }

  function DetallesSolicitudUrl(idSolicitud: Int32): string
  {
    "/Refugio/DetallesSolicitud?idsolicitud=" + IntToDecimal(idSolicitud)
  }

  /** The key `n` places after `id`, in C# `int` arithmetic. */
  function KeyAfter(id: Int32, n: nat): (r: Int32)
    ensures id + n <= MaxInt32 ==> r == id + n
  {
    Wrap32(id + n)
  }

  function NotificationKey(db: Db): Option<Int32>
  {
    NextKey(db.notificaciones, (n: Notificacion) => n.id)
  }

  /** The account behind an adopter key (the `Adoptante.IdUsuario` navigation). */
  function AdoptanteUser(db: Db, idAdoptante: Int32): Option<Int32>
  {
    match AdoptanteIndex(db, idAdoptante)
    case None => None
    case Some(j) => Some(db.adoptantes[j].idUsuario)
  }

  // ---------------------------------------------------------------------
  // Filing a request
  // ---------------------------------------------------------------------

  /** `CrearSolicitudAdopcionAsync`: a pending request of the account's
      adopter for the pet, with the adopter's home details copied in and
      previous experience meaning "has other animals". The adopter is read
      before the key is allocated, so a missing adopter fails first. */
  function CrearSolicitudAdopcion(db: Db, idUsuario: Int32, idMascota: Int32, now: DateTime): (r: Outcome<SolicitudAdopcion>)
    ensures AdoptanteOfUsuario(db, idUsuario).None? <==> r == Failed(NullReference)
    ensures AdoptanteOfUsuario(db, idUsuario).Some? && |db.solicitudes| == 0 ==> r == Failed(EmptyTable)
    ensures r.Done? <==> AdoptanteOfUsuario(db, idUsuario).Some? && |db.solicitudes| > 0
    ensures r.Done? ==>
      var a := db.adoptantes[AdoptanteOfUsuario(db, idUsuario).value];
      var s := r.value;
      r.db == db.(solicitudes := db.solicitudes + [s])
      && s.id == NextKey(db.solicitudes, (o: SolicitudAdopcion) => o.id).value
      && s.idAdoptante == a.id && a.idUsuario == idUsuario && s.idMascota == idMascota
      && s.estado == Pendiente && s.experienciaPrevia == a.otrosAnimales
      && s.tipoVivienda == a.tipoVivienda && s.otrosAnimales == a.otrosAnimales
      && s.recursosDisponibles == a.recursosDisponibles && s.tiempoEnCasa == a.tiempoEnCasa
      && s.fechaSolicitud == now && s.fechaRespuesta.None?
  {
    match AdoptanteOfUsuario(db, idUsuario)
    case None => Failed(NullReference)
    case Some(j) =>
      var a := db.adoptantes[j];
      var exp := if a.otrosAnimales then true else false;
      match NextKey(db.solicitudes, (o: SolicitudAdopcion) => o.id)
      case None => Failed(EmptyTable)
      case Some(id) =>
        var soli := SolicitudAdopcion(id, idMascota, a.id, Pendiente, exp, a.tipoVivienda, a.otrosAnimales,
                                      a.recursosDisponibles, a.tiempoEnCasa, now, None);
        Done(db.(solicitudes := db.solicitudes + [soli]), soli)
  }

  /** `ExisteSolicitudAdopcionAsync`: whether the account's adopter has a
      request (in any state) for the pet; `false` for an account without an
      adopter. */
  function ExisteSolicitudAdopcion(db: Db, idUsuario: Int32, idMascota: Int32): (r: bool)
    ensures r <==> (AdoptanteOfUsuario(db, idUsuario).Some?
      && exists j :: 0 <= j < |db.solicitudes|
           && db.solicitudes[j].idAdoptante == db.adoptantes[AdoptanteOfUsuario(db, idUsuario).value].id
           && db.solicitudes[j].idMascota == idMascota)
  {
    match AdoptanteOfUsuario(db, idUsuario)
    case None => false
    case Some(k) =>
      var idAdoptante := db.adoptantes[k].id;
      FirstIndex(db.solicitudes, (s: SolicitudAdopcion) => s.idAdoptante == idAdoptante && s.idMascota == idMascota).Some?
  }

  /** Once filed, a request exists: the guard the adopter controller puts
      before filing turns a second attempt away. */
  lemma {:induction false} FiledRequestExists(db: Db, idUsuario: Int32, idMascota: Int32, now: DateTime)
    requires CrearSolicitudAdopcion(db, idUsuario, idMascota, now).Done?
    ensures ExisteSolicitudAdopcion(CrearSolicitudAdopcion(db, idUsuario, idMascota, now).db, idUsuario, idMascota)
  {
    var r := CrearSolicitudAdopcion(db, idUsuario, idMascota, now);
    assert r.db.adoptantes == db.adoptantes;
    var n := |db.solicitudes|;
    assert r.db.solicitudes[n] == r.value;
  }

  /** `CrearNotificacionAsync`: tells the shelter's account that a request
      came in for the pet. The key is allocated before the shelter's account
      is read, so an empty notice table fails before a missing shelter. */
  function CrearNotificacion(db: Db, idSolicitud: Int32, idRefugio: Int32, nombreMascota: string, now: DateTime): (r: Outcome<bool>)
    ensures |db.notificaciones| == 0 <==> r == Failed(EmptyTable)
    ensures |db.notificaciones| > 0 ==> (r == Failed(NullReference) <==> RefugioIndex(db, idRefugio).None?)
    ensures r.Done? <==> |db.notificaciones| > 0 && RefugioIndex(db, idRefugio).Some?
    ensures r.Done? ==>
      var f := db.refugios[RefugioIndex(db, idRefugio).value];
      r.value
      && r.db == db.(notificaciones := db.notificaciones
           + [Notificacion(NotificationKey(db).value, f.idUsuario, TipoMensaje, Some(NewRequestMessage(nombreMascota)),
                           Some(DetallesSolicitudUrl(idSolicitud)), now, false)])
  {
    var refugio := RefugioIndex(db, idRefugio);
    match NotificationKey(db)
    case None => Failed(EmptyTable)
    case Some(id) =>
      if refugio.None? then Failed(NullReference)
      else
        var n := Notificacion(id, db.refugios[refugio.value].idUsuario, TipoMensaje, Some(NewRequestMessage(nombreMascota)),
                              Some(DetallesSolicitudUrl(idSolicitud)), now, false);
        Done(db.(notificaciones := db.notificaciones + [n]), true)
  }

  /** The shelter's account gains one unread notification, new since any
      earlier moment; every other account's totals stay as they were. */
  lemma CrearNotificacionTellsShelter(db: Db, idSolicitud: Int32, idRefugio: Int32, nombreMascota: string, now: DateTime,
                                      otro: Int32, desde: DateTime)
    requires CrearNotificacion(db, idSolicitud, idRefugio, nombreMascota, now).Done?
    ensures var after := CrearNotificacion(db, idSolicitud, idRefugio, nombreMascota, now).db;
      var shelter := db.refugios[RefugioIndex(db, idRefugio).value].idUsuario;
      Notifications.GetTotalNotificacionesNoLeidas(after, shelter) == Notifications.GetTotalNotificacionesNoLeidas(db, shelter) + 1
      && Notifications.GetTotalNotificacionesUsuario(after, shelter) == Notifications.GetTotalNotificacionesUsuario(db, shelter) + 1
      && (After(now, desde) ==> Notifications.HayNotificacionesNuevasDesde(after, shelter, desde))
      && (otro != shelter ==>
            Notifications.GetTotalNotificacionesUsuario(after, otro) == Notifications.GetTotalNotificacionesUsuario(db, otro)
            && Notifications.GetTotalNotificacionesNoLeidas(after, otro) == Notifications.GetTotalNotificacionesNoLeidas(db, otro))
  {
    var after := CrearNotificacion(db, idSolicitud, idRefugio, nombreMascota, now).db;
    var shelter := db.refugios[RefugioIndex(db, idRefugio).value].idUsuario;
    var n := after.notificaciones[|db.notificaciones|];
    assert after.notificaciones == db.notificaciones + [n];
    assert n.idUsuario == shelter && !n.leido && n.fecha == now;
    CountConcat(db.notificaciones, [n], Notifications.UnreadFor(shelter));
    CountConcat(db.notificaciones, [n], Notifications.ForUser(shelter));
    CountConcat(db.notificaciones, [n], Notifications.UnreadFor(otro));
    CountConcat(db.notificaciones, [n], Notifications.ForUser(otro));
  }

  // ---------------------------------------------------------------------
  // Answering a request
  // ---------------------------------------------------------------------

  function Answer(s: SolicitudAdopcion, estado: string, now: DateTime): SolicitudAdopcion
  {
    s.(estado := estado, fechaRespuesta := Some(now))
  }

  /** Another pending request for the same pet as `approved`. */
  predicate IsRival(s: SolicitudAdopcion, approved: SolicitudAdopcion)
  {
    s.idMascota == approved.idMascota && s.id != approved.id && s.estado == Pendiente
  }

  function Rivals(db: Db, approved: SolicitudAdopcion): seq<SolicitudAdopcion>
  {
    Filter(db.solicitudes, (o: SolicitudAdopcion) => IsRival(o, approved))
  }

  /** The request table after the answer: row `k` gets the new state, and on
      approval every rival is turned down at the same moment. */
  function AnswerRequests(t: seq<SolicitudAdopcion>, k: nat, nuevoEstado: string, rejectRivals: bool, now: DateTime)
    : (r: seq<SolicitudAdopcion>)
    requires k < |t|
    ensures |r| == |t|
  {
    seq(|t|, j requires 0 <= j < |t| =>
      if j == k then Answer(t[k], nuevoEstado, now)
      else if rejectRivals && IsRival(t[j], t[k]) then Answer(t[j], Rechazada, now)
      else t[j])
  }

  function Notice(id: Int32, idUsuario: Int32, mensaje: Option<string>, url: Option<string>, now: DateTime): Notificacion
  {
    Notificacion(id, idUsuario, TipoAprobacion, mensaje, url, now, false)
  }

  /** The approved adopter's notice, with the link to the pet. */
  function ApprovedNotice(id: Int32, idUsuario: Int32, pet: Mascota, now: DateTime): Notificacion
  {
    Notice(id, idUsuario, Some(ApprovedMessage(pet.profile.nombre)), Some(DetallesMascotaUrl(pet.id)), now)
  }

  /** Every rival's adopter row exists, so its account can be told. */
  predicate AllAdoptersExist(db: Db, rivals: seq<SolicitudAdopcion>)
  {
    forall i :: 0 <= i < |rivals| ==> AdoptanteUser(db, rivals[i].idAdoptante).Some?
  }

  /** One notice per turned-down rival, to its adopter's account, each key
      one past the previous one. */
  function RejectionNotices(db: Db, rivals: seq<SolicitudAdopcion>, firstId: Int32, nombre: string, now: DateTime)
    : (r: seq<Notificacion>)
    requires AllAdoptersExist(db, rivals)
    ensures |r| == |rivals|
    decreases |rivals|
  {
    if |rivals| == 0 then []
    else
      assert AllAdoptersExist(db, rivals[1..]) by {
        forall i | 0 <= i < |rivals[1..]| ensures AdoptanteUser(db, rivals[1..][i].idAdoptante).Some? {
          assert rivals[1..][i] == rivals[i + 1];
        }
      }
      [Notice(firstId, AdoptanteUser(db, rivals[0].idAdoptante).value, Some(SupersededMessage(nombre)),
              Some(ListadoAdoptanteUrl), now)]
        + RejectionNotices(db, rivals[1..], Inc32(firstId), nombre, now)
  }

  /** `n` tells the adopter of rival `s` that the pet named `nombre` went to
      someone else. */
  predicate RejectionFor(db: Db, n: Notificacion, s: SolicitudAdopcion, nombre: string)
  {
    AdoptanteUser(db, s.idAdoptante).Some? && n.idUsuario == AdoptanteUser(db, s.idAdoptante).value
    && n.mensaje == Some(SupersededMessage(nombre)) && n.url == Some(ListadoAdoptanteUrl)
    && n.tipo == TipoAprobacion && !n.leido
  }

  lemma AdoptersOfTail(db: Db, rivals: seq<SolicitudAdopcion>)
    requires |rivals| > 0 && AllAdoptersExist(db, rivals)
    ensures AllAdoptersExist(db, rivals[1..])
  {
    var tail := rivals[1..];
    forall i | 0 <= i < |tail| ensures AdoptanteUser(db, tail[i].idAdoptante).Some? {
      assert tail[i] == rivals[i + 1];
    }
  }

  /** Notice `i` tells rival `i`'s adopter, for every rival. */
  predicate ToldRivals(db: Db, notices: seq<Notificacion>, rivals: seq<SolicitudAdopcion>, nombre: string)
  {
    |notices| == |rivals| && forall i :: 0 <= i < |rivals| ==> RejectionFor(db, notices[i], rivals[i], nombre)
  }

  /** The `i`-th rejection goes to the `i`-th rival's account with the
      adopted-elsewhere text. */
  lemma {:induction false} RejectionNoticesContent(db: Db, rivals: seq<SolicitudAdopcion>, firstId: Int32, nombre: string,
                                                   now: DateTime)
    requires AllAdoptersExist(db, rivals)
    ensures ToldRivals(db, RejectionNotices(db, rivals, firstId, nombre, now), rivals, nombre)
    decreases |rivals|
  {
    if |rivals| > 0 {
      var tail := rivals[1..];
      AdoptersOfTail(db, rivals);
      RejectionNoticesContent(db, tail, Inc32(firstId), nombre, now);
      var r := RejectionNotices(db, rivals, firstId, nombre, now);
      var rest := RejectionNotices(db, tail, Inc32(firstId), nombre, now);
      assert r == [r[0]] + rest && RejectionFor(db, r[0], rivals[0], nombre);
      assert ToldRivals(db, rest, tail, nombre);
      forall i | 0 <= i < |rivals| ensures RejectionFor(db, r[i], rivals[i], nombre) {
        if i > 0 {
          assert r[i] == rest[i - 1] && rivals[i] == tail[i - 1];
        }
      }
    }
  }

  /** The notices' keys run on from `firstId`. */
  predicate KeysFrom(notices: seq<Notificacion>, firstId: int)
  {
    forall i :: 0 <= i < |notices| ==> notices[i].id == firstId + i
  }

  /** Below `Int32.MaxValue` the `i`-th rejection has key `firstId + i`. */
  lemma {:induction false} RejectionNoticesKeys(db: Db, rivals: seq<SolicitudAdopcion>, firstId: Int32, nombre: string,
                                                now: DateTime)
    requires AllAdoptersExist(db, rivals)
    requires firstId + |rivals| <= MaxInt32
    ensures KeysFrom(RejectionNotices(db, rivals, firstId, nombre, now), firstId)
    decreases |rivals|
  {
    if |rivals| > 0 {
      var tail := rivals[1..];
      AdoptersOfTail(db, rivals);
      RejectionNoticesKeys(db, tail, Inc32(firstId), nombre, now);
      var r := RejectionNotices(db, rivals, firstId, nombre, now);
      var rest := RejectionNotices(db, tail, Inc32(firstId), nombre, now);
      assert r == [r[0]] + rest && r[0].id == firstId;
      assert KeysFrom(rest, firstId + 1);
      forall i | 0 <= i < |r| ensures r[i].id == firstId + i {
        if i > 0 {
          assert r[i] == rest[i - 1];
        }
      }
    }
  }

  /** The database after an approval, given the notices to add. */
  function Approved(db: Db, k: nat, m: nat, notices: seq<Notificacion>, now: DateTime): Db
    requires k < |db.solicitudes| && m < |db.mascotas|
  {
    var s := db.solicitudes[k];
    db.(mascotas := db.mascotas[m := db.mascotas[m].(estado := Adoptado)],
        favoritos := Filter(db.favoritos, (f: Favorito) => f.idMascota != s.idMascota),
        solicitudes := AnswerRequests(db.solicitudes, k, Aprobada, true, now),
        notificaciones := db.notificaciones + notices)
  }

  /** The answer for a state other than "Aprobada": the request and one notice. */
  function Answered(db: Db, k: nat, nuevoEstado: string, notice: Notificacion, now: DateTime): Db
    requires k < |db.solicitudes|
  {
    db.(solicitudes := AnswerRequests(db.solicitudes, k, nuevoEstado, false, now),
        notificaciones := db.notificaciones + [notice])
  }

  /** Approval of request `k` for pet `m`: every rival is turned down and
      told under keys `notifId`, `notifId + 1`, …, and the approved adopter's
      notice takes the next key. A rival whose adopter is missing aborts it. */
  function Approve(db: Db, k: nat, m: nat, notifId: Int32, idUsuario: Int32, now: DateTime): (r: Outcome<bool>)
    requires k < |db.solicitudes| && m < |db.mascotas|
    ensures r.Failed? <==> !AllAdoptersExist(db, Rivals(db, db.solicitudes[k]))
  {
    var rivals := Rivals(db, db.solicitudes[k]);
    if !AllAdoptersExist(db, rivals) then Failed(NullReference)
    else
      Done(Approved(db, k, m, ApprovalNotices(db, rivals, db.mascotas[m], notifId, idUsuario, now), now), true)
  }

  /** When answering request `s` aborts: no notice yet to take a key from,
      no account for its adopter, no pet for "Aprobada" or "Rechazada", or,
      on approval, a rival request whose adopter is missing. */
  predicate AnswerFails(db: Db, s: SolicitudAdopcion, nuevoEstado: string)
  {
    |db.notificaciones| == 0
    || AdoptanteUser(db, s.idAdoptante).None?
    || ((nuevoEstado == Aprobada || nuevoEstado == Rechazada) && MascotaIndex(db, s.idMascota).None?)
    || (nuevoEstado == Aprobada && !AllAdoptersExist(db, Rivals(db, s)))
  }

  /** The answer to request `k`: the notice key first, then the adopter's
      account, then (for "Aprobada" and "Rechazada") the pet. */
  function AnswerAt(db: Db, k: nat, nuevoEstado: string, now: DateTime): (r: Outcome<bool>)
    requires k < |db.solicitudes|
    ensures r.Done? ==> r.value
    ensures |db.notificaciones| == 0 ==> r == Failed(EmptyTable)
    ensures r.Failed? <==> AnswerFails(db, db.solicitudes[k], nuevoEstado)
  {
    var s := db.solicitudes[k];
    match NotificationKey(db)
    case None => Failed(EmptyTable)
    case Some(notifId) =>
      match AdoptanteUser(db, s.idAdoptante)
      case None => Failed(NullReference)
      case Some(idUsuario) =>
        if nuevoEstado != Aprobada && nuevoEstado != Rechazada then
          Done(Answered(db, k, nuevoEstado, Notice(notifId, idUsuario, None, None, now), now), true)
        else
          match MascotaIndex(db, s.idMascota)
          case None => Failed(NullReference)
          case Some(m) =>
            var pet := db.mascotas[m];
            if nuevoEstado == Rechazada then
              Done(Answered(db, k, nuevoEstado,
                     Notice(notifId, idUsuario, Some(RejectedMessage(pet.profile.nombre)), Some(ListadoMascotasUrl), now), now), true)
            else Approve(db, k, m, notifId, idUsuario, now)
  }

  /** `ProcesarSolicitudAdopcionAsync` as evidently intended. `false` for an
      unknown request. Otherwise the request gets the new state and the
      answer time, and its adopter a notice whose text and link depend on
      the state ("Aprobada", "Rechazada", or none for any other state). On
      approval the pet is adopted, its favourites are removed, and every
      other pending request for it is turned down, each adopter told under
      a key of its own. */
  function ProcesarSolicitudAdopcion(db: Db, idSolicitud: Int32, nuevoEstado: string, now: DateTime): (r: Outcome<bool>)
    ensures SolicitudIndex(db, idSolicitud).None? <==> r == Done(db, false)
    ensures r.Failed? ==> SolicitudIndex(db, idSolicitud).Some?
    ensures SolicitudIndex(db, idSolicitud).Some? && |db.notificaciones| == 0 ==> r == Failed(EmptyTable)
    ensures r.Failed? <==> SolicitudIndex(db, idSolicitud).Some?
                           && AnswerFails(db, db.solicitudes[SolicitudIndex(db, idSolicitud).value], nuevoEstado)
    ensures r.Done? && SolicitudIndex(db, idSolicitud).Some? ==> r.value
    ensures SolicitudIndex(db, idSolicitud).Some? ==>
      r == AnswerAt(db, SolicitudIndex(db, idSolicitud).value, nuevoEstado, now)
  {
    match SolicitudIndex(db, idSolicitud)
    case None => Done(db, false)
    case Some(k) => AnswerAt(db, k, nuevoEstado, now)
  }

  /** An answer other than "Aprobada" adds the one notice, under the next
      key, to the account of the request's adopter: on "Rechazada" it names
      the pet and links to the pet listing, on any other state it has
      neither text nor link. */
  lemma AnswerNotice(db: Db, idSolicitud: Int32, nuevoEstado: string, now: DateTime)
    requires ProcesarSolicitudAdopcion(db, idSolicitud, nuevoEstado, now).Done?
    requires SolicitudIndex(db, idSolicitud).Some?
    requires nuevoEstado != Aprobada
    ensures var after := ProcesarSolicitudAdopcion(db, idSolicitud, nuevoEstado, now).db;
      var s := db.solicitudes[SolicitudIndex(db, idSolicitud).value];
      NotificationKey(db).Some? && AdoptanteUser(db, s.idAdoptante).Some?
      && (nuevoEstado == Rechazada ==>
            MascotaIndex(db, s.idMascota).Some?
            && after.notificaciones == db.notificaciones
                 + [Notice(NotificationKey(db).value, AdoptanteUser(db, s.idAdoptante).value,
                           Some(RejectedMessage(db.mascotas[MascotaIndex(db, s.idMascota).value].profile.nombre)),
                           Some(ListadoMascotasUrl), now)])
      && (nuevoEstado != Rechazada ==>
            after.notificaciones == db.notificaciones
              + [Notice(NotificationKey(db).value, AdoptanteUser(db, s.idAdoptante).value, None, None, now)])
  {
    var k := SolicitudIndex(db, idSolicitud).value;
    assert ProcesarSolicitudAdopcion(db, idSolicitud, nuevoEstado, now) == AnswerAt(db, k, nuevoEstado, now);
  }

  /** Whatever the state, an answer stores the state and the time on the
      request, adds notices after the existing ones, and leaves accounts,
      adopters, shelters, stories, likes and messages alone; a state other
      than "Aprobada" adds exactly one notice and touches no pet. */
  lemma AnswerKeepsTheRest(db: Db, idSolicitud: Int32, nuevoEstado: string, now: DateTime)
    requires ProcesarSolicitudAdopcion(db, idSolicitud, nuevoEstado, now).Done?
    requires SolicitudIndex(db, idSolicitud).Some?
    ensures var after := ProcesarSolicitudAdopcion(db, idSolicitud, nuevoEstado, now).db;
      var k := SolicitudIndex(db, idSolicitud).value;
      |after.solicitudes| == |db.solicitudes|
      && after.solicitudes[k] == Answer(db.solicitudes[k], nuevoEstado, now)
      && after.usuarios == db.usuarios && after.adoptantes == db.adoptantes && after.refugios == db.refugios
      && after.historias == db.historias && after.likes == db.likes && after.mensajes == db.mensajes
      && |after.notificaciones| > |db.notificaciones|
      && after.notificaciones[..|db.notificaciones|] == db.notificaciones
      && (nuevoEstado != Aprobada ==>
            after.mascotas == db.mascotas && after.favoritos == db.favoritos
            && |after.notificaciones| == |db.notificaciones| + 1)
  {
    var k := SolicitudIndex(db, idSolicitud).value;
    assert ProcesarSolicitudAdopcion(db, idSolicitud, nuevoEstado, now) == AnswerAt(db, k, nuevoEstado, now);
    AnswerAtKeepsTheRest(db, k, nuevoEstado, now);
  }

  /** `AnswerKeepsTheRest` for the request at row `k`. */
  lemma AnswerAtKeepsTheRest(db: Db, k: nat, nuevoEstado: string, now: DateTime)
    requires k < |db.solicitudes| && AnswerAt(db, k, nuevoEstado, now).Done?
    ensures var after := AnswerAt(db, k, nuevoEstado, now).db;
      |after.solicitudes| == |db.solicitudes|
      && after.solicitudes[k] == Answer(db.solicitudes[k], nuevoEstado, now)
      && after.usuarios == db.usuarios && after.adoptantes == db.adoptantes && after.refugios == db.refugios
      && after.historias == db.historias && after.likes == db.likes && after.mensajes == db.mensajes
      && |after.notificaciones| > |db.notificaciones|
      && after.notificaciones[..|db.notificaciones|] == db.notificaciones
      && (nuevoEstado != Aprobada ==>
            after.mascotas == db.mascotas && after.favoritos == db.favoritos
            && |after.notificaciones| == |db.notificaciones| + 1)
  {
    var after := AnswerAt(db, k, nuevoEstado, now).db;
    var notifId := NotificationKey(db).value;
    var idUsuario := AdoptanteUser(db, db.solicitudes[k].idAdoptante).value;
    if nuevoEstado == Aprobada {
      var m := MascotaIndex(db, db.solicitudes[k].idMascota).value;
      var rivals := Rivals(db, db.solicitudes[k]);
      var added := ApprovalNotices(db, rivals, db.mascotas[m], notifId, idUsuario, now);
      assert after == Approved(db, k, m, added, now);
      assert after.notificaciones[..|db.notificaciones|] == db.notificaciones;
    } else {
      assert exists n :: after == Answered(db, k, nuevoEstado, n, now);
      assert after.notificaciones[..|db.notificaciones|] == db.notificaciones;
    }
  }

  /** The shape of a successful approval: which rows it touched and which
      notices it added. */
  lemma ApprovalShape(db: Db, idSolicitud: Int32, now: DateTime)
    returns (k: nat, m: nat, notifId: Int32, idUsuario: Int32, added: seq<Notificacion>)
    requires ProcesarSolicitudAdopcion(db, idSolicitud, Aprobada, now).Done?
    requires SolicitudIndex(db, idSolicitud).Some?
    ensures SolicitudIndex(db, idSolicitud) == Some(k) && k < |db.solicitudes|
    ensures MascotaIndex(db, db.solicitudes[k].idMascota) == Some(m) && m < |db.mascotas|
    ensures NotificationKey(db) == Some(notifId)
    ensures AdoptanteUser(db, db.solicitudes[k].idAdoptante) == Some(idUsuario)
    ensures AllAdoptersExist(db, Rivals(db, db.solicitudes[k]))
    ensures added == ApprovalNotices(db, Rivals(db, db.solicitudes[k]), db.mascotas[m], notifId, idUsuario, now)
    ensures ProcesarSolicitudAdopcion(db, idSolicitud, Aprobada, now).db == Approved(db, k, m, added, now)
    ensures ProcesarSolicitudAdopcion(db, idSolicitud, Aprobada, now).db.notificaciones == db.notificaciones + added
  {
    k := SolicitudIndex(db, idSolicitud).value;
    var s := db.solicitudes[k];
    assert ProcesarSolicitudAdopcion(db, idSolicitud, Aprobada, now) == AnswerAt(db, k, Aprobada, now);
    notifId := NotificationKey(db).value;
    idUsuario := AdoptanteUser(db, s.idAdoptante).value;
    m := MascotaIndex(db, s.idMascota).value;
    assert AnswerAt(db, k, Aprobada, now) == Approve(db, k, m, notifId, idUsuario, now);
    added := ApprovalNotices(db, Rivals(db, s), db.mascotas[m], notifId, idUsuario, now);
    assert Approve(db, k, m, notifId, idUsuario, now) == Done(Approved(db, k, m, added, now), true);
  }

  /** What `Approved` does to the pet, favourite and request tables. */
  lemma ApprovedTables(db: Db, k: nat, m: nat, notices: seq<Notificacion>, now: DateTime)
    requires k < |db.solicitudes| && m < |db.mascotas|
    ensures var after := Approved(db, k, m, notices, now);
      var s := db.solicitudes[k];
      after.mascotas[m].estado == Adoptado
      && (forall i :: 0 <= i < |after.favoritos| ==> after.favoritos[i].idMascota != s.idMascota)
      && |after.solicitudes| == |db.solicitudes|
      && (forall j :: 0 <= j < |after.solicitudes| ==>
            (after.solicitudes[j].idMascota == s.idMascota && after.solicitudes[j].id != s.id)
            ==> after.solicitudes[j].estado != Pendiente)
      && (forall j :: 0 <= j < |db.solicitudes| ==>
            (db.solicitudes[j].idMascota != s.idMascota && db.solicitudes[j].id != s.id)
            ==> after.solicitudes[j] == db.solicitudes[j])
  {
  }

  /** After an approval the pet is adopted, nobody keeps it as a favourite,
      no other request for it is still pending, and requests for other pets
      are untouched. */
  lemma ApprovalSettlesPet(db: Db, idSolicitud: Int32, now: DateTime)
    requires ProcesarSolicitudAdopcion(db, idSolicitud, Aprobada, now).Done?
    requires SolicitudIndex(db, idSolicitud).Some?
    ensures var after := ProcesarSolicitudAdopcion(db, idSolicitud, Aprobada, now).db;
      var s := db.solicitudes[SolicitudIndex(db, idSolicitud).value];
      MascotaIndex(db, s.idMascota).Some?
      && after.mascotas[MascotaIndex(db, s.idMascota).value].estado == Adoptado
      && (forall i :: 0 <= i < |after.favoritos| ==> after.favoritos[i].idMascota != s.idMascota)
      && (forall j :: 0 <= j < |after.solicitudes| ==>
            (after.solicitudes[j].idMascota == s.idMascota && after.solicitudes[j].id != idSolicitud)
            ==> after.solicitudes[j].estado != Pendiente)
      && (forall j :: 0 <= j < |db.solicitudes| ==>
            (db.solicitudes[j].idMascota != s.idMascota && db.solicitudes[j].id != idSolicitud)
            ==> after.solicitudes[j] == db.solicitudes[j])
  {
    var k, m, notifId, idUsuario, added := ApprovalShape(db, idSolicitud, now);
    ApprovedTables(db, k, m, added, now);
  }

  /** The notices of an approval, in the order they are added. */
  function ApprovalNotices(db: Db, rivals: seq<SolicitudAdopcion>, pet: Mascota, notifId: Int32, idUsuario: Int32,
                           now: DateTime): (r: seq<Notificacion>)
    requires AllAdoptersExist(db, rivals)
    ensures |r| == |rivals| + 1
  {
    RejectionNotices(db, rivals, notifId, pet.profile.nombre, now)
      + [ApprovedNotice(KeyAfter(notifId, |rivals|), idUsuario, pet, now)]
  }

  /** Each rival's adopter gets the turned-down text, the approved adopter
      the congratulation, and the keys run on from `notifId`. */
  lemma ApprovalNoticesContent(db: Db, rivals: seq<SolicitudAdopcion>, pet: Mascota, notifId: Int32, idUsuario: Int32,
                               now: DateTime)
    requires AllAdoptersExist(db, rivals)
    ensures var notices := ApprovalNotices(db, rivals, pet, notifId, idUsuario, now);
      (forall i :: 0 <= i < |rivals| ==>
         notices[i].idUsuario == AdoptanteUser(db, rivals[i].idAdoptante).value
         && notices[i].mensaje == Some(SupersededMessage(pet.profile.nombre)))
      && notices[|rivals|].idUsuario == idUsuario
      && notices[|rivals|].mensaje == Some(ApprovedMessage(pet.profile.nombre))
  {
    RejectionNoticesContent(db, rivals, notifId, pet.profile.nombre, now);
  }

  /** The keys of an approval's notices run on from `notifId`. */
  lemma ApprovalNoticesKeys(db: Db, rivals: seq<SolicitudAdopcion>, pet: Mascota, notifId: Int32, idUsuario: Int32,
                            now: DateTime)
    requires AllAdoptersExist(db, rivals)
    requires notifId + |rivals| <= MaxInt32
    ensures var notices := ApprovalNotices(db, rivals, pet, notifId, idUsuario, now);
      forall i :: 0 <= i < |notices| ==> notices[i].id == notifId + i
  {
    RejectionNoticesKeys(db, rivals, notifId, pet.profile.nombre, now);
  }

  /** From position `n` on, the `i`-th rival's adopter is told that the pet
      named `nombre` went to someone else. */
  predicate RivalsToldFrom(db: Db, notices: seq<Notificacion>, n: nat, rivals: seq<SolicitudAdopcion>, nombre: string)
    requires AllAdoptersExist(db, rivals)
  {
    |notices| >= n + |rivals|
    && forall i :: 0 <= i < |rivals| ==>
         notices[n + i].idUsuario == AdoptanteUser(db, rivals[i].idAdoptante).value
         && notices[n + i].mensaje == Some(SupersededMessage(nombre))
  }

  /** The notices of an approval appended to a table: each rival's notice
      sits at its own position after the old rows. */
  lemma AppendedNoticesContent(db: Db, rivals: seq<SolicitudAdopcion>, pet: Mascota, notifId: Int32, idUsuario: Int32,
                               now: DateTime, table: seq<Notificacion>)
    requires AllAdoptersExist(db, rivals)
    ensures var all := table + ApprovalNotices(db, rivals, pet, notifId, idUsuario, now);
      |all| == |table| + |rivals| + 1 && RivalsToldFrom(db, all, |table|, rivals, pet.profile.nombre)
  {
    ApprovalNoticesContent(db, rivals, pet, notifId, idUsuario, now);
  }

  /** Each turned-down rival gets exactly one notice, in table order, sent
      to its adopter's account with the text saying the pet was adopted. */
  lemma ApprovalNotifiesEveryRival(db: Db, idSolicitud: Int32, now: DateTime)
    requires ProcesarSolicitudAdopcion(db, idSolicitud, Aprobada, now).Done?
    requires SolicitudIndex(db, idSolicitud).Some?
    ensures var after := ProcesarSolicitudAdopcion(db, idSolicitud, Aprobada, now).db;
      var s := db.solicitudes[SolicitudIndex(db, idSolicitud).value];
      var rivals := Rivals(db, s);
      MascotaIndex(db, s.idMascota).Some? && AllAdoptersExist(db, rivals)
      && |after.notificaciones| == |db.notificaciones| + |rivals| + 1
      && RivalsToldFrom(db, after.notificaciones, |db.notificaciones|, rivals,
                        db.mascotas[MascotaIndex(db, s.idMascota).value].profile.nombre)
  {
    var k, m, notifId, idUsuario, added := ApprovalShape(db, idSolicitud, now);
    AppendedNoticesContent(db, Rivals(db, db.solicitudes[k]), db.mascotas[m], notifId, idUsuario, now, db.notificaciones);
  }

  /** The approved adopter's notice comes last, with the congratulation. */
  lemma ApprovalNotifiesAdopter(db: Db, idSolicitud: Int32, now: DateTime)
    requires ProcesarSolicitudAdopcion(db, idSolicitud, Aprobada, now).Done?
    requires SolicitudIndex(db, idSolicitud).Some?
    ensures var after := ProcesarSolicitudAdopcion(db, idSolicitud, Aprobada, now).db;
      var s := db.solicitudes[SolicitudIndex(db, idSolicitud).value];
      MascotaIndex(db, s.idMascota).Some? && AdoptanteUser(db, s.idAdoptante).Some?
      && after.notificaciones[|after.notificaciones| - 1].idUsuario == AdoptanteUser(db, s.idAdoptante).value
      && after.notificaciones[|after.notificaciones| - 1].mensaje
         == Some(ApprovedMessage(db.mascotas[MascotaIndex(db, s.idMascota).value].profile.nombre))
  {
    var k, m, notifId, idUsuario, added := ApprovalShape(db, idSolicitud, now);
    var rivals := Rivals(db, db.solicitudes[k]);
    ApprovalNoticesContent(db, rivals, db.mascotas[m], notifId, idUsuario, now);
  }

  /** The rows from position `n` on have keys of their own, none shared
      with a row before `n`. */
  predicate FreshFrom(all: seq<Notificacion>, n: nat)
  {
    (forall i, j :: n <= i < j < |all| ==> all[i].id != all[j].id)
    && (forall i, j :: 0 <= i < n <= j < |all| ==> all[i].id != all[j].id)
  }

  /** Rows numbered on from above every old key add no key twice. */
  lemma NumberedOnAreFresh(table: seq<Notificacion>, added: seq<Notificacion>, top: int)
    requires forall i :: 0 <= i < |table| ==> table[i].id <= top
    requires forall i :: 0 <= i < |added| ==> added[i].id == top + 1 + i
    ensures FreshFrom(table + added, |table|)
  {
    var all := table + added;
    assert forall i :: |table| <= i < |all| ==> all[i] == added[i - |table|];
  }

  /** Below `Int32.MaxValue` every notice of an approval has a key of its
      own, none of them already in the table. */
  lemma ApprovalNoticeKeysFresh(db: Db, idSolicitud: Int32, now: DateTime)
    requires ProcesarSolicitudAdopcion(db, idSolicitud, Aprobada, now).Done?
    requires SolicitudIndex(db, idSolicitud).Some?
    requires |db.notificaciones| > 0
    requires MaxOf(Select(db.notificaciones, (n: Notificacion) => n.id))
             + |Rivals(db, db.solicitudes[SolicitudIndex(db, idSolicitud).value])| < MaxInt32
    ensures FreshFrom(ProcesarSolicitudAdopcion(db, idSolicitud, Aprobada, now).db.notificaciones, |db.notificaciones|)
  {
    var k, m, notifId, idUsuario, added := ApprovalShape(db, idSolicitud, now);
    ApprovalNoticesFresh(db, Rivals(db, db.solicitudes[k]), db.mascotas[m], idUsuario, now);
  }

  /** The notices of an approval, keyed on from the table's next key, are
      fresh when the keys do not reach `Int32.MaxValue`. */
  lemma ApprovalNoticesFresh(db: Db, rivals: seq<SolicitudAdopcion>, pet: Mascota, idUsuario: Int32, now: DateTime)
    requires AllAdoptersExist(db, rivals)
    requires |db.notificaciones| > 0
    requires MaxOf(Select(db.notificaciones, (n: Notificacion) => n.id)) + |rivals| < MaxInt32
    ensures NotificationKey(db).Some?
    ensures FreshFrom(db.notificaciones + ApprovalNotices(db, rivals, pet, NotificationKey(db).value, idUsuario, now),
                      |db.notificaciones|)
  {
    NextKeyIsFresh(db.notificaciones, (n: Notificacion) => n.id);
    var notifId := NotificationKey(db).value;
    ApprovalNoticesKeys(db, rivals, pet, notifId, idUsuario, now);
    NumberedOnAreFresh(db.notificaciones, ApprovalNotices(db, rivals, pet, notifId, idUsuario, now), notifId - 1);
  }

  // ---------------------------------------------------------------------
  // The answer as the repository writes it
  // ---------------------------------------------------------------------

  /** Whether a notice with key `id` is already added to the change tracker. */
  predicate Tracks(added: seq<Notificacion>, id: Int32)
  {
    exists i :: 0 <= i < |added| && added[i].id == id
  }

  /** The loop over the rivals as written: each notice takes the key the one
      `GetMaxIdAsync` reading gave, and the rival's `Adoptante` navigation is
      set only when its adopter is the one already loaded with the approved
      request (the rows the change tracker can fix up); a second notice with
      the same key is refused. */
  function AddRejectionsAsWritten(rivals: seq<SolicitudAdopcion>, loadedAdoptante: Int32, loadedUser: Int32,
                                  notifId: Int32, nombre: string, now: DateTime, added: seq<Notificacion>)
    : (r: Result<seq<Notificacion>, Fault>)
    decreases |rivals|
  {
    if |rivals| == 0 then Success(added)
    else if rivals[0].idAdoptante != loadedAdoptante then Failure(NullReference)
    else if Tracks(added, notifId) then Failure(DuplicateKey)
    else
      AddRejectionsAsWritten(rivals[1..], loadedAdoptante, loadedUser, notifId, nombre, now,
        added + [Notice(notifId, loadedUser, Some(SupersededMessage(nombre)), Some(ListadoAdoptanteUrl), now)])
  }

  /** `ProcesarSolicitudAdopcionAsync` as written. */
  function ProcesarSolicitudAsWritten(db: Db, idSolicitud: Int32, nuevoEstado: string, now: DateTime): (r: Outcome<bool>)
    ensures nuevoEstado != Aprobada ==> r == ProcesarSolicitudAdopcion(db, idSolicitud, nuevoEstado, now)
  {
    match SolicitudIndex(db, idSolicitud)
    case None => Done(db, false)
    case Some(k) =>
      var s := db.solicitudes[k];
      match NotificationKey(db)
      case None => Failed(EmptyTable)
      case Some(notifId) =>
        match AdoptanteIndex(db, s.idAdoptante)
        case None => Failed(NullReference)
        case Some(a) =>
          var idUsuario := db.adoptantes[a].idUsuario;
          if nuevoEstado != Aprobada && nuevoEstado != Rechazada then
            Done(Answered(db, k, nuevoEstado, Notice(notifId, idUsuario, None, None, now), now), true)
          else
            match MascotaIndex(db, s.idMascota)
            case None => Failed(NullReference)
            case Some(m) =>
              var pet := db.mascotas[m];
              if nuevoEstado == Rechazada then
                Done(Answered(db, k, nuevoEstado,
                       Notice(notifId, idUsuario, Some(RejectedMessage(pet.profile.nombre)), Some(ListadoMascotasUrl), now), now), true)
              else
                match AddRejectionsAsWritten(Rivals(db, s), db.adoptantes[a].id, idUsuario, notifId, pet.profile.nombre, now, [])
                case Failure(fault) => Failed(fault)
                case Success(notices) =>
                  if Tracks(notices, notifId) then Failed(DuplicateKey)
                  else
                    var main := ApprovedNotice(notifId, idUsuario, pet, now);
                    Done(Approved(db, k, m, notices + [main], now), true)
  }

  /** Once one notice is added, the loop as written cannot finish without
      the change tracker holding a notice with the shared key. */
  lemma {:induction false} AddRejectionsKeepsKey(rivals: seq<SolicitudAdopcion>, loadedAdoptante: Int32, loadedUser: Int32,
                                                 notifId: Int32, nombre: string, now: DateTime, added: seq<Notificacion>)
    requires |rivals| > 0 || Tracks(added, notifId)
    ensures var r := AddRejectionsAsWritten(rivals, loadedAdoptante, loadedUser, notifId, nombre, now, added);
      r.Success? ==> Tracks(r.value, notifId)
    decreases |rivals|
  {
    if |rivals| > 0 && rivals[0].idAdoptante == loadedAdoptante && !Tracks(added, notifId) {
      var added' := added + [Notice(notifId, loadedUser, Some(SupersededMessage(nombre)), Some(ListadoAdoptanteUrl), now)];
      assert added'[|added|].id == notifId;
      AddRejectionsKeepsKey(rivals[1..], loadedAdoptante, loadedUser, notifId, nombre, now, added');
    }
  }

  /** As written, approving a request while another pending request for the
      same pet exists never succeeds: either that request's adopter is not
      loaded, or two notices share a key. The intended answer goes through
      whenever the adopters exist. */
  lemma ApprovalWithRivalFailsAsWritten(db: Db, idSolicitud: Int32, now: DateTime)
    requires SolicitudIndex(db, idSolicitud).Some?
    requires |Rivals(db, db.solicitudes[SolicitudIndex(db, idSolicitud).value])| > 0
    ensures ProcesarSolicitudAsWritten(db, idSolicitud, Aprobada, now).Failed?
  {
    var k := SolicitudIndex(db, idSolicitud).value;
    var s := db.solicitudes[k];
    if NotificationKey(db).Some? && AdoptanteIndex(db, s.idAdoptante).Some? && MascotaIndex(db, s.idMascota).Some? {
      var a := AdoptanteIndex(db, s.idAdoptante).value;
      var pet := db.mascotas[MascotaIndex(db, s.idMascota).value];
      AddRejectionsKeepsKey(Rivals(db, s), db.adoptantes[a].id, db.adoptantes[a].idUsuario, NotificationKey(db).value,
                            pet.profile.nombre, now, []);
    }
  }

  /** Without rivals the answer as written is the intended one. */
  lemma ApprovalWithoutRivalAsIntended(db: Db, idSolicitud: Int32, now: DateTime)
    requires SolicitudIndex(db, idSolicitud).Some?
    requires |Rivals(db, db.solicitudes[SolicitudIndex(db, idSolicitud).value])| == 0
    ensures ProcesarSolicitudAsWritten(db, idSolicitud, Aprobada, now) == ProcesarSolicitudAdopcion(db, idSolicitud, Aprobada, now)
  {
    var s := db.solicitudes[SolicitudIndex(db, idSolicitud).value];
    if NotificationKey(db).Some? {
      assert Wrap32(NotificationKey(db).value + 0) == NotificationKey(db).value;
    }
  }

  /** The smallest database that shows the fault: pet 1 with two pending
      requests, 1 from adopter 1 (account 10) and 2 from adopter 2 (account
      20), and one earlier notification. */
  function TwoPendingRequests(now: DateTime): Db
  {
    var profile := PetProfile("Luna", "Perro", now, "", "", false, false, false, false, false, false, false, false, "", "");
    var request := (id: Int32, idAdoptante: Int32) =>
      SolicitudAdopcion(id, 1, idAdoptante, Pendiente, false, "", false, [], "", now, None);
    Db([], [Adoptante(1, 10, "", "", false, false, [], ""), Adoptante(2, 20, "", "", false, false, [], "")], [],
       [Mascota(1, profile, "Disponible", 1, "", 0, now)], [], [request(1, 1), request(2, 2)], [], [], [],
       [Notificacion(1, 10, TipoMensaje, None, None, now, false)])
  }

  /** On that database, approving request 1 as written dereferences the
      unloaded adopter of request 2, while the intended answer goes through
      and tells account 20 that the pet went to someone else. */
  lemma TwoPendingRequestsExample(now: DateTime)
    ensures var db := TwoPendingRequests(now);
      ProcesarSolicitudAsWritten(db, 1, Aprobada, now) == Failed(NullReference)
      && ProcesarSolicitudAdopcion(db, 1, Aprobada, now).Done?
      && ProcesarSolicitudAdopcion(db, 1, Aprobada, now).db.notificaciones[1].idUsuario == 20
  {
    var db := TwoPendingRequests(now);
    TwoPendingRequestsLookups(now);
    assert ProcesarSolicitudAdopcion(db, 1, Aprobada, now) == AnswerAt(db, 0, Aprobada, now);
  }

  /** The lookups the example goes through: request 1 is the first row, its
      only rival is request 2, and both adopters and the pet are found. */
  lemma TwoPendingRequestsLookups(now: DateTime)
    ensures var db := TwoPendingRequests(now);
      SolicitudIndex(db, 1) == Some(0)
      && Rivals(db, db.solicitudes[0]) == [db.solicitudes[1]]
      && AdoptanteIndex(db, 1) == Some(0) && AdoptanteIndex(db, 2) == Some(1)
      && MascotaIndex(db, 1) == Some(0)
  {
    var db := TwoPendingRequests(now);
    assert SolicitudIndex(db, 1) == Some(0);
    var rival := (o: SolicitudAdopcion) => IsRival(o, db.solicitudes[0]);
    assert db.solicitudes[1..][1..] == [];
    assert Filter(db.solicitudes[1..], rival) == [db.solicitudes[1]];
    assert AdoptanteIndex(db, 1) == Some(0);
  }
}

=== FILE: authapi.dfy ===
/** `AuthController`: the registration checks and what follows them, sign-in
    with the session token it issues, and the success stories of the
    landing page. */
module AuthApi {
  import opened Wrappers
  import opened Numerics
  import opened Calendar
  import opened Seqs
  import opened Platform
  import opened Cryptography
  import opened Entities
  import opened Validation
  import opened Accounts
  import opened Tokens
  import Stories

  /** Why `Registro` answered `BadRequest`, one case per message. */
  datatype RegistroRejection = InvalidRole | WeakPassword | InvalidEmail | NameOrEmailTaken | NotCreated

  /** `Registro`'s response: `BadRequest`, `Ok` with the new user's key, or
      the 500 of the `catch`, which the repository's exception reaches. */
  datatype RegistroResponse =
    | RegistroBadRequest(reason: RegistroRejection)
    | RegistroOk(db: Db, idUsuario: Int32)
    | RegistroError(fault: Fault)

  /** The checks `Registro` makes before touching the database, in order;
      the first one that fails decides the answer. */
  function RegistroCheck(db: Db, nombreUsuario: string, email: string, contrasenaLimpia: string, tipoUsuario: string)
    : (r: Option<RegistroRejection>)
    ensures r == Some(InvalidRole) <==> !ValidRole(tipoUsuario)
    ensures r == Some(WeakPassword) <==> ValidRole(tipoUsuario) && !IsStrongPassword(contrasenaLimpia)
    ensures r == Some(InvalidEmail) <==>
      ValidRole(tipoUsuario) && IsStrongPassword(contrasenaLimpia) && (email == "" || !IsValidEmail(email))
    ensures r == Some(NameOrEmailTaken) <==>
      ValidRole(tipoUsuario) && IsStrongPassword(contrasenaLimpia) && email != "" && IsValidEmail(email)
      && UserExists(db, nombreUsuario, email)
    ensures r.None? <==>
      ValidRole(tipoUsuario) && IsStrongPassword(contrasenaLimpia) && email != "" && IsValidEmail(email)
      && !UserExists(db, nombreUsuario, email)
  {
    if !ValidRole(tipoUsuario) then Some(InvalidRole)
    else if !IsStrongPassword(contrasenaLimpia) then Some(WeakPassword)
    else if email == "" || !IsValidEmail(email) then Some(InvalidEmail)
    else if UserExists(db, nombreUsuario, email) then Some(NameOrEmailTaken)
    else None
  }

  /** `Registro` up to the creation of the user row. A rejection leaves the
      database as it was. */
  function Registro(lib: Library, db: Db, nombreUsuario: string, email: string, contrasenaLimpia: string,
                    tipoUsuario: string, saltBytes: Bytes): (r: RegistroResponse)
    requires |saltBytes| == SaltByteCount
    ensures r.RegistroBadRequest? && r.reason != NotCreated <==>
      RegistroCheck(db, nombreUsuario, email, contrasenaLimpia, tipoUsuario).Some?
    ensures RegistroCheck(db, nombreUsuario, email, contrasenaLimpia, tipoUsuario).Some? ==>
      r == RegistroBadRequest(RegistroCheck(db, nombreUsuario, email, contrasenaLimpia, tipoUsuario).value)
    ensures RegistroCheck(db, nombreUsuario, email, contrasenaLimpia, tipoUsuario).None? ==>
      (r.RegistroError? <==> RegisterUser(lib, db, nombreUsuario, email, contrasenaLimpia, tipoUsuario, saltBytes).Failed?)
    ensures r.RegistroError? ==>
      RegisterUser(lib, db, nombreUsuario, email, contrasenaLimpia, tipoUsuario, saltBytes) == Failed(r.fault)
    ensures r.RegistroOk? ==>
      RegisterUser(lib, db, nombreUsuario, email, contrasenaLimpia, tipoUsuario, saltBytes)
        == Done(r.db, Some(r.idUsuario))
  {
    match RegistroCheck(db, nombreUsuario, email, contrasenaLimpia, tipoUsuario)
    case Some(reason) => RegistroBadRequest(reason)
    case None =>
      match RegisterUser(lib, db, nombreUsuario, email, contrasenaLimpia, tipoUsuario, saltBytes)
      case Failed(f) => RegistroError(f)
      case Done(after, None) => RegistroBadRequest(NotCreated)
      case Done(after, Some(id)) => RegistroOk(after, id)
  }

  /** The repository's own duplicate test can never fire after the
      controller's: "No se pudo crear el usuario" is unreachable, and a
      request that passes every check registers unless the user table is
      empty. */
  lemma RegistroNeverNotCreated(lib: Library, db: Db, nombreUsuario: string, email: string, contrasenaLimpia: string,
                                tipoUsuario: string, saltBytes: Bytes)
    requires |saltBytes| == SaltByteCount
    ensures Registro(lib, db, nombreUsuario, email, contrasenaLimpia, tipoUsuario, saltBytes) != RegistroBadRequest(NotCreated)
    ensures RegistroCheck(db, nombreUsuario, email, contrasenaLimpia, tipoUsuario).None? ==>
      (Registro(lib, db, nombreUsuario, email, contrasenaLimpia, tipoUsuario, saltBytes).RegistroOk? <==> |db.usuarios| > 0)
  {
    if ExactConflict(db, nombreUsuario, email).Some? {
      ExactConflictImpliesUserExists(db, nombreUsuario, email);
    }
  }

  /** Whoever registers can sign in at once with the same name and password. */
  lemma RegistroThenLogIn(lib: Library, db: Db, nombreUsuario: string, email: string, contrasenaLimpia: string,
                          tipoUsuario: string, saltBytes: Bytes)
    requires |saltBytes| == SaltByteCount
    requires Registro(lib, db, nombreUsuario, email, contrasenaLimpia, tipoUsuario, saltBytes).RegistroOk?
    ensures var r := Registro(lib, db, nombreUsuario, email, contrasenaLimpia, tipoUsuario, saltBytes);
      LogInUser(lib, r.db, nombreUsuario, contrasenaLimpia).Some?
      && LogInUser(lib, r.db, nombreUsuario, contrasenaLimpia).value.id == r.idUsuario
  {
    RegisterThenLogIn(lib, db, nombreUsuario, email, contrasenaLimpia, tipoUsuario, saltBytes);
  }

  /** `Login`'s response: `Unauthorized`, the signed token, or the exception
      of a failed encryption. */
  datatype LoginResponse = Unauthorized | Issued(token: JwtToken) | LoginError(error: CryptoError)

  /** `Login`. `expiresClock` and `notBeforeClock` are the two readings of
      `DateTime.UtcNow`, in ticks, in the order they are taken. */
  function Login(lib: Library, settings: CipherSettings, db: Db, issuer: string, audience: string,
                 nombreUsuario: string, contrasena: string, expiresClock: int, notBeforeClock: int): (r: LoginResponse)
    ensures r == Unauthorized <==> LogInUser(lib, db, nombreUsuario, contrasena).None?
    ensures r.Issued? <==>
      LogInUser(lib, db, nombreUsuario, contrasena).Some?
      && var u := LogInUser(lib, db, nombreUsuario, contrasena).value;
         SessionClaims(lib, settings, u.id, u.nombreUsuario, u.tipoUsuario).Success?
    ensures r.LoginError? ==>
      var u := LogInUser(lib, db, nombreUsuario, contrasena).value;
      SessionClaims(lib, settings, u.id, u.nombreUsuario, u.tipoUsuario) == Failure(r.error)
    ensures r.Issued? ==>
      var u := LogInUser(lib, db, nombreUsuario, contrasena).value;
      r.token.notBefore == notBeforeClock
      && r.token.expires == expiresClock + 2 * TicksPerHour
      && SessionClaims(lib, settings, u.id, u.nombreUsuario, u.tipoUsuario) == Success(r.token.claims)
  {
    match LogInUser(lib, db, nombreUsuario, contrasena)
    case None => Unauthorized
    case Some(usuario) =>
      match SessionClaims(lib, settings, usuario.id, usuario.nombreUsuario, usuario.tipoUsuario)
      case Failure(e) => LoginError(e)
      case Success(claims) => Issued(IssueToken(issuer, audience, claims, expiresClock, notBeforeClock))
  }

  /** Every later request that carries the token issued at sign-in is
      attributed to the user who signed in. */
  lemma LoginTokenIdentifiesUser(lib: Library, settings: CipherSettings, db: Db, issuer: string, audience: string,
                                 nombreUsuario: string, contrasena: string, expiresClock: int, notBeforeClock: int)
    requires CodecRoundTrips(lib) && JsonRoundTrips(lib)
    requires Login(lib, settings, db, issuer, audience, nombreUsuario, contrasena, expiresClock, notBeforeClock).Issued?
    ensures var token := Login(lib, settings, db, issuer, audience, nombreUsuario, contrasena, expiresClock, notBeforeClock).token;
      var u := LogInUser(lib, db, nombreUsuario, contrasena).value;
      GetAuthenticatedUserId(lib, settings, Some(token.claims)) == Success(u.id)
      && u.nombreUsuario == nombreUsuario
  {
    var u := LogInUser(lib, db, nombreUsuario, contrasena).value;
    SessionClaimsIdentifyUser(lib, settings, u.id, u.nombreUsuario, u.tipoUsuario);
  }

  /** `HistoriaExitoLandingDTO`. */
  datatype LandingStory = LandingStory(titulo: string, descripcion: string, foto: string)

  const LandingCount: nat := 3

  /** `OrderBy(FechaPublicacion)`. */
  predicate OlderStory(a: HistoriaExito, b: HistoriaExito)
  {
    Le(a.fechaPublicacion, b.fechaPublicacion)
  }

  lemma OlderStoryIsPreorder()
    ensures TotalPreorder(OlderStory)
  {
    LeIsTotalOrder();
  }

  /** The stories the landing page shows, before projection: the three
      earliest published ones (all when there are fewer), oldest first; no
      published story left out is older than one shown. */
  function LandingStories(db: Db): (r: seq<HistoriaExito>)
    ensures |r| == Min(LandingCount, |Stories.ObtenerHistoriasExito(db)|)
    ensures forall i :: 0 <= i < |r| ==> r[i] in db.historias && Stories.Published(r[i])
    ensures Sorted(r, OlderStory)
    ensures multiset(r) <= multiset(Stories.ObtenerHistoriasExito(db))
    ensures forall h :: multiset(r)[h] < multiset(Stories.ObtenerHistoriasExito(db))[h] ==>
      forall q :: q in r ==> OlderStory(q, h)
    ensures forall h :: h in db.historias && Stories.Published(h) && h !in r ==>
      forall i :: 0 <= i < |r| ==> Le(r[i].fechaPublicacion, h.fechaPublicacion)
  {
    OlderStoryIsPreorder();
    var published := Stories.ObtenerHistoriasExito(db);
    var r := TakeSorted(published, OlderStory, LandingCount);
    forall h | h in db.historias && Stories.Published(h) && h !in r
      ensures forall i :: 0 <= i < |r| ==> Le(r[i].fechaPublicacion, h.fechaPublicacion)
    {
      assert h in published;
      assert multiset(r)[h] == 0 < multiset(published)[h];
      forall i | 0 <= i < |r| ensures OlderStory(r[i], h) {
        assert r[i] in r;
      }
    }
    r
  }

  /** `GetHistoriasExitoLanding`: at most three stories, each reduced to
      its title, text and photo. */
  function GetHistoriasExitoLanding(db: Db): (r: seq<LandingStory>)
    ensures |r| <= LandingCount
    ensures |r| == |LandingStories(db)|
    ensures forall i :: 0 <= i < |r| ==>
      var h := LandingStories(db)[i];
      r[i] == LandingStory(h.titulo, h.descripcion, h.foto)
    ensures forall i :: 0 <= i < |r| ==>
      exists h :: h in db.historias && Stories.Published(h) && r[i] == LandingStory(h.titulo, h.descripcion, h.foto)
  {
    var shown := LandingStories(db);
    var r := Select(shown, (h: HistoriaExito) => LandingStory(h.titulo, h.descripcion, h.foto));
    forall i | 0 <= i < |r|
      ensures exists h :: h in db.historias && Stories.Published(h) && r[i] == LandingStory(h.titulo, h.descripcion, h.foto)
    {
      assert shown[i] in db.historias && Stories.Published(shown[i]);
      assert r[i] == LandingStory(shown[i].titulo, shown[i].descripcion, shown[i].foto);
    }
    r
  }
}

=== FILE: avatar.dfy ===
/** `HelperAvatarDinamico.GetIniciales`: the initials drawn on a generated avatar. */
module Avatar {
  import opened Text
  import opened Numerics

  /** The length of the leading run of non-space characters. */
  function WordLength(s: string): (n: nat)
    ensures n <= |s|
    ensures forall i :: 0 <= i < n ==> s[i] != ' '
    ensures n < |s| ==> s[n] == ' '
    decreases |s|
  {
    if |s| == 0 || s[0] == ' ' then 0 else 1 + WordLength(s[1..])
  }

  /** `Split(' ', StringSplitOptions.RemoveEmptyEntries)`. */
  function SplitWords(s: string): (words: seq<string>)
    ensures forall i :: 0 <= i < |words| ==> |words[i]| > 0 && ' ' !in words[i]
    decreases |s|
  {
    if |s| == 0 then []
    else if s[0] == ' ' then SplitWords(s[1..])
    else
      var n := WordLength(s);
      [s[..n]] + SplitWords(s[n..])
  }

  function Concat(words: seq<string>): string
  {
    if |words| == 0 then "" else words[0] + Concat(words[1..])
  }

  function WithoutSpaces(s: string): string
  {
    if |s| == 0 then "" else (if s[0] == ' ' then "" else [s[0]]) + WithoutSpaces(s[1..])
  }

  lemma {:induction false} WithoutSpacesConcat(a: string, b: string)
    ensures WithoutSpaces(a + b) == WithoutSpaces(a) + WithoutSpaces(b)
    decreases |a|
  {
    if |a| > 0 {
      assert (a + b)[1..] == a[1..] + b;
      WithoutSpacesConcat(a[1..], b);
    } else {
      assert a + b == b;
    }
  }

  lemma {:induction false} WithoutSpacesOfWord(w: string)
    requires forall i :: 0 <= i < |w| ==> w[i] != ' '
    ensures WithoutSpaces(w) == w
    decreases |w|
  {
    if |w| > 0 {
      WithoutSpacesOfWord(w[1..]);
    }
  }

  /** Splitting loses only the spaces: the words, joined, are the input
      with its spaces removed. */
  lemma {:induction false} SplitKeepsEverythingButSpaces(s: string)
    ensures Concat(SplitWords(s)) == WithoutSpaces(s)
    decreases |s|
  {
    if |s| > 0 {
      if s[0] == ' ' {
        SplitKeepsEverythingButSpaces(s[1..]);
      } else {
        var n := WordLength(s);
        assert s == s[..n] + s[n..];
        WithoutSpacesConcat(s[..n], s[n..]);
        WithoutSpacesOfWord(s[..n]);
        SplitKeepsEverythingButSpaces(s[n..]);
        assert SplitWords(s)[1..] == SplitWords(s[n..]);
      }
    }
  }

  /** A name of spaces only has no words; a name without spaces is one word. */
  lemma {:induction false} SplitEdgeCases(s: string)
    ensures (forall i :: 0 <= i < |s| ==> s[i] == ' ') ==> SplitWords(s) == []
    ensures |s| > 0 && (forall i :: 0 <= i < |s| ==> s[i] != ' ') ==> SplitWords(s) == [s]
    decreases |s|
  {
    if |s| > 0 {
      SplitEdgeCases(s[1..]);
      if forall i :: 0 <= i < |s| ==> s[i] != ' ' {
        assert WordLength(s) == |s|;
        assert s[..|s|] == s;
      }
    }
  }

  /**
   * The initial of a word is its first UTF-16 code unit, upper-cased: a .NET
   * string is indexed by code unit, so a word that opens with a character
   * outside the Basic Multilingual Plane contributes only the high half of its
   * surrogate pair.
   */
  function Initial(palabra: string): CodeUnit
    requires |palabra| > 0
  {
    UpperUnit(Utf16(palabra[0])[0])
  }

  /** The upper-cased first letters of the first two words (fewer when the
      name has fewer words). */
  method GetIniciales(nombre: string) returns (iniciales: seq<CodeUnit>)
    ensures var palabras := SplitWords(nombre);
      |iniciales| == Min(2, |palabras|)
      && forall i :: 0 <= i < |iniciales| ==> iniciales[i] == Initial(palabras[i])
  {
    var palabras := SplitWords(nombre);
    iniciales := [];
    var k := 0;
    while k < |palabras|
      invariant 0 <= k <= |palabras| && k < 2
      invariant |iniciales| == k
      invariant forall i :: 0 <= i < k ==> iniciales[i] == Initial(palabras[i])
    {
      iniciales := iniciales + [Initial(palabras[k])];
      k := k + 1;
      if |iniciales| == 2 {
        break;
      }
    }
  }

  /**
   * A word opening with a character of the Basic Multilingual Plane gives that
   * character upper-cased; any other word gives a lone high surrogate.
   */
  lemma InitialOfWord(palabra: string)
    requires |palabra| > 0
    ensures palabra[0] as int < 0x1_0000 ==> Initial(palabra) == UpperChar(palabra[0]) as int
    ensures palabra[0] as int >= 0x1_0000 ==> 0xD800 <= Initial(palabra) < 0xDC00
  {
  }

  /** An emoji-initial name yields half a character, not the emoji. */
  lemma EmojiInitialIsHalfAPair()
    ensures var palabras := SplitWords("\U{1F436} Bobby");
      |palabras| == 2 && Initial(palabras[0]) == 0xD83D && Initial(palabras[1]) == 'B' as int
  {
    var s := "\U{1F436} Bobby";
    assert WordLength(s) == 1;
    assert s[1..] == " Bobby";
    assert SplitWords(s[1..]) == SplitWords("Bobby");
    assert WordLength("Bobby") == 5;
    assert "Bobby"[..5] == "Bobby" && "Bobby"[5..] == "";
    assert SplitWords("") == [];
    assert SplitWords("Bobby") == ["Bobby"];
  }
}

=== FILE: calendar.dfy ===
/** `System.DateTime` as a civil date and a time of day, with the ordering
    that `<`, `>` and `ORDER BY` use. */
module Calendar {
  import opened Wrappers

  const TicksPerDay: int := 864_000_000_000

  function DaysInMonth(year: int, month: int): int
  {
    if month == 2 then (if (year % 4 == 0 && year % 100 != 0) || year % 400 == 0 then 29 else 28)
    else if month == 4 || month == 6 || month == 9 || month == 11 then 30
    else 31
  }

  datatype Instant = Instant(year: int, month: int, day: int, tickOfDay: int)

  ghost predicate ValidInstant(t: Instant)
  {
    1 <= t.year <= 9999 && 1 <= t.month <= 12 && 1 <= t.day <= DaysInMonth(t.year, t.month)
    && 0 <= t.tickOfDay < TicksPerDay
  }

  type DateTime = t: Instant | ValidInstant(t) witness Instant(1, 1, 1, 0)

  /** `a <= b` on dates, ignoring the time of day. */
  predicate DateOnlyLe(a: DateTime, b: DateTime)
  {
    a.year < b.year
    || (a.year == b.year && (a.month < b.month || (a.month == b.month && a.day <= b.day)))
  }

  /** `a <= b` on instants. */
  predicate Le(a: DateTime, b: DateTime)
  {
    a.year < b.year
    || (a.year == b.year && (a.month < b.month
    || (a.month == b.month && (a.day < b.day
    || (a.day == b.day && a.tickOfDay <= b.tickOfDay)))))
  }

  /** `a > b` on instants. */
  predicate After(a: DateTime, b: DateTime)
  {
    !Le(a, b)
  }

  /** `Le` is a total order: total, transitive and antisymmetric. */
  lemma LeIsTotalOrder()
    ensures forall a, b :: Le(a, b) || Le(b, a)
    ensures forall a, b, c :: Le(a, b) && Le(b, c) ==> Le(a, c)
    ensures forall a, b :: Le(a, b) && Le(b, a) ==> a == b
  {
  }

  /** The latest of some instants (what `OrderByDescending(d).FirstOrDefault()`
      yields for them), `None` for none. */
  function Latest(ds: seq<DateTime>): (r: Option<DateTime>)
    ensures r.None? <==> |ds| == 0
    ensures r.Some? ==> r.value in ds && forall i :: 0 <= i < |ds| ==> Le(ds[i], r.value)
  {
    if |ds| == 0 then None
    else
      match Latest(ds[1..])
      case None => Some(ds[0])
      case Some(d) =>
        LeIsTotalOrder();
        assert forall i :: 1 <= i < |ds| ==> ds[i] == ds[1..][i - 1];
        if Le(ds[0], d) then Some(d) else Some(ds[0])
  }
}

=== FILE: cryptography.dfy ===
/** `HelperCriptography`: the password digest, the symmetric encryption of
    the session payload, salts and byte-array comparison. The static fields
    set by `Initialize` are the `CipherSettings` value passed to each
    operation. */
module Cryptography {
  import opened Wrappers
  import opened Numerics
  import opened Platform

  /** The static `salt`, `iterate` and `key` of the helper. */
  datatype CipherSettings = CipherSettings(salt: string, iterate: Int32, key: string)

  /** `FormatException` of `Convert.FromBase64String`, or the
      `CryptographicException` of a bad key size or bad padding. */
  datatype CryptoError = NotBase64 | CryptographicFailure

  const PasswordRounds: nat := 15
  const SaltByteCount: nat := 32
  const IvLength: nat := 16

  /** `Initialize`: `None` is the exception `int.Parse` throws on the iteration count. */
  function Initialize(saltValue: string, iterateValue: string, keyValue: string): (r: Option<CipherSettings>)
    ensures r.Some? <==> ParseInt32(iterateValue).Some?
    ensures r.Some? ==> r.value.salt == saltValue && r.value.key == keyValue
  {
    match ParseInt32(iterateValue)
    case None => None
    case Some(n) => Some(CipherSettings(saltValue, n, keyValue))
  }

  /** A configuration written with `Int32.ToString()` initialises to the
      iteration count it was written from. */
  lemma InitializeReadsIterationCount(saltValue: string, iterate: Int32, keyValue: string)
    ensures Initialize(saltValue, IntToDecimal(iterate), keyValue) == Some(CipherSettings(saltValue, iterate, keyValue))
  {
    ParseFormatRoundTrip(iterate);
  }

  /** `h` applied `n` times to `b`. */
  function IterateHash(h: Bytes -> Bytes, b: Bytes, n: nat): Bytes
    decreases n
  {
    if n == 0 then b else IterateHash(h, h(b), n - 1)
  }

  lemma {:induction false} IterateHashLast(h: Bytes -> Bytes, b: Bytes, n: nat)
    ensures IterateHash(h, b, n + 1) == h(IterateHash(h, b, n))
    decreases n
  {
    if n > 0 {
      IterateHashLast(h, h(b), n - 1);
    }
  }

  /** After at least one round the result has the digest's length. */
  lemma {:induction false} IterateHashLength(h: Bytes -> Bytes, b: Bytes, n: nat, len: nat)
    requires forall x :: |h(x)| == len
    requires n > 0
    ensures |IterateHash(h, b, n)| == len
    decreases n
  {
    if n > 1 {
      IterateHashLength(h, h(b), n - 1, len);
    }
  }

  /** The number of times `for (int i = 0; i < numhash; i++)` runs. */
  function Rounds(numhash: int): nat
  {
    if numhash < 0 then 0 else numhash
  }

  /** `EncriptarPasswordSalt`: `numhash` rounds of SHA-256 over the UTF-8
      bytes of `contenido + salt`; none when `numhash` is not positive. */
  method EncriptarPasswordSalt(lib: Library, contenido: string, salt: string, numhash: Int32) returns (bytesalida: Bytes)
    ensures bytesalida == IterateHash(lib.sha256, lib.utf8Encode(contenido + salt), Rounds(numhash))
  {
    var textocompleto := contenido + salt;
    bytesalida := lib.utf8Encode(textocompleto);
    ghost var start := bytesalida;
    var i := 0;
    while i < numhash
      invariant 0 <= i <= Rounds(numhash)
      invariant IterateHash(lib.sha256, bytesalida, Rounds(numhash) - i) == IterateHash(lib.sha256, start, Rounds(numhash))
    {
      bytesalida := lib.sha256(bytesalida);
      i := i + 1;
    }
  }

  /** The AES key the helper derives from its settings. */
  function DerivedKey(lib: Library, settings: CipherSettings): Bytes
  {
    IterateHash(lib.sha256, lib.utf8Encode(settings.key + settings.salt), Rounds(settings.iterate))
  }

  /** The key sizes `Aes.Key` accepts. */
  predicate ValidAesKeySize(n: int)
  {
    n == 16 || n == 24 || n == 32
  }

  function ZeroIv(): (iv: Bytes)
    ensures |iv| == IvLength
  {
    seq(IvLength, _ => 0 as byte)
  }

  /** The private `EncryptString(key, plainText)`. */
  function EncryptWithKey(lib: Library, key: Bytes, plainText: string): (r: Result<string, CryptoError>)
    ensures r.Success? <==> ValidAesKeySize(|key|)
  {
    if !ValidAesKeySize(|key|) then Failure(CryptographicFailure)
    else Success(lib.toBase64(lib.aesEncrypt(key, ZeroIv(), lib.utf8Encode(plainText))))
  }

  /** The private `DecryptString(key, cipherText)`: Base64 is decoded before
      the key is set, so a malformed text fails first. */
  function DecryptWithKey(lib: Library, key: Bytes, cipherText: string): (r: Result<string, CryptoError>)
    ensures lib.fromBase64(cipherText).None? ==> r == Failure(NotBase64)
    ensures lib.fromBase64(cipherText).Some? && !ValidAesKeySize(|key|) ==> r == Failure(CryptographicFailure)
  {
    match lib.fromBase64(cipherText)
    case None => Failure(NotBase64)
    case Some(buffer) =>
      if !ValidAesKeySize(|key|) then Failure(CryptographicFailure)
      else match lib.aesDecrypt(key, ZeroIv(), buffer)
        case None => Failure(CryptographicFailure)
        case Some(plain) => Success(lib.utf8Decode(plain))
  }

  /** The public `EncryptString(dato)`. */
  function EncryptString(lib: Library, settings: CipherSettings, dato: string): (r: Result<string, CryptoError>)
    ensures r.Success? <==> ValidAesKeySize(|DerivedKey(lib, settings)|)
  {
    EncryptWithKey(lib, DerivedKey(lib, settings), dato)
  }

  /** The public `DecryptString(dato)`. */
  function DecryptString(lib: Library, settings: CipherSettings, dato: string): (r: Result<string, CryptoError>)
    ensures lib.fromBase64(dato).None? ==> r == Failure(NotBase64)
    ensures lib.fromBase64(dato).Some? && !ValidAesKeySize(|DerivedKey(lib, settings)|) ==> r == Failure(CryptographicFailure)
    ensures r.Success? ==> lib.fromBase64(dato).Some? && ValidAesKeySize(|DerivedKey(lib, settings)|)
  {
    DecryptWithKey(lib, DerivedKey(lib, settings), dato)
  }

  /** With at least one SHA-256 round the derived key is a 32-byte AES key,
      so encryption cannot fail. */
  lemma EncryptionSucceeds(lib: Library, settings: CipherSettings, dato: string)
    requires DigestLengths(lib)
    requires settings.iterate >= 1
    ensures EncryptString(lib, settings, dato).Success?
  {
    IterateHashLength(lib.sha256, lib.utf8Encode(settings.key + settings.salt), Rounds(settings.iterate), 32);
  }

  /** Decryption under the same settings gives back the encrypted text. */
  lemma DecryptUndoesEncrypt(lib: Library, settings: CipherSettings, dato: string)
    requires CodecRoundTrips(lib)
    requires EncryptString(lib, settings, dato).Success?
    ensures DecryptString(lib, settings, EncryptString(lib, settings, dato).value) == Success(dato)
  {
    var key := DerivedKey(lib, settings);
    var cipher := lib.aesEncrypt(key, ZeroIv(), lib.utf8Encode(dato));
    assert lib.fromBase64(lib.toBase64(cipher)) == Some(cipher);
    assert lib.aesDecrypt(key, ZeroIv(), cipher) == Some(lib.utf8Encode(dato));
  }

  /** The fixed zero IV makes encryption deterministic, so equal ciphertexts
      mean equal plaintexts and equal plaintexts give equal ciphertexts. */
  lemma EqualCiphertextsIffEqualPlaintexts(lib: Library, settings: CipherSettings, a: string, b: string)
    requires CodecRoundTrips(lib)
    requires EncryptString(lib, settings, a).Success?
    ensures EncryptString(lib, settings, a) == EncryptString(lib, settings, b) <==> a == b
  {
    if EncryptString(lib, settings, a) == EncryptString(lib, settings, b) {
      DecryptUndoesEncrypt(lib, settings, a);
      DecryptUndoesEncrypt(lib, settings, b);
    }
  }

  /** `EncryptPassword`: fifteen rounds of SHA-512 over the UTF-8 bytes of
      `password + salt`. */
  function PasswordDigest(lib: Library, password: string, salt: string): Bytes
  {
    IterateHash(lib.sha512, lib.utf8Encode(password + salt), PasswordRounds)
  }

  method EncryptPassword(lib: Library, password: string, salt: string) returns (salida: Bytes)
    ensures salida == IterateHash(lib.sha512, lib.utf8Encode(password + salt), PasswordRounds)
  {
    var contenido := password + salt;
    salida := lib.utf8Encode(contenido);
    ghost var start := salida;
    var i := 1;
    while i <= 15
      invariant 1 <= i <= 16
      invariant salida == IterateHash(lib.sha512, start, i - 1)
    {
      IterateHashLast(lib.sha512, start, i - 1);
      salida := lib.sha512(salida);
      i := i + 1;
    }
  }

  /** A stored password digest is a 64-byte SHA-512 value. */
  lemma PasswordDigestLength(lib: Library, password: string, salt: string)
    requires DigestLengths(lib)
    ensures |PasswordDigest(lib, password, salt)| == 64
  {
    IterateHashLength(lib.sha512, lib.utf8Encode(password + salt), PasswordRounds, 64);
  }

  /** `GenerateSalt` with the 32 bytes the random generator produced. */
  function GenerateSalt(lib: Library, randomBytes: Bytes): string
    requires |randomBytes| == SaltByteCount
  {
    lib.toBase64(randomBytes)
  }

  /** A salt is 44 Base64 characters that decode to the 32 random bytes. */
  lemma SaltShape(lib: Library, randomBytes: Bytes)
    requires Base64Length(lib) && CodecRoundTrips(lib)
    requires |randomBytes| == SaltByteCount
    ensures |GenerateSalt(lib, randomBytes)| == 44
    ensures lib.fromBase64(GenerateSalt(lib, randomBytes)) == Some(randomBytes)
  {
  }

  /** Element-wise equality: what `CompararArrays` decides. */
  predicate SameBytes(a: Bytes, b: Bytes)
  {
    |a| == |b| && forall i :: 0 <= i < |a| ==> a[i] == b[i]
  }

  lemma SameBytesIsEquality(a: Bytes, b: Bytes)
    ensures SameBytes(a, b) <==> a == b
  {
  }

  method CompararArrays(a: Bytes, b: Bytes) returns (iguales: bool)
    ensures iguales <==> SameBytes(a, b)
  {
    iguales := true;
    if |a| != |b| {
      iguales := false;
    } else {
      var i := 0;
      while i < |a|
        invariant 0 <= i <= |a|
        invariant iguales
        invariant forall k :: 0 <= k < i ==> a[k] == b[k]
      {
        if a[i] != b[i] {
          iguales := false;
          break;
        }
        i := i + 1;
      }
    }
  }
}

=== FILE: entities.dfy ===
/** The rows of the ZuvoPet database and the database itself, as values.
    A repository operation maps a `Db` to an `Outcome`: either the database
    after the operation's one `SaveChangesAsync` together with the value it
    returns, or the exception that aborted it, with nothing saved. */
module Entities {
  import opened Wrappers
  import opened Numerics
  import opened Calendar

  datatype Usuario = Usuario(
    id: Int32,
    nombreUsuario: string,
    email: string,
    contrasenaLimpia: string,
    salt: string,
    contrasenaEncriptada: Bytes,
    tipoUsuario: string)

  datatype Adoptante = Adoptante(
    id: Int32,
    idUsuario: Int32,
    nombre: string,
    tipoVivienda: string,
    tieneJardin: bool,
    otrosAnimales: bool,
    recursosDisponibles: seq<string>,
    tiempoEnCasa: string)

  datatype Refugio = Refugio(
    id: Int32,
    idUsuario: Int32,
    nombreRefugio: string,
    contactoRefugio: string,
    cantidadAnimales: Int32,
    capacidadMaxima: Int32)

  /** The descriptive fields of a pet, which creation and update copy as a block. */
  datatype PetProfile = PetProfile(
    nombre: string,
    especie: string,
    fechaNacimiento: DateTime,
    tamano: string,
    sexo: string,
    castrado: bool,
    vacunado: bool,
    desparasitado: bool,
    sano: bool,
    microchip: bool,
    compatibleConNinos: bool,
    compatibleConAdultos: bool,
    compatibleConOtrosAnimales: bool,
    personalidad: string,
    descripcion: string)

  datatype Mascota = Mascota(
    id: Int32,
    profile: PetProfile,
    estado: string,
    idRefugio: Int32,
    foto: string,
    vistas: Int32,
    fechaRegistro: DateTime)

  /** The projection shown on the landing page. */
  datatype MascotaCard = MascotaCard(
    id: Int32,
    nombre: string,
    especie: string,
    tamano: string,
    sexo: string,
    foto: string,
    edad: int)

  datatype Favorito = Favorito(id: Int32, idAdoptante: Int32, idMascota: Int32, fechaAgregado: DateTime)

  datatype SolicitudAdopcion = SolicitudAdopcion(
    id: Int32,
    idMascota: Int32,
    idAdoptante: Int32,
    estado: string,
    experienciaPrevia: bool,
    tipoVivienda: string,
    otrosAnimales: bool,
    recursosDisponibles: seq<string>,
    tiempoEnCasa: string,
    fechaSolicitud: DateTime,
    fechaRespuesta: Option<DateTime>)

  datatype HistoriaExito = HistoriaExito(
    id: Int32,
    idMascota: Int32,
    idAdoptante: Int32,
    titulo: string,
    descripcion: string,
    foto: string,
    fechaPublicacion: DateTime,
    estado: string)

  datatype LikeHistoria = LikeHistoria(id: Int32, idHistoria: Int32, idUsuario: Int32, tipoReaccion: string, fecha: DateTime)

  datatype Mensaje = Mensaje(id: Int32, idEmisor: Int32, idReceptor: Int32, contenido: string, fecha: DateTime, leido: bool)

  /** `Mensaje` and `Url` are nullable columns: `None` is SQL NULL. */
  datatype Notificacion = Notificacion(
    id: Int32,
    idUsuario: Int32,
    tipo: string,
    mensaje: Option<string>,
    url: Option<string>,
    fecha: DateTime,
    leido: bool)

  datatype Db = Db(
    usuarios: seq<Usuario>,
    adoptantes: seq<Adoptante>,
    refugios: seq<Refugio>,
    mascotas: seq<Mascota>,
    favoritos: seq<Favorito>,
    solicitudes: seq<SolicitudAdopcion>,
    historias: seq<HistoriaExito>,
    likes: seq<LikeHistoria>,
    mensajes: seq<Mensaje>,
    notificaciones: seq<Notificacion>)

  /** The exceptions a repository operation can end in: a dereferenced
      `null` (a missing row), `MaxAsync` over an empty table, and the change
      tracker refusing a second new entity with a key it already tracks; and
      the database refusing a query whose `LIMIT` or `OFFSET` is negative. */
  datatype Fault = NullReference | EmptyTable | DuplicateKey | RejectedPaging

  datatype Outcome<+T> = Done(db: Db, value: T) | Failed(fault: Fault)
}

=== FILE: favorites.dfy ===
/** An adopter's favourite pets in `RepositoryZuvoPet`. Every operation
    starts from the adopter row of the calling account; without one, the
    query dereferences `null`. */
module Favorites {
  import opened Wrappers
  import opened Numerics
  import opened Calendar
  import opened Seqs
  import opened Entities
  import opened Ids
  import opened Queries

  /** A favourite of adopter `idAdoptante` for pet `idMascota`. */
  predicate Marks(f: Favorito, idAdoptante: Int32, idMascota: Int32)
  {
    f.idAdoptante == idAdoptante && f.idMascota == idMascota
  }

  /** The first favourite of the pair, as `FirstOrDefaultAsync` finds it. */
  function FavoritoIndex(db: Db, idAdoptante: Int32, idMascota: Int32): (r: Option<nat>)
    ensures r.Some? ==> r.value < |db.favoritos| && Marks(db.favoritos[r.value], idAdoptante, idMascota)
    ensures r.Some? ==> forall j :: 0 <= j < r.value ==> !Marks(db.favoritos[j], idAdoptante, idMascota)
    ensures r.None? <==> forall j :: 0 <= j < |db.favoritos| ==> !Marks(db.favoritos[j], idAdoptante, idMascota)
  {
    FirstIndex(db.favoritos, (f: Favorito) => Marks(f, idAdoptante, idMascota))
  }

  /** `EsFavorito`: whether the account's adopter keeps the pet as a favourite. */
  function EsFavorito(db: Db, idUsuario: Int32, idMascota: Int32): (r: Result<bool, Fault>)
    ensures r.Failure? <==> AdoptanteOfUsuario(db, idUsuario).None?
    ensures r.Failure? ==> r.error == NullReference
    ensures r.Success? ==>
      (r.value <==> exists j :: 0 <= j < |db.favoritos| && Marks(db.favoritos[j], AdopterKey(db, idUsuario).value, idMascota))
  {
    match AdopterKey(db, idUsuario)
    case Failure(e) => Failure(e)
    case Success(idAdoptante) => Success(FavoritoIndex(db, idAdoptante, idMascota).Some?)
  }

  /** `InsertMascotaFavorita`: a new favourite with the next key and the
      clock reading `now`. The key is allocated before the adopter's key is
      read, so an empty table fails before a missing adopter. */
  function InsertMascotaFavorita(db: Db, idUsuario: Int32, idMascota: Int32, now: DateTime): (r: Outcome<bool>)
    ensures |db.favoritos| == 0 <==> r == Failed(EmptyTable)
    ensures |db.favoritos| > 0 ==> (r == Failed(NullReference) <==> AdoptanteOfUsuario(db, idUsuario).None?)
    ensures r.Done? <==> |db.favoritos| > 0 && AdoptanteOfUsuario(db, idUsuario).Some?
    ensures r.Done? ==>
      r.value
      && r.db == db.(favoritos := db.favoritos
           + [Favorito(NextKey(db.favoritos, (f: Favorito) => f.id).value, AdopterKey(db, idUsuario).value, idMascota, now)])
  {
    match NextKey(db.favoritos, (f: Favorito) => f.id)
    case None => Failed(EmptyTable)
    case Some(id) =>
      match AdopterKey(db, idUsuario)
      case Failure(e) => Failed(e)
      case Success(idAdoptante) =>
        Done(db.(favoritos := db.favoritos + [Favorito(id, idAdoptante, idMascota, now)]), true)
  }

  /** `EliminarFavorito`: removes the first favourite of the pair; `false`
      when there is none. */
  function EliminarFavorito(db: Db, idUsuario: Int32, idMascota: Int32): (r: Outcome<bool>)
    ensures r == Failed(NullReference) <==> AdoptanteOfUsuario(db, idUsuario).None?
    ensures r.Failed? ==> r.fault == NullReference
    ensures r.Done? ==>
      var k := FavoritoIndex(db, AdopterKey(db, idUsuario).value, idMascota);
      (k.None? <==> r == Done(db, false))
      && (k.Some? ==> r.value && r.db == db.(favoritos := RemoveAt(db.favoritos, k.value)))
  {
    match AdopterKey(db, idUsuario)
    case Failure(e) => Failed(e)
    case Success(idAdoptante) =>
      match FavoritoIndex(db, idAdoptante, idMascota)
      case None => Done(db, false)
      case Some(k) => Done(db.(favoritos := RemoveAt(db.favoritos, k)), true)
  }

  /** A pet just added is a favourite. */
  lemma InsertThenEsFavorito(db: Db, idUsuario: Int32, idMascota: Int32, now: DateTime)
    requires InsertMascotaFavorita(db, idUsuario, idMascota, now).Done?
    ensures EsFavorito(InsertMascotaFavorita(db, idUsuario, idMascota, now).db, idUsuario, idMascota) == Success(true)
  {
    var after := InsertMascotaFavorita(db, idUsuario, idMascota, now).db;
    assert after.adoptantes == db.adoptantes;
    assert Marks(after.favoritos[|db.favoritos|], AdopterKey(db, idUsuario).value, idMascota);
  }

  /** Removing a favourite just added, when the pair had none before, gives
      back the table as it was. */
  lemma InsertThenEliminarRestores(db: Db, idUsuario: Int32, idMascota: Int32, now: DateTime)
    requires InsertMascotaFavorita(db, idUsuario, idMascota, now).Done?
    requires EsFavorito(db, idUsuario, idMascota) == Success(false)
    ensures var after := InsertMascotaFavorita(db, idUsuario, idMascota, now).db;
      EliminarFavorito(after, idUsuario, idMascota) == Done(db, true)
  {
    var after := InsertMascotaFavorita(db, idUsuario, idMascota, now).db;
    var n := |db.favoritos|;
    var idAdoptante := AdopterKey(db, idUsuario).value;
    assert AdopterKey(after, idUsuario) == Success(idAdoptante);
    assert forall j :: 0 <= j < n ==> after.favoritos[j] == db.favoritos[j];
    assert forall j :: 0 <= j < n ==> !Marks(db.favoritos[j], idAdoptante, idMascota);
    assert Marks(after.favoritos[n], idAdoptante, idMascota);
    var k := FavoritoIndex(after, idAdoptante, idMascota);
    assert k.Some?;
    assert !(k.value < n);
    assert RemoveAt(after.favoritos, n) == db.favoritos;
  }

  /** Removing a favourite lowers the pair's count by exactly one. */
  lemma EliminarCountsDown(db: Db, idUsuario: Int32, idMascota: Int32)
    requires EliminarFavorito(db, idUsuario, idMascota).Done?
    requires EliminarFavorito(db, idUsuario, idMascota).value
    ensures var idAdoptante := AdopterKey(db, idUsuario).value;
      var p := (f: Favorito) => Marks(f, idAdoptante, idMascota);
      Count(EliminarFavorito(db, idUsuario, idMascota).db.favoritos, p) + 1 == Count(db.favoritos, p)
  {
    var idAdoptante := AdopterKey(db, idUsuario).value;
    var k := FavoritoIndex(db, idAdoptante, idMascota).value;
    CountRemoveAt(db.favoritos, k, (f: Favorito) => Marks(f, idAdoptante, idMascota));
  }

  /** `GuardarUltimaAccionFavorito`: a new favourite of the pair marked at
      `fecha`. Unlike `InsertMascotaFavorita` it allocates no key, so the row
      keeps the default key 0. */
  function GuardarUltimaAccionFavorito(db: Db, idUsuario: Int32, idMascota: Int32, fecha: DateTime): (r: Outcome<()>)
    ensures r.Failed? <==> AdoptanteOfUsuario(db, idUsuario).None?
    ensures r.Failed? ==> r.fault == NullReference
    ensures r.Done? ==>
      r.db == db.(favoritos := db.favoritos + [Favorito(0, AdopterKey(db, idUsuario).value, idMascota, fecha)])
  {
    match AdopterKey(db, idUsuario)
    case Failure(e) => Failed(e)
    case Success(idAdoptante) => Done(db.(favoritos := db.favoritos + [Favorito(0, idAdoptante, idMascota, fecha)]), ())
  }

  /** The latest date of a list of favourites. */
  function LatestFecha(favs: seq<Favorito>): (r: Option<DateTime>)
    ensures r.None? <==> |favs| == 0
    ensures r.Some? ==> exists i :: 0 <= i < |favs| && favs[i].fechaAgregado == r.value
    ensures r.Some? ==> forall i :: 0 <= i < |favs| ==> Le(favs[i].fechaAgregado, r.value)
  {
    var ds := seq(|favs|, i requires 0 <= i < |favs| => favs[i].fechaAgregado);
    var r := Latest(ds);
    assert forall i :: 0 <= i < |favs| ==> ds[i] == favs[i].fechaAgregado;
    assert r.Some? ==> r.value in ds;
    r
  }

  /** `ObtenerUltimaAccionFavorito`: when the pair was last marked, or `None`
      if it never was. */
  function ObtenerUltimaAccionFavorito(db: Db, idUsuario: Int32, idMascota: Int32): (r: Result<Option<DateTime>, Fault>)
    ensures r.Failure? <==> AdoptanteOfUsuario(db, idUsuario).None?
  {
    match AdopterKey(db, idUsuario)
    case Failure(e) => Failure(e)
    case Success(idAdoptante) =>
      Success(LatestFecha(Filter(db.favoritos, (f: Favorito) => Marks(f, idAdoptante, idMascota))))
  }

  /** The date returned is that of one of the pair's favourites, and no
      favourite of the pair is later; `None` means the pair has none. */
  lemma UltimaAccionIsLatest(db: Db, idUsuario: Int32, idMascota: Int32)
    requires ObtenerUltimaAccionFavorito(db, idUsuario, idMascota).Success?
    ensures var r := ObtenerUltimaAccionFavorito(db, idUsuario, idMascota).value;
      var idAdoptante := AdopterKey(db, idUsuario).value;
      (r.None? <==> forall j :: 0 <= j < |db.favoritos| ==> !Marks(db.favoritos[j], idAdoptante, idMascota))
      && (r.Some? ==>
            (exists j :: 0 <= j < |db.favoritos| && Marks(db.favoritos[j], idAdoptante, idMascota)
                         && db.favoritos[j].fechaAgregado == r.value)
            && forall j :: 0 <= j < |db.favoritos| && Marks(db.favoritos[j], idAdoptante, idMascota)
                 ==> Le(db.favoritos[j].fechaAgregado, r.value))
  {
    var idAdoptante := AdopterKey(db, idUsuario).value;
    var p := (f: Favorito) => Marks(f, idAdoptante, idMascota);
    var mine := Filter(db.favoritos, p);
    var r := LatestFecha(mine);
    assert ObtenerUltimaAccionFavorito(db, idUsuario, idMascota).value == r;
    FilterMembers(db.favoritos, p);
    forall j | 0 <= j < |db.favoritos| && p(db.favoritos[j])
      ensures |mine| > 0 && exists i :: 0 <= i < |mine| && mine[i] == db.favoritos[j]
    {
      assert db.favoritos[j] in mine;
    }
    if r.Some? {
      var i :| 0 <= i < |mine| && mine[i].fechaAgregado == r.value;
      assert mine[i] in db.favoritos;
      var j :| 0 <= j < |db.favoritos| && db.favoritos[j] == mine[i];
      assert p(mine[i]);
    }
  }

  /** Saving an action no earlier than every recorded one for the pair makes
      it the last action `ObtenerUltimaAccionFavorito` reports. */
  lemma GuardarThenUltimaAccion(db: Db, idUsuario: Int32, idMascota: Int32, fecha: DateTime)
    requires GuardarUltimaAccionFavorito(db, idUsuario, idMascota, fecha).Done?
    requires forall j :: 0 <= j < |db.favoritos| && Marks(db.favoritos[j], AdopterKey(db, idUsuario).value, idMascota)
               ==> Le(db.favoritos[j].fechaAgregado, fecha)
    ensures var after := GuardarUltimaAccionFavorito(db, idUsuario, idMascota, fecha).db;
      ObtenerUltimaAccionFavorito(after, idUsuario, idMascota) == Success(Some(fecha))
      && EsFavorito(after, idUsuario, idMascota) == Success(true)
  {
    var after := GuardarUltimaAccionFavorito(db, idUsuario, idMascota, fecha).db;
    var idAdoptante := AdopterKey(db, idUsuario).value;
    var n := |db.favoritos|;
    assert after.adoptantes == db.adoptantes;
    assert AdopterKey(after, idUsuario) == Success(idAdoptante);
    assert Marks(after.favoritos[n], idAdoptante, idMascota);
    UltimaAccionIsLatest(after, idUsuario, idMascota);
    var r := ObtenerUltimaAccionFavorito(after, idUsuario, idMascota).value;
    assert r.Some?;
    var j :| 0 <= j < |after.favoritos| && Marks(after.favoritos[j], idAdoptante, idMascota)
             && after.favoritos[j].fechaAgregado == r.value;
    assert Le(after.favoritos[j].fechaAgregado, fecha) by {
      if j < n {
        assert after.favoritos[j] == db.favoritos[j];
      }
    }
    assert Le(fecha, r.value);
    LeIsTotalOrder();
  }
}

=== FILE: ids.dfy ===
/** `GetMaxIdAsync`: the repository's key allocation, `MAX(Id) + 1` in C#
    `int` arithmetic. */
module Ids {
  import opened Wrappers
  import opened Numerics
  import opened Seqs

  function MaxOf(xs: seq<Int32>): (m: Int32)
    requires |xs| > 0
    ensures m in xs
    ensures forall i :: 0 <= i < |xs| ==> xs[i] <= m
    decreases |xs|
  {
    if |xs| == 1 then xs[0]
    else
      var rest := MaxOf(xs[1..]);
      if xs[0] >= rest then xs[0] else rest
  }

  /** The key the next insert uses; `None` when `MaxAsync` throws on an empty table. */
  function NextId(ids: seq<Int32>): (r: Option<Int32>)
    ensures r.None? <==> |ids| == 0
    ensures r.Some? ==> r.value == Inc32(MaxOf(ids))
  {
    if |ids| == 0 then None else Some(Inc32(MaxOf(ids)))
  }

  /** The next key of a table, from the keys of its rows. */
  function NextKey<T>(rows: seq<T>, key: T -> Int32): Option<Int32>
  {
    NextId(Select(rows, key))
  }

  /** Below `Int32.MaxValue` the allocated key is larger than, hence
      different from, every key already in the table. */
  lemma NextKeyIsFresh<T>(rows: seq<T>, key: T -> Int32)
    requires |rows| > 0
    requires MaxOf(Select(rows, key)) < MaxInt32
    ensures NextKey(rows, key) == Some(MaxOf(Select(rows, key)) + 1)
    ensures forall i :: 0 <= i < |rows| ==> key(rows[i]) < NextKey(rows, key).value
  {
  }

  /** At `Int32.MaxValue` the allocation wraps to `Int32.MinValue`, which is
      not larger than the existing keys. */
  lemma NextKeyWrapsAtMaximum<T>(rows: seq<T>, key: T -> Int32)
    requires |rows| > 0
    requires MaxOf(Select(rows, key)) == MaxInt32
    ensures NextKey(rows, key) == Some(MinInt32)
  {
  }
}

=== FILE: inboxapi.dfy ===
/** The `ObtenerNotificacionesUsuario` action, written out identically in the
    shelter and adopter controllers: the paging guards, then the caller's
    page of notifications. */
module InboxApi {
  import opened Wrappers
  import opened Numerics
  import opened Seqs
  import opened Platform
  import opened Cryptography
  import opened Entities
  import opened Tokens
  import Notifications

  /** `BadRequest` from a guard, the exception `GetAuthenticatedUserId`
      throws (a 500), the database refusing the paging (also a 500, nothing
      catches it), or the page. */
  datatype PageResponse = PageBadRequest | PageFailed(error: TokenError) | PageRejected | Page(items: seq<Notificacion>)

  /** The values of the query parameters when the request leaves them out. */
  const DefaultPagina: Int32 := 1
  const DefaultTamanoPagina: Int32 := 10

  /** `GetNotificacionesUsuario`: a non-positive page number or page size
      is refused before the caller is identified or the repository asked. */
  function GetNotificacionesUsuario(lib: Library, settings: CipherSettings, db: Db, httpContext: Option<seq<Claim>>,
                                    pagina: Int32, tamanopagina: Int32): (r: PageResponse)
    ensures r == PageBadRequest <==> pagina <= 0 || tamanopagina <= 0
    ensures r.PageFailed? <==>
      pagina > 0 && tamanopagina > 0 && GetAuthenticatedUserId(lib, settings, httpContext).Failure?
    ensures r == PageRejected <==>
      pagina > 0 && tamanopagina > 0 && GetAuthenticatedUserId(lib, settings, httpContext).Success?
      && Notifications.PageOffset(pagina, tamanopagina) < 0
    ensures r.Page? ==>
      var idUsuario := GetAuthenticatedUserId(lib, settings, httpContext).value;
      |r.items| <= tamanopagina
      && forall i :: 0 <= i < |r.items| ==> r.items[i] in db.notificaciones && r.items[i].idUsuario == idUsuario
  {
    if pagina <= 0 then PageBadRequest
    else if tamanopagina <= 0 then PageBadRequest
    else match GetAuthenticatedUserId(lib, settings, httpContext)
      case Failure(e) => PageFailed(e)
      case Success(idUsuario) =>
        match Notifications.GetNotificacionesUsuario(db, idUsuario, pagina, tamanopagina)
        case Failed(_) => PageRejected
        case Done(_, items) => Page(items)
  }

  /** The guards let through a page number and size whose product overflows:
      page 3 of size 2^30 reaches the database and is refused there. */
  lemma HugePageIsRejected(lib: Library, settings: CipherSettings, db: Db, httpContext: Option<seq<Claim>>)
    requires GetAuthenticatedUserId(lib, settings, httpContext).Success?
    ensures GetNotificacionesUsuario(lib, settings, db, httpContext, 3, 0x4000_0000) == PageRejected
  {
    Notifications.WrappedOffsetIsRejected(db, GetAuthenticatedUserId(lib, settings, httpContext).value);
  }

  /** Without query parameters an identified caller gets their ten newest
      notifications, or all of them when they have fewer. */
  lemma DefaultPageIsNewestTen(lib: Library, settings: CipherSettings, db: Db, httpContext: Option<seq<Claim>>)
    requires GetAuthenticatedUserId(lib, settings, httpContext).Success?
    ensures var idUsuario := GetAuthenticatedUserId(lib, settings, httpContext).value;
      var all := Notifications.Inbox(db, idUsuario);
      GetNotificacionesUsuario(lib, settings, db, httpContext, DefaultPagina, DefaultTamanoPagina)
        == Page(all[..Min(10, |all|)])
  {
    var idUsuario := GetAuthenticatedUserId(lib, settings, httpContext).value;
    assert Notifications.Skipped(DefaultPagina, DefaultTamanoPagina) == 0;
    Notifications.PageIsSlice(db, idUsuario, DefaultPagina, DefaultTamanoPagina);
  }
}

=== FILE: messages.dfy ===
/** Direct messages between two users in `RepositoryZuvoPet`: a
    conversation, sending a message, and marking what the other user sent
    as read. */
module Messages {
  import opened Wrappers
  import opened Numerics
  import opened Calendar
  import opened Seqs
  import opened Entities
  import opened Ids

  /** A message exchanged between `a` and `b`, in either direction. */
  function Between(a: Int32, b: Int32): Mensaje -> bool
  {
    (m: Mensaje) => (m.idEmisor == a && m.idReceptor == b) || (m.idEmisor == b && m.idReceptor == a)
  }

  /** A message from `otro` to `lector` that `lector` has not read. */
  function UnreadFrom(lector: Int32, otro: Int32): Mensaje -> bool
  {
    (m: Mensaje) => m.idEmisor == otro && m.idReceptor == lector && !m.leido
  }

  /** `OrderBy(Fecha)`. */
  predicate OlderMessage(a: Mensaje, b: Mensaje)
  {
    Le(a.fecha, b.fecha)
  }

  lemma OlderMessageIsPreorder()
    ensures TotalPreorder(OlderMessage)
  {
    LeIsTotalOrder();
  }

  /** `GetMensajesConversacionAsync`: every message between the two users,
      oldest first. */
  function GetMensajesConversacion(db: Db, usuarioActual: Int32, otroUsuario: Int32): (r: seq<Mensaje>)
    ensures Sorted(r, OlderMessage)
    ensures forall m :: m in r <==> m in db.mensajes && Between(usuarioActual, otroUsuario)(m)
    ensures multiset(r) == multiset(Filter(db.mensajes, Between(usuarioActual, otroUsuario)))
  {
    OlderMessageIsPreorder();
    var talk := Filter(db.mensajes, Between(usuarioActual, otroUsuario));
    var r := SortBy(talk, OlderMessage);
    forall m ensures m in r <==> m in talk {
      assert m in r <==> m in multiset(r);
    }
    forall m ensures m in talk <==> m in db.mensajes && Between(usuarioActual, otroUsuario)(m) {
      InFilter(db.mensajes, Between(usuarioActual, otroUsuario), m);
    }
    r
  }

  /** Both participants see the same conversation, in the same order. */
  lemma ConversationIsSymmetric(db: Db, a: Int32, b: Int32)
    ensures GetMensajesConversacion(db, a, b) == GetMensajesConversacion(db, b, a)
  {
    FilterAgrees(db.mensajes, Between(a, b), Between(b, a));
  }

  /** The message `AgregarMensajeAsync` stores: unread, stamped `now`. */
  function NewMessage(id: Int32, emisor: Int32, receptor: Int32, contenido: string, now: DateTime): Mensaje
  {
    Mensaje(id, emisor, receptor, contenido, now, false)
  }

  /** `AgregarMensajeAsync`: appends the message under the next key and
      returns it; an empty table makes `MaxAsync` throw. */
  function AgregarMensaje(db: Db, emisor: Int32, receptor: Int32, contenido: string, now: DateTime): (r: Outcome<Mensaje>)
    ensures r.Failed? <==> |db.mensajes| == 0
    ensures r.Failed? ==> r.fault == EmptyTable
    ensures r.Done? ==>
      r.value.idEmisor == emisor && r.value.idReceptor == receptor && r.value.contenido == contenido
      && r.value.fecha == now && !r.value.leido
      && r.value.id == NextKey(db.mensajes, (m: Mensaje) => m.id).value
      && r.db == db.(mensajes := db.mensajes + [r.value])
  {
    match NextKey(db.mensajes, (m: Mensaje) => m.id)
    case None => Failed(EmptyTable)
    case Some(id) =>
      var m := NewMessage(id, emisor, receptor, contenido, now);
      Done(db.(mensajes := db.mensajes + [m]), m)
  }

  /** A message sent shows in the receiver's view of the conversation and
      raises the receiver's unread count from the sender by one. */
  lemma SentMessageIsDelivered(db: Db, emisor: Int32, receptor: Int32, contenido: string, now: DateTime)
    requires AgregarMensaje(db, emisor, receptor, contenido, now).Done?
    ensures var sent := AgregarMensaje(db, emisor, receptor, contenido, now);
      sent.value in GetMensajesConversacion(sent.db, receptor, emisor)
      && Count(sent.db.mensajes, UnreadFrom(receptor, emisor)) == Count(db.mensajes, UnreadFrom(receptor, emisor)) + 1
  {
    var sent := AgregarMensaje(db, emisor, receptor, contenido, now);
    FilterAppend(db.mensajes, sent.value, UnreadFrom(receptor, emisor));
  }

  function MarkRead(m: Mensaje): Mensaje
  {
    m.(leido := true)
  }

  /** `MarcarMensajesComoLeidosAsync`: every message from `otroUsuario` to
      `usuarioActual` is read afterwards; the answer says whether any of
      them was unread before. */
  function MarcarMensajesComoLeidos(db: Db, usuarioActual: Int32, otroUsuario: Int32): (r: Outcome<bool>)
    ensures r.Done?
    ensures r.value <==> exists j :: 0 <= j < |db.mensajes| && UnreadFrom(usuarioActual, otroUsuario)(db.mensajes[j])
    ensures r.db == db.(mensajes := r.db.mensajes)
    ensures |r.db.mensajes| == |db.mensajes|
  {
    var unread := UnreadFrom(usuarioActual, otroUsuario);
    CountZero(db.mensajes, unread);
    Done(db.(mensajes := MapWhere(db.mensajes, unread, MarkRead)), Count(db.mensajes, unread) > 0)
  }

  /** Afterwards nothing from the other user is unread, so a second call
      answers `false` and changes nothing. */
  lemma MarcarMensajesSettles(db: Db, usuarioActual: Int32, otroUsuario: Int32)
    ensures var after := MarcarMensajesComoLeidos(db, usuarioActual, otroUsuario).db;
      Count(after.mensajes, UnreadFrom(usuarioActual, otroUsuario)) == 0
      && MarcarMensajesComoLeidos(after, usuarioActual, otroUsuario) == Done(after, false)
  {
    MapWhereSettles(db.mensajes, UnreadFrom(usuarioActual, otroUsuario), MarkRead);
  }

  /** Only the read flag of messages from the other user to the caller
      changes; every other message is kept as it was. */
  lemma MarcarMensajesKeepsTheRest(db: Db, usuarioActual: Int32, otroUsuario: Int32)
    ensures var after := MarcarMensajesComoLeidos(db, usuarioActual, otroUsuario).db;
      forall j :: 0 <= j < |db.mensajes| ==>
        after.mensajes[j] == if db.mensajes[j].idEmisor == otroUsuario && db.mensajes[j].idReceptor == usuarioActual
                             then db.mensajes[j].(leido := true) else db.mensajes[j]
  {
  }
}

=== FILE: mime.dfy ===
/** `GetContentType`, written out identically in the authentication, shelter
    and adopter controllers and in the S3 storage service: the MIME type of
    a file name, decided by its lower-cased extension. */
module Mime {
  import opened Text

  const OctetStream: string := "application/octet-stream"

  /** The extensions the switch recognises, with their MIME types. */
  const KnownTypes: map<string, string> := map[
    ".jpg" := "image/jpeg", ".jpeg" := "image/jpeg", ".png" := "image/png",
    ".gif" := "image/gif", ".bmp" := "image/bmp", ".webp" := "image/webp",
    ".svg" := "image/svg+xml"]

  function ContentTypeOfExtension(extension: string): string
  {
    if extension == ".jpg" || extension == ".jpeg" then "image/jpeg"
    else if extension == ".png" then "image/png"
    else if extension == ".gif" then "image/gif"
    else if extension == ".bmp" then "image/bmp"
    else if extension == ".webp" then "image/webp"
    else if extension == ".svg" then "image/svg+xml"
    else OctetStream
  }

  function GetContentType(fileName: string): (contentType: string)
    ensures var extension := ToLower(GetExtension(fileName));
      contentType == if extension in KnownTypes then KnownTypes[extension] else OctetStream
  {
    ContentTypeOfExtension(ToLower(GetExtension(fileName)))
  }

  /** The decision ignores case: a file name and the same name with its
      extension in any letter case get the same type. */
  lemma ContentTypeIgnoresCase(stem: string, extension: string, other: string)
    requires ExtensionShaped(extension) && ExtensionShaped(other)
    requires ToLower(extension) == ToLower(other)
    ensures GetContentType(stem + extension) == GetContentType(stem + other)
  {
    ExtensionOfSuffix(stem, extension);
    ExtensionOfSuffix(stem, other);
  }

  /** A name without an extension, or with an unknown one, is served as
      an octet stream. */
  lemma UnknownExtensionIsOctetStream(fileName: string)
    requires ToLower(GetExtension(fileName)) !in KnownTypes
    ensures GetContentType(fileName) == OctetStream
  {
  }
}

=== FILE: notifications.dfy ===
/** A user's notifications in `RepositoryZuvoPet`: the paged list, the
    totals, marking one or all as read, deleting one, and the "anything new
    since" probe. */
module Notifications {
  import opened Wrappers
  import opened Numerics
  import opened Calendar
  import opened Seqs
  import opened Entities

  function ForUser(idUsuario: Int32): Notificacion -> bool
  {
    (n: Notificacion) => n.idUsuario == idUsuario
  }

  function UnreadFor(idUsuario: Int32): Notificacion -> bool
  {
    (n: Notificacion) => n.idUsuario == idUsuario && !n.leido
  }

  function NewSince(idUsuario: Int32, desde: DateTime): Notificacion -> bool
  {
    (n: Notificacion) => n.idUsuario == idUsuario && After(n.fecha, desde)
  }

  /** `OrderByDescending(Fecha)`. */
  predicate NewerNotice(a: Notificacion, b: Notificacion)
  {
    Le(b.fecha, a.fecha)
  }

  lemma NewerNoticeIsPreorder()
    ensures TotalPreorder(NewerNotice)
  {
    LeIsTotalOrder();
  }

  /** The user's notifications, newest first: the query before paging. */
  function Inbox(db: Db, idUsuario: Int32): (r: seq<Notificacion>)
    ensures Sorted(r, NewerNotice)
    ensures forall n :: n in r <==> n in db.notificaciones && n.idUsuario == idUsuario
    ensures multiset(r) == multiset(Filter(db.notificaciones, ForUser(idUsuario)))
  {
    NewerNoticeIsPreorder();
    var mine := Filter(db.notificaciones, ForUser(idUsuario));
    var r := SortBy(mine, NewerNotice);
    forall n ensures n in r <==> n in mine {
      assert n in r <==> n in multiset(r);
    }
    forall n ensures n in mine <==> n in db.notificaciones && n.idUsuario == idUsuario {
      InFilter(db.notificaciones, ForUser(idUsuario), n);
    }
    r
  }

  /** `(pagina - 1) * tamanoPagina` in C# `int` arithmetic. */
  function PageOffset(pagina: Int32, tamanoPagina: Int32): (r: Int32)
    ensures 1 <= pagina && 0 <= tamanoPagina && (pagina - 1) * tamanoPagina <= MaxInt32 ==> r == (pagina - 1) * tamanoPagina
  {
    Wrap32(Wrap32(pagina - 1) * tamanoPagina)
  }

  /** `Skip(o).Take(t)` is sent to MySQL as `LIMIT t OFFSET o`, which it
      refuses when either number is negative; a wrapped-around offset is
      refused the same way. */
  predicate PagingRejected(pagina: Int32, tamanoPagina: Int32)
  {
    PageOffset(pagina, tamanoPagina) < 0 || tamanoPagina < 0
  }

  /** `GetNotificacionesUsuarioAsync`: one page of the user's notifications,
      newest first, never more than the page size; the query fails when the
      database refuses the paging. */
  function GetNotificacionesUsuario(db: Db, idUsuario: Int32, pagina: Int32, tamanoPagina: Int32): (r: Outcome<seq<Notificacion>>)
    ensures r.Failed? <==> PageOffset(pagina, tamanoPagina) < 0 || tamanoPagina < 0
    ensures r.Failed? ==> r.fault == RejectedPaging
    ensures r.Done? ==>
      r.db == db
      && |r.value| <= tamanoPagina
      && (tamanoPagina == 0 ==> r.value == [])
      && (forall i :: 0 <= i < |r.value| ==> r.value[i] in db.notificaciones && r.value[i].idUsuario == idUsuario)
      && Sorted(r.value, NewerNotice)
  {
    if PagingRejected(pagina, tamanoPagina) then Failed(RejectedPaging)
    else
      var all := Inbox(db, idUsuario);
      SkipTakeWithin(all, PageOffset(pagina, tamanoPagina), tamanoPagina, NewerNotice);
      Done(db, Take(Skip(all, PageOffset(pagina, tamanoPagina)), tamanoPagina))
  }

  /** Page 3 of size 2^30 asks for an offset of 2^31, which wraps around to
      `int.MinValue`: the query is refused rather than answered. */
  lemma WrappedOffsetIsRejected(db: Db, idUsuario: Int32)
    ensures PageOffset(3, 0x4000_0000) == MinInt32
    ensures GetNotificacionesUsuario(db, idUsuario, 3, 0x4000_0000) == Failed(RejectedPaging)
  {
    assert Wrap32(2 * 0x4000_0000) == MinInt32;
  }

  /** Page 5 of size 2^30 asks for an offset of 2^32, which wraps around to
      zero: the query is answered with the first page again. */
  lemma WrappedOffsetRestarts(db: Db, idUsuario: Int32)
    ensures PageOffset(5, 0x4000_0000) == 0
    ensures GetNotificacionesUsuario(db, idUsuario, 5, 0x4000_0000) == GetNotificacionesUsuario(db, idUsuario, 1, 0x4000_0000)
  {
    assert Wrap32(4 * 0x4000_0000) == 0;
    assert PageOffset(1, 0x4000_0000) == 0;
  }

  /** With a positive page number and size whose offset fits an `int`, the
      query is answered. */
  lemma PagingAnsweredWhenOffsetFits(db: Db, idUsuario: Int32, pagina: Int32, tamanoPagina: Int32)
    requires 1 <= pagina && 1 <= tamanoPagina
    requires (pagina - 1) * tamanoPagina <= MaxInt32
    ensures GetNotificacionesUsuario(db, idUsuario, pagina, tamanoPagina).Done?
  {
    assert PageOffset(pagina, tamanoPagina) == Skipped(pagina, tamanoPagina);
  }

  /** How many notifications precede page `pagina`. */
  function Skipped(pagina: Int32, tamanoPagina: Int32): (r: nat)
    requires 1 <= pagina && 0 <= tamanoPagina
    ensures r == (pagina - 1) * tamanoPagina
  {
    var p: nat := pagina - 1;
    var t: nat := tamanoPagina;
    p * t
  }

  /** Page `pagina` of size `tamanoPagina` is the slice of the newest-first
      list that starts after `(pagina - 1) * tamanoPagina` notifications. */
  lemma PageIsSlice(db: Db, idUsuario: Int32, pagina: Int32, tamanoPagina: Int32)
    requires 1 <= pagina && 1 <= tamanoPagina
    requires (pagina - 1) * tamanoPagina <= MaxInt32
    ensures var all := Inbox(db, idUsuario);
      var off := Skipped(pagina, tamanoPagina);
      var lo := if off <= |all| then off else |all|;
      var hi := if off + tamanoPagina <= |all| then off + tamanoPagina else |all|;
      GetNotificacionesUsuario(db, idUsuario, pagina, tamanoPagina) == Done(db, all[lo..hi])
  {
    var off := Skipped(pagina, tamanoPagina);
    assert PageOffset(pagina, tamanoPagina) == off;
    var all := Inbox(db, idUsuario);
    assert GetNotificacionesUsuario(db, idUsuario, pagina, tamanoPagina) == Done(db, Take(Skip(all, off), tamanoPagina));
    SkipTakeSlice(all, off, tamanoPagina as int);
  }

  /** Every notification of the user is on exactly the page its position
      says, so paging through shows each of them. */
  lemma PagesCoverInbox(db: Db, idUsuario: Int32, tamanoPagina: Int32, i: nat)
    requires 1 <= tamanoPagina
    requires i < |Inbox(db, idUsuario)| && i < MaxInt32
    ensures var pagina := i / tamanoPagina + 1;
      MinInt32 <= pagina <= MaxInt32
      && GetNotificacionesUsuario(db, idUsuario, pagina, tamanoPagina).Done?
      && i % tamanoPagina < |GetNotificacionesUsuario(db, idUsuario, pagina, tamanoPagina).value|
      && GetNotificacionesUsuario(db, idUsuario, pagina, tamanoPagina).value[i % tamanoPagina] == Inbox(db, idUsuario)[i]
  {
    var t: nat := tamanoPagina;
    PositionOnPage(i, t);
    var pagina: Int32 := i / t + 1;
    var off := Skipped(pagina, tamanoPagina);
    assert off + i % t == i;
    PageIsSlice(db, idUsuario, pagina, tamanoPagina);
    SliceHolds(Inbox(db, idUsuario), off, t, i % t);
  }

  /** Row `off + r` of `all` is row `r` of the slice of length `t` that
      starts at `off`, cut short at the end of `all`. */
  lemma SliceHolds<T>(all: seq<T>, off: nat, t: nat, r: nat)
    requires r < t && off + r < |all|
    ensures var lo := if off <= |all| then off else |all|;
      var hi := if off + t <= |all| then off + t else |all|;
      r < hi - lo && all[lo..hi][r] == all[off + r]
  {
  }

  /** Position `i` lies `i % t` rows into page `i / t`, whose number is no
      more than `i`. */
  lemma PositionOnPage(i: nat, t: nat)
    requires 1 <= t
    ensures 0 <= i / t <= i && 0 <= i % t < t && (i / t) * t + i % t == i
  {
    var q: nat := i / t;
    var c: nat := t - 1;
    assert q * t == q * c + q;
  }

  /** `GetTotalNotificacionesUsuarioAsync`. */
  function GetTotalNotificacionesUsuario(db: Db, idUsuario: Int32): (r: nat)
    ensures r <= |db.notificaciones|
    ensures r == 0 <==> forall i :: 0 <= i < |db.notificaciones| ==> db.notificaciones[i].idUsuario != idUsuario
  {
    CountZero(db.notificaciones, ForUser(idUsuario));
    Count(db.notificaciones, ForUser(idUsuario))
  }

  /** `GetTotalNotificacionesNoLeidasAsync`. */
  function GetTotalNotificacionesNoLeidas(db: Db, idUsuario: Int32): (r: nat)
    ensures r <= |db.notificaciones|
    ensures r == 0 <==> forall i :: 0 <= i < |db.notificaciones| ==>
                           db.notificaciones[i].idUsuario != idUsuario || db.notificaciones[i].leido
  {
    CountZero(db.notificaciones, UnreadFor(idUsuario));
    Count(db.notificaciones, UnreadFor(idUsuario))
  }

  /** The total is the length of the newest-first list that pages are cut from. */
  lemma TotalIsInboxLength(db: Db, idUsuario: Int32)
    ensures GetTotalNotificacionesUsuario(db, idUsuario) == |Inbox(db, idUsuario)|
  {
    var all := Inbox(db, idUsuario);
    assert |all| == |multiset(all)|;
  }

  /** The first notification `idNotificacion` of the user. */
  function NoticeIndex(db: Db, idNotificacion: Int32, idUsuario: Int32): (r: Option<nat>)
    ensures r.Some? ==> r.value < |db.notificaciones| && db.notificaciones[r.value].id == idNotificacion
                        && db.notificaciones[r.value].idUsuario == idUsuario
    ensures r.None? <==> forall j :: 0 <= j < |db.notificaciones| ==>
                           !(db.notificaciones[j].id == idNotificacion && db.notificaciones[j].idUsuario == idUsuario)
  {
    FirstIndex(db.notificaciones, (n: Notificacion) => n.id == idNotificacion && n.idUsuario == idUsuario)
  }

  function MarkRead(n: Notificacion): Notificacion
  {
    n.(leido := true)
  }

  /** `MarcarNotificacionComoLeidaAsync`: only the user's own notification
      can be marked; `false` when it is not theirs or does not exist. */
  function MarcarNotificacionComoLeida(db: Db, idNotificacion: Int32, idUsuario: Int32): (r: Outcome<bool>)
    ensures r.Done?
    ensures r.value <==> exists j :: 0 <= j < |db.notificaciones| && db.notificaciones[j].id == idNotificacion
                                     && db.notificaciones[j].idUsuario == idUsuario
    ensures !r.value ==> r.db == db
    ensures r.value ==>
      var k := NoticeIndex(db, idNotificacion, idUsuario).value;
      r.db == db.(notificaciones := r.db.notificaciones)
      && |r.db.notificaciones| == |db.notificaciones|
      && r.db.notificaciones[k].leido
      && forall j :: 0 <= j < |db.notificaciones| ==>
           r.db.notificaciones[j] == if j == k then db.notificaciones[j].(leido := true) else db.notificaciones[j]
  {
    match NoticeIndex(db, idNotificacion, idUsuario)
    case None => Done(db, false)
    case Some(k) => Done(db.(notificaciones := db.notificaciones[k := MarkRead(db.notificaciones[k])]), true)
  }

  /** Marking one notification keeps the user's total and lowers the unread
      count by one exactly when it was unread. */
  lemma MarcarLeidaCounts(db: Db, idNotificacion: Int32, idUsuario: Int32)
    requires MarcarNotificacionComoLeida(db, idNotificacion, idUsuario).value
    ensures var after := MarcarNotificacionComoLeida(db, idNotificacion, idUsuario).db;
      var k := NoticeIndex(db, idNotificacion, idUsuario).value;
      GetTotalNotificacionesUsuario(after, idUsuario) == GetTotalNotificacionesUsuario(db, idUsuario)
      && GetTotalNotificacionesNoLeidas(after, idUsuario) + (if db.notificaciones[k].leido then 0 else 1)
         == GetTotalNotificacionesNoLeidas(db, idUsuario)
  {
    var k := NoticeIndex(db, idNotificacion, idUsuario).value;
    var x := MarkRead(db.notificaciones[k]);
    CountUpdate(db.notificaciones, k, x, ForUser(idUsuario));
    CountUpdate(db.notificaciones, k, x, UnreadFor(idUsuario));
  }

  /** `MarcarTodasNotificacionesComoLeidasAsync`: every unread notification
      of the user becomes read; always `true`. */
  function MarcarTodasNotificacionesComoLeidas(db: Db, idUsuario: Int32): (r: Outcome<bool>)
    ensures r.Done? && r.value
    ensures r.db == db.(notificaciones := r.db.notificaciones)
    ensures |r.db.notificaciones| == |db.notificaciones|
  {
    Done(db.(notificaciones := MapWhere(db.notificaciones, UnreadFor(idUsuario), MarkRead)), true)
  }

  /** Afterwards the user has no unread notification, and marking again
      changes nothing. */
  lemma MarcarTodasClearsUnread(db: Db, idUsuario: Int32)
    ensures var after := MarcarTodasNotificacionesComoLeidas(db, idUsuario).db;
      GetTotalNotificacionesNoLeidas(after, idUsuario) == 0
      && MarcarTodasNotificacionesComoLeidas(after, idUsuario) == Done(after, true)
  {
    MapWhereSettles(db.notificaciones, UnreadFor(idUsuario), MarkRead);
  }

  /** Only the read flag of the user's notifications changes: other users'
      notifications, their counts, and the user's total stay as they were. */
  lemma MarcarTodasKeepsTheRest(db: Db, idUsuario: Int32, otro: Int32)
    ensures var after := MarcarTodasNotificacionesComoLeidas(db, idUsuario).db;
      (forall j :: 0 <= j < |db.notificaciones| && db.notificaciones[j].idUsuario != idUsuario ==>
         after.notificaciones[j] == db.notificaciones[j])
      && (forall j :: 0 <= j < |db.notificaciones| && db.notificaciones[j].idUsuario == idUsuario ==>
         after.notificaciones[j] == db.notificaciones[j].(leido := true))
      && GetTotalNotificacionesUsuario(after, otro) == GetTotalNotificacionesUsuario(db, otro)
      && (otro != idUsuario ==> GetTotalNotificacionesNoLeidas(after, otro) == GetTotalNotificacionesNoLeidas(db, otro))
  {
    var before := db.notificaciones;
    var after := MarcarTodasNotificacionesComoLeidas(db, idUsuario).db.notificaciones;
    assert forall j :: 0 <= j < |before| ==>
      after[j] == if UnreadFor(idUsuario)(before[j]) then MarkRead(before[j]) else before[j];
    CountPointwise(after, before, ForUser(otro), ForUser(otro));
    if otro != idUsuario {
      CountPointwise(after, before, UnreadFor(otro), UnreadFor(otro));
    }
  }

  /** `EliminarNotificacionAsync`: removes the user's own notification;
      `false` when it is not theirs or does not exist. */
  function EliminarNotificacion(db: Db, idNotificacion: Int32, idUsuario: Int32): (r: Outcome<bool>)
    ensures r.Done?
    ensures r.value <==> exists j :: 0 <= j < |db.notificaciones| && db.notificaciones[j].id == idNotificacion
                                     && db.notificaciones[j].idUsuario == idUsuario
    ensures !r.value ==> r.db == db
    ensures r.value ==>
      r.db == db.(notificaciones := RemoveAt(db.notificaciones, NoticeIndex(db, idNotificacion, idUsuario).value))
  {
    match NoticeIndex(db, idNotificacion, idUsuario)
    case None => Done(db, false)
    case Some(k) => Done(db.(notificaciones := RemoveAt(db.notificaciones, k)), true)
  }

  /** Deleting lowers the user's total by one and leaves other users' totals. */
  lemma EliminarCountsDown(db: Db, idNotificacion: Int32, idUsuario: Int32, otro: Int32)
    requires EliminarNotificacion(db, idNotificacion, idUsuario).value
    ensures var after := EliminarNotificacion(db, idNotificacion, idUsuario).db;
      GetTotalNotificacionesUsuario(after, otro) + (if otro == idUsuario then 1 else 0)
      == GetTotalNotificacionesUsuario(db, otro)
  {
    var k := NoticeIndex(db, idNotificacion, idUsuario).value;
    CountRemoveAt(db.notificaciones, k, ForUser(otro));
  }

  /** `HayNotificacionesNuevasDesdeAsync`. */
  function HayNotificacionesNuevasDesde(db: Db, idUsuario: Int32, desde: DateTime): (r: bool)
    ensures r <==> exists j :: 0 <= j < |db.notificaciones| && db.notificaciones[j].idUsuario == idUsuario
                              && After(db.notificaciones[j].fecha, desde)
  {
    CountZero(db.notificaciones, NewSince(idUsuario, desde));
    Count(db.notificaciones, NewSince(idUsuario, desde)) > 0
  }

  /** When something is new, the first page shows a new notification first. */
  lemma NewShowsFirst(db: Db, idUsuario: Int32, desde: DateTime, tamanoPagina: Int32)
    requires HayNotificacionesNuevasDesde(db, idUsuario, desde)
    requires 1 <= tamanoPagina
    ensures var page := GetNotificacionesUsuario(db, idUsuario, 1, tamanoPagina);
      page.Done? && |page.value| > 0 && After(page.value[0].fecha, desde)
  {
    var all := Inbox(db, idUsuario);
    var j :| 0 <= j < |db.notificaciones| && db.notificaciones[j].idUsuario == idUsuario
             && After(db.notificaciones[j].fecha, desde);
    var n := db.notificaciones[j];
    assert n in all;
    var i :| 0 <= i < |all| && all[i] == n;
    assert NewerNotice(all[0], n) by {
      if i > 0 {
        assert Sorted(all, NewerNotice);
      }
    }
    LeIsTotalOrder();
    PageIsSlice(db, idUsuario, 1, tamanoPagina);
  }
}

=== FILE: numerics.dfy ===
/** C# `int` arithmetic, `Int32.ToString()` and `int.Parse`, in the
    invariant culture. */
module Numerics {
  import opened Wrappers
  import opened Text

  const MinInt32: int := -0x8000_0000
  const MaxInt32: int := 0x7FFF_FFFF
  const Int32Span: int := 0x1_0000_0000

  type Int32 = x: int | MinInt32 <= x <= MaxInt32

  type byte = x: int | 0 <= x < 256
  type Bytes = seq<byte>

  function Min(a: int, b: int): int
  {
    if a <= b then a else b
  }

  /** The two's-complement wrap-around of unchecked C# `int` arithmetic. */
  function Wrap32(x: int): (r: Int32)
    ensures MinInt32 <= x <= MaxInt32 ==> r == x
  {
    (x - MinInt32) % Int32Span + MinInt32
  }

  /** The wrapped value differs from the exact one by a multiple of 2^32. */
  lemma Wrap32Congruent(x: int)
    ensures (x - Wrap32(x)) % Int32Span == 0
  {
    var m := (x - MinInt32) % Int32Span;
    assert x - (m + MinInt32) == Int32Span * ((x - MinInt32) / Int32Span);
  }

  /** `x + 1` on a C# `int` (the `++` of `CantidadAnimales++`). */
  function Inc32(x: Int32): (r: Int32)
    ensures x < MaxInt32 ==> r == x + 1
    ensures x == MaxInt32 ==> r == MinInt32
  {
    Wrap32(x + 1)
  }

  /** `x - 1` on a C# `int` (the `--` of `CantidadAnimales--`). */
  function Dec32(x: Int32): (r: Int32)
    ensures x > MinInt32 ==> r == x - 1
    ensures x == MinInt32 ==> r == MaxInt32
  {
    Wrap32(x - 1)
  }

  /** Decrementing undoes incrementing, including across the wrap-around. */
  lemma DecUndoesInc(x: Int32)
    ensures Dec32(Inc32(x)) == x
  {
  }

  function DigitChar(d: int): (c: char)
    requires 0 <= d <= 9
    ensures IsAsciiDigit(c)
  {
    (d + '0' as int) as char
  }

  function DigitValue(c: char): (d: int)
    requires IsAsciiDigit(c)
    ensures 0 <= d <= 9 && DigitChar(d) == c
  {
    c as int - '0' as int
  }

  predicate AllDigits(s: string)
  {
    forall i :: 0 <= i < |s| ==> IsAsciiDigit(s[i])
  }

  /** Decimal digits of a natural number, most significant first, no leading zero. */
  function NatToDecimal(n: nat): (s: string)
    ensures |s| > 0 && AllDigits(s)
    decreases n
  {
    if n < 10 then [DigitChar(n)] else NatToDecimal(n / 10) + [DigitChar(n % 10)]
  }

  /** The value of a string of decimal digits. */
  function DecimalValue(s: string): nat
    requires AllDigits(s)
    decreases |s|
  {
    if |s| == 0 then 0 else DecimalValue(s[..|s| - 1]) * 10 + DigitValue(s[|s| - 1])
  }

  lemma {:induction false} DecimalRoundTrip(n: nat)
    ensures DecimalValue(NatToDecimal(n)) == n
    decreases n
  {
    if n >= 10 {
      var s := NatToDecimal(n);
      assert s[..|s| - 1] == NatToDecimal(n / 10);
      DecimalRoundTrip(n / 10);
    }
  }

  /** `Int32.ToString()`: an optional minus sign followed by the digits. */
  function IntToDecimal(x: int): (s: string)
    ensures |s| > 0
    ensures x >= 0 ==> AllDigits(s)
    ensures x < 0 ==> s[0] == '-' && AllDigits(s[1..])
  {
    if x < 0 then "-" + NatToDecimal(-x) else NatToDecimal(x)
  }

  /** White space that `int.Parse` skips around the number. */
  predicate IsParseWhiteSpace(c: char)
  {
    c == ' ' || '\t' <= c <= '\r'
  }

  function TrimStart(s: string): (r: string)
    ensures |r| <= |s| && r == s[|s| - |r|..]
    ensures |r| > 0 ==> !IsParseWhiteSpace(r[0])
    decreases |s|
  {
    if |s| > 0 && IsParseWhiteSpace(s[0]) then TrimStart(s[1..]) else s
  }

  function TrimEnd(s: string): (r: string)
    ensures |r| <= |s| && r == s[..|r|]
    ensures |r| > 0 ==> !IsParseWhiteSpace(r[|r| - 1])
    decreases |s|
  {
    if |s| > 0 && IsParseWhiteSpace(s[|s| - 1]) then TrimEnd(s[..|s| - 1]) else s
  }

  /** `int.Parse(s)` with `NumberStyles.Integer`: surrounding white space, an
      optional sign and at least one decimal digit; `None` stands for the
      `FormatException` or `OverflowException` it throws otherwise. */
  function ParseInt32(s: string): (r: Option<Int32>)
    ensures r.Some? ==> exists i :: 0 <= i < |s| && IsAsciiDigit(s[i])
  {
    var t := TrimEnd(TrimStart(s));
    if |t| == 0 then None
    else
      var negative := t[0] == '-';
      var digits := if t[0] == '-' || t[0] == '+' then t[1..] else t;
      if |digits| == 0 || !AllDigits(digits) then None
      else
        var magnitude: int := DecimalValue(digits);
        var v := if negative then -magnitude else magnitude;
        if MinInt32 <= v <= MaxInt32 then
          assert digits[0] == s[|s| - |TrimStart(s)| + |t| - |digits|];
          Some(v)
        else None
  }

  lemma TrimDigits(s: string)
    requires |s| > 0 && (IsAsciiDigit(s[0]) || s[0] == '-') && IsAsciiDigit(s[|s| - 1])
    ensures TrimEnd(TrimStart(s)) == s
  {
    assert !IsParseWhiteSpace(s[0]);
    assert TrimStart(s) == s;
    assert !IsParseWhiteSpace(s[|s| - 1]);
  }

  /** `int.Parse` reads back exactly what `Int32.ToString()` writes. */
  lemma ParseFormatRoundTrip(x: Int32)
    ensures ParseInt32(IntToDecimal(x)) == Some(x)
  {
    var s := IntToDecimal(x);
    TrimDigits(s);
    if x < 0 {
      var digits := NatToDecimal(-(x as int));
      assert s[0] == '-' && s[1..] == digits;
      DecimalRoundTrip(-(x as int));
      assert DecimalValue(s[1..]) == -(x as int);
    } else {
      assert s[0] != '-' && s[0] != '+';
      DecimalRoundTrip(x);
      assert DecimalValue(s) == x as int;
    }
  }
}

=== FILE: pets.dfy ===
/** Pets in `RepositoryZuvoPet`: age in months, the featured list of the
    landing page, and a shelter's create, update, delete, photo and view
    operations. */
module Pets {
  import opened Wrappers
  import opened Numerics
  import opened Calendar
  import opened Seqs
  import opened Entities
  import opened Ids
  import opened Queries

  const Disponible: string := "Disponible"
  const FeaturedCount: nat := 6

  /** `CalcularEdadEnMeses`, with the clock reading `fechaActual`. */
  function CalcularEdadEnMeses(fechaNacimiento: DateTime, fechaActual: DateTime): int
  {
    var edadEnAnios := fechaActual.year - fechaNacimiento.year;
    var anios :=
      if fechaActual.month < fechaNacimiento.month
         || (fechaActual.month == fechaNacimiento.month && fechaActual.day < fechaNacimiento.day)
      then edadEnAnios - 1 else edadEnAnios;
    var meses := fechaActual.month - fechaNacimiento.month;
    var meses' := if fechaActual.day < fechaNacimiento.day then meses - 1 else meses;
    var meses'' := if meses' < 0 then meses' + 12 else meses';
    anios * 12 + meses''
  }

  /** The age is the difference in months, less one when the day of the
      month has not been reached yet. */
  lemma AgeClosedForm(fechaNacimiento: DateTime, fechaActual: DateTime)
    ensures CalcularEdadEnMeses(fechaNacimiento, fechaActual)
      == 12 * (fechaActual.year - fechaNacimiento.year) + (fechaActual.month - fechaNacimiento.month)
         - (if fechaActual.day < fechaNacimiento.day then 1 else 0)
  {
  }

  /** The age is never negative exactly when the birth date is not after
      today, and it is zero on the day of birth. */
  lemma AgeSign(fechaNacimiento: DateTime, fechaActual: DateTime)
    ensures CalcularEdadEnMeses(fechaNacimiento, fechaActual) >= 0 <==> DateOnlyLe(fechaNacimiento, fechaActual)
    ensures (fechaNacimiento.year == fechaActual.year && fechaNacimiento.month == fechaActual.month
             && fechaNacimiento.day == fechaActual.day) ==> CalcularEdadEnMeses(fechaNacimiento, fechaActual) == 0
  {
    AgeClosedForm(fechaNacimiento, fechaActual);
  }

  /** Featured order: more views first, then the earlier birth date. */
  predicate FeaturedBefore(a: Mascota, b: Mascota)
  {
    a.vistas > b.vistas || (a.vistas == b.vistas && Le(a.profile.fechaNacimiento, b.profile.fechaNacimiento))
  }

  lemma FeaturedBeforeIsPreorder()
    ensures TotalPreorder(FeaturedBefore)
  {
    LeIsTotalOrder();
  }

  predicate IsAvailable(m: Mascota)
  {
    m.estado == Disponible
  }

  /** The pets `ObtenerMascotasDestacadasAsync` shows, before projection:
      the six best available pets in featured order (all of them when there
      are fewer), no pet left out ranking before one shown. */
  function FeaturedPets(db: Db): (r: seq<Mascota>)
    ensures var available := Filter(db.mascotas, IsAvailable);
      |r| == Min(FeaturedCount, |available|)
      && (forall i :: 0 <= i < |r| ==> r[i] in db.mascotas && r[i].estado == Disponible)
      && Sorted(r, FeaturedBefore)
      && multiset(r) <= multiset(available)
      && forall p :: multiset(r)[p] < multiset(available)[p] ==> forall q :: q in r ==> FeaturedBefore(q, p)
  {
    FeaturedBeforeIsPreorder();
    var available := Filter(db.mascotas, IsAvailable);
    var r := TakeSorted(available, FeaturedBefore, FeaturedCount);
    FilterMembers(db.mascotas, IsAvailable);
    assert forall i :: 0 <= i < |r| ==> r[i] in db.mascotas && r[i].estado == Disponible by {
      forall i | 0 <= i < |r| ensures r[i] in db.mascotas && r[i].estado == Disponible {
        assert r[i] in available;
        var j :| 0 <= j < |available| && available[j] == r[i];
      }
    }
    r
  }

  function CardOf(m: Mascota, fechaActual: DateTime): MascotaCard
  {
    MascotaCard(m.id, m.profile.nombre, m.profile.especie, m.profile.tamano, m.profile.sexo, m.foto,
                CalcularEdadEnMeses(m.profile.fechaNacimiento, fechaActual))
  }

  /** `ObtenerMascotasDestacadasAsync`: at most six cards, each the card of
      an available pet in featured order, with its age at `fechaActual`. */
  function ObtenerMascotasDestacadas(db: Db, fechaActual: DateTime): (cards: seq<MascotaCard>)
    ensures |cards| <= FeaturedCount
    ensures |cards| == |FeaturedPets(db)|
    ensures forall i :: 0 <= i < |cards| ==> cards[i] == CardOf(FeaturedPets(db)[i], fechaActual)
    ensures forall i :: 0 <= i < |cards| ==>
      exists m :: m in db.mascotas && m.estado == Disponible && cards[i] == CardOf(m, fechaActual)
  {
    var pets := FeaturedPets(db);
    var cards := Select(pets, (m: Mascota) => CardOf(m, fechaActual));
    forall i | 0 <= i < |cards|
      ensures exists m :: m in db.mascotas && m.estado == Disponible && cards[i] == CardOf(m, fechaActual)
    {
      assert pets[i] in db.mascotas && pets[i].estado == Disponible && cards[i] == CardOf(pets[i], fechaActual);
    }
    cards
  }

  /** `CrearMascotaRefugioAsync`: the account's shelter gets a new pet with
      the next key, no views and `fechaActual` as registration date, and its
      animal count goes up by one. Looking up the shelter comes first, then
      the key, then the shelter's key, so an empty pet table fails before a
      missing shelter. */
  function CrearMascotaRefugio(db: Db, m: Mascota, idUsuario: Int32, fechaActual: DateTime): (r: Outcome<bool>)
    ensures |db.mascotas| == 0 ==> r == Failed(EmptyTable)
    ensures |db.mascotas| > 0 && RefugioOfUsuario(db, idUsuario).None? ==> r == Failed(NullReference)
    ensures r.Done? <==> |db.mascotas| > 0 && RefugioOfUsuario(db, idUsuario).Some?
    ensures r.Done? ==> (r.value && RefugioOfUsuario(db, idUsuario).Some?
      && var k := RefugioOfUsuario(db, idUsuario).value;
         var n := |db.mascotas|;
         |r.db.mascotas| == n + 1 && r.db.mascotas[..n] == db.mascotas
         && r.db.mascotas[n] == Mascota(NextKey(db.mascotas, (p: Mascota) => p.id).value, m.profile, m.estado,
                                        db.refugios[k].id, m.foto, 0, fechaActual)
         && r.db.refugios == db.refugios[k := db.refugios[k].(cantidadAnimales := Inc32(db.refugios[k].cantidadAnimales))]
         && r.db == db.(mascotas := r.db.mascotas, refugios := r.db.refugios))
  {
    var refugio := RefugioOfUsuario(db, idUsuario);
    match NextKey(db.mascotas, (p: Mascota) => p.id)
    case None => Failed(EmptyTable)
    case Some(id) =>
      if refugio.None? then Failed(NullReference)
      else
        var k := refugio.value;
        var mascota := Mascota(id, m.profile, m.estado, db.refugios[k].id, m.foto, 0, fechaActual);
        var shelter := db.refugios[k].(cantidadAnimales := Inc32(db.refugios[k].cantidadAnimales));
        assert (db.mascotas + [mascota])[..|db.mascotas|] == db.mascotas;
        Done(db.(mascotas := db.mascotas + [mascota], refugios := db.refugios[k := shelter]), true)
  }

  /** `UpdateMascotaAsync`: copies the descriptive fields and the state onto
      the stored pet, and the photo only when one is given. */
  function UpdateMascota(db: Db, mascota: Mascota): (r: Outcome<bool>)
    ensures r.Done?
    ensures MascotaIndex(db, mascota.id).None? <==> r == Done(db, false)
    ensures MascotaIndex(db, mascota.id).Some? ==>
      var k := MascotaIndex(db, mascota.id).value;
      var before := db.mascotas[k];
      r.value && |r.db.mascotas| == |db.mascotas|
      && r.db == db.(mascotas := r.db.mascotas)
      && (forall j :: 0 <= j < |db.mascotas| && j != k ==> r.db.mascotas[j] == db.mascotas[j])
      && var after := r.db.mascotas[k];
         after.profile == mascota.profile && after.estado == mascota.estado
         && after.foto == (if mascota.foto == "" then before.foto else mascota.foto)
         && after.id == before.id && after.idRefugio == before.idRefugio
         && after.vistas == before.vistas && after.fechaRegistro == before.fechaRegistro
  {
    match MascotaIndex(db, mascota.id)
    case None => Done(db, false)
    case Some(k) =>
      var actual := db.mascotas[k];
      var updated := actual.(profile := mascota.profile, estado := mascota.estado,
                             foto := if mascota.foto != "" then mascota.foto else actual.foto);
      Done(db.(mascotas := db.mascotas[k := updated]), true)
  }

  /** Updating twice with the same data is updating once. */
  lemma UpdateMascotaIdempotent(db: Db, mascota: Mascota)
    ensures UpdateMascota(UpdateMascota(db, mascota).db, mascota) == UpdateMascota(db, mascota)
  {
    var once := UpdateMascota(db, mascota).db;
    if MascotaIndex(db, mascota.id).Some? {
      var k := MascotaIndex(db, mascota.id).value;
      assert forall j :: 0 <= j < |once.mascotas| ==> (once.mascotas[j].id == mascota.id <==> db.mascotas[j].id == mascota.id);
      assert MascotaIndex(once, mascota.id) == Some(k);
    }
  }

  /** `DeleteMascotaAsync`: removes the pet together with its favourites,
      adoption requests and success stories, and its shelter's animal count
      goes down by one; without that shelter the transaction rolls back and
      the exception propagates. */
  function DeleteMascota(db: Db, id: Int32): (r: Outcome<bool>)
    ensures MascotaIndex(db, id).None? <==> r == Done(db, false)
    ensures r.Done? ==> (r.value <==> MascotaIndex(db, id).Some?)
    ensures MascotaIndex(db, id).Some? ==>
      var pet := db.mascotas[MascotaIndex(db, id).value];
      (r.Failed? <==> RefugioIndex(db, pet.idRefugio).None?) && (r.Failed? ==> r.fault == NullReference)
    ensures r.Done? && r.value ==>
      var k := MascotaIndex(db, id).value;
      var j := RefugioIndex(db, db.mascotas[k].idRefugio).value;
      r.db.mascotas == RemoveAt(db.mascotas, k)
      && (forall i :: 0 <= i < |r.db.favoritos| ==> r.db.favoritos[i].idMascota != id)
      && (forall i :: 0 <= i < |r.db.solicitudes| ==> r.db.solicitudes[i].idMascota != id)
      && (forall i :: 0 <= i < |r.db.historias| ==> r.db.historias[i].idMascota != id)
      && r.db.favoritos == Filter(db.favoritos, (f: Favorito) => f.idMascota != id)
      && r.db.solicitudes == Filter(db.solicitudes, (s: SolicitudAdopcion) => s.idMascota != id)
      && r.db.historias == Filter(db.historias, (h: HistoriaExito) => h.idMascota != id)
      && r.db.refugios == db.refugios[j := db.refugios[j].(cantidadAnimales := Dec32(db.refugios[j].cantidadAnimales))]
      && r.db.usuarios == db.usuarios && r.db.adoptantes == db.adoptantes && r.db.likes == db.likes
      && r.db.mensajes == db.mensajes && r.db.notificaciones == db.notificaciones
  {
    match MascotaIndex(db, id)
    case None => Done(db, false)
    case Some(k) =>
      var mascota := db.mascotas[k];
      match RefugioIndex(db, mascota.idRefugio)
      case None => Failed(NullReference)
      case Some(j) =>
        var refugio := db.refugios[j].(cantidadAnimales := Dec32(db.refugios[j].cantidadAnimales));
        Done(db.(favoritos := Filter(db.favoritos, (f: Favorito) => f.idMascota != id),
                 solicitudes := Filter(db.solicitudes, (s: SolicitudAdopcion) => s.idMascota != id),
                 historias := Filter(db.historias, (h: HistoriaExito) => h.idMascota != id),
                 mascotas := RemoveAt(db.mascotas, k),
                 refugios := db.refugios[j := refugio]), true)
  }

  /** Where a delete of the pet just created finds it and its shelter: the
      new pet is the last row and the only one with its key, and its shelter
      is the account's. */
  lemma CreatedPetLocated(db: Db, m: Mascota, idUsuario: Int32, fechaActual: DateTime)
    requires CrearMascotaRefugio(db, m, idUsuario, fechaActual).Done?
    requires MaxOf(Select(db.mascotas, (p: Mascota) => p.id)) < MaxInt32
    requires UniqueRefugioKeys(db)
    ensures var created := CrearMascotaRefugio(db, m, idUsuario, fechaActual).db;
      var newId := NextKey(db.mascotas, (p: Mascota) => p.id).value;
      var k := RefugioOfUsuario(db, idUsuario).value;
      MascotaIndex(created, newId) == Some(|db.mascotas|)
      && created.mascotas[|db.mascotas|].idRefugio == db.refugios[k].id
      && RefugioIndex(created, db.refugios[k].id) == Some(k)
  {
    var created := CrearMascotaRefugio(db, m, idUsuario, fechaActual).db;
    var newId := NextKey(db.mascotas, (p: Mascota) => p.id).value;
    var n := |db.mascotas|;
    var k := RefugioOfUsuario(db, idUsuario).value;
    assert created.mascotas[..n] == db.mascotas && created.mascotas[n].id == newId;
    NextKeyIsFresh(db.mascotas, (p: Mascota) => p.id);
    forall i | 0 <= i < n ensures db.mascotas[i].id != newId {
      assert Select(db.mascotas, (p: Mascota) => p.id)[i] == db.mascotas[i].id;
    }
    AppendedPetFound(db.mascotas, created, newId);
    ShelterStillFound(db, created, k);
  }

  /** A key no earlier pet holds is found at the position it was appended. */
  lemma AppendedPetFound(before: seq<Mascota>, created: Db, newId: Int32)
    requires |created.mascotas| == |before| + 1 && created.mascotas[..|before|] == before
    requires created.mascotas[|before|].id == newId
    requires forall i :: 0 <= i < |before| ==> before[i].id != newId
    ensures MascotaIndex(created, newId) == Some(|before|)
  {
    assert forall i :: 0 <= i < |before| ==> created.mascotas[i] == before[i];
  }

  /** With unique shelter keys, a table whose keys are unchanged finds each
      shelter where it was. */
  lemma ShelterStillFound(db: Db, created: Db, k: nat)
    requires UniqueRefugioKeys(db) && k < |db.refugios|
    requires |created.refugios| == |db.refugios|
    requires forall i :: 0 <= i < |db.refugios| ==> created.refugios[i].id == db.refugios[i].id
    ensures RefugioIndex(created, db.refugios[k].id) == Some(k)
  {
  }

  /** Deleting a pet just created gives back the pet and shelter tables as
      they were, when the new key is fresh and shelter keys are unique. */
  lemma CreateThenDeleteRestores(db: Db, m: Mascota, idUsuario: Int32, fechaActual: DateTime)
    requires CrearMascotaRefugio(db, m, idUsuario, fechaActual).Done?
    requires MaxOf(Select(db.mascotas, (p: Mascota) => p.id)) < MaxInt32
    requires UniqueRefugioKeys(db)
    ensures var created := CrearMascotaRefugio(db, m, idUsuario, fechaActual).db;
      var newId := NextKey(db.mascotas, (p: Mascota) => p.id).value;
      var deleted := DeleteMascota(created, newId);
      deleted.Done? && deleted.value && deleted.db.mascotas == db.mascotas && deleted.db.refugios == db.refugios
  {
    var created := CrearMascotaRefugio(db, m, idUsuario, fechaActual).db;
    var k := RefugioOfUsuario(db, idUsuario).value;
    CreatedPetLocated(db, m, idUsuario, fechaActual);
    assert RemoveAt(created.mascotas, |db.mascotas|) == db.mascotas;
    DecUndoesInc(db.refugios[k].cantidadAnimales);
  }

  /** `ActualizarFotoMascota`: sets the photo of the pet with that key;
      `false` when there is none. */
  function ActualizarFotoMascota(db: Db, idMascota: Int32, nuevaFoto: string): (r: Outcome<bool>)
    ensures r.Done?
    ensures MascotaIndex(db, idMascota).None? <==> r == Done(db, false)
    ensures MascotaIndex(db, idMascota).Some? ==>
      var k := MascotaIndex(db, idMascota).value;
      r.value && r.db == db.(mascotas := db.mascotas[k := db.mascotas[k].(foto := nuevaFoto)])
  {
    match MascotaIndex(db, idMascota)
    case None => Done(db, false)
    case Some(k) => Done(db.(mascotas := db.mascotas[k := db.mascotas[k].(foto := nuevaFoto)]), true)
  }

  /** `IncrementarVistasMascota`: one more view, in C# `int` arithmetic. */
  function IncrementarVistasMascota(db: Db, idMascota: Int32): (r: Outcome<bool>)
    ensures r.Done?
    ensures MascotaIndex(db, idMascota).None? <==> r == Done(db, false)
    ensures MascotaIndex(db, idMascota).Some? ==>
      var k := MascotaIndex(db, idMascota).value;
      r.value && |r.db.mascotas| == |db.mascotas|
      && (db.mascotas[k].vistas < MaxInt32 ==> r.db.mascotas[k].vistas == db.mascotas[k].vistas + 1)
      && r.db.mascotas[k] == db.mascotas[k].(vistas := r.db.mascotas[k].vistas)
      && forall j :: 0 <= j < |db.mascotas| && j != k ==> r.db.mascotas[j] == db.mascotas[j]
  {
    match MascotaIndex(db, idMascota)
    case None => Done(db, false)
    case Some(k) =>
      var m := db.mascotas[k];
      Done(db.(mascotas := db.mascotas[k := m.(vistas := Inc32(m.vistas))]), true)
  }

  /** Below `Int32.MaxValue` a view puts the pet strictly ahead of its
      former self in featured order, and it stays where it was in the table. */
  lemma ViewRaisesRank(db: Db, idMascota: Int32)
    requires MascotaIndex(db, idMascota).Some?
    requires db.mascotas[MascotaIndex(db, idMascota).value].vistas < MaxInt32
    ensures var k := MascotaIndex(db, idMascota).value;
      var after := IncrementarVistasMascota(db, idMascota).db;
      MascotaIndex(after, idMascota) == Some(k)
      && FeaturedBefore(after.mascotas[k], db.mascotas[k])
      && !FeaturedBefore(db.mascotas[k], after.mascotas[k])
  {
    var k := MascotaIndex(db, idMascota).value;
    var after := IncrementarVistasMascota(db, idMascota).db;
    assert forall j :: 0 <= j < |db.mascotas| ==> after.mascotas[j].id == db.mascotas[j].id;
  }
}

=== FILE: platform.dfy ===
/** The vendor code the helpers call and this model cannot see: UTF-8,
    SHA-256, SHA-512, AES-CBC, Base64 and the JSON serialisers. Each is a
    function value of a `Library`; what the model relies on about them is
    stated as the laws below and passed explicitly to the lemmas that use
    them. */
module Platform {
  import opened Wrappers
  import opened Numerics

  /** `UsuarioTokenDTO`, the user record sealed into the session token. */
  datatype TokenUser = TokenUser(idUsuario: Int32, nombreUsuario: string, role: string)

  /** What `JsonConvert.DeserializeObject` returns: a value, `null` (for the
      JSON literal `null`), or the `JsonException` it throws. */
  datatype Parsed<+T> = Parsed(value: T) | ParsedNull | Malformed

  datatype Library = Library(
    utf8Encode: string -> Bytes,
    utf8Decode: Bytes -> string,
    sha256: Bytes -> Bytes,
    sha512: Bytes -> Bytes,
    /** AES-CBC with PKCS#7 padding: (key, iv, plain) to cipher. */
    aesEncrypt: (Bytes, Bytes, Bytes) -> Bytes,
    /** The inverse; `None` is the `CryptographicException` of bad padding. */
    aesDecrypt: (Bytes, Bytes, Bytes) -> Option<Bytes>,
    toBase64: Bytes -> string,
    fromBase64: string -> Option<Bytes>,
    writeTokenUser: TokenUser -> string,
    readTokenUser: string -> Parsed<TokenUser>,
    writeStringList: seq<string> -> string,
    readStringList: string -> Parsed<seq<string>>)

  /** SHA-256 digests are 32 bytes long and SHA-512 digests 64. */
  ghost predicate DigestLengths(lib: Library)
  {
    (forall b :: |lib.sha256(b)| == 32) && (forall b :: |lib.sha512(b)| == 64)
  }

  /** Decoding undoes encoding: UTF-8 on strings of Unicode scalar values,
      Base64, and AES under the same key and IV. */
  ghost predicate CodecRoundTrips(lib: Library)
  {
    (forall s :: lib.utf8Decode(lib.utf8Encode(s)) == s)
    && (forall b :: lib.fromBase64(lib.toBase64(b)) == Some(b))
    && (forall key, iv, plain :: lib.aesDecrypt(key, iv, lib.aesEncrypt(key, iv, plain)) == Some(plain))
  }

  /** Base64 writes four characters for every started group of three bytes. */
  ghost predicate Base64Length(lib: Library)
  {
    forall b :: |lib.toBase64(b)| == 4 * ((|b| + 2) / 3)
  }

  /** The JSON serialisers read back what they write; the empty array reads
      as the empty list and the empty string is not JSON. */
  ghost predicate JsonRoundTrips(lib: Library)
  {
    (forall u :: lib.readTokenUser(lib.writeTokenUser(u)) == Parsed(u))
    && (forall xs :: lib.readStringList(lib.writeStringList(xs)) == Parsed(xs))
    && lib.readStringList("[]") == Parsed([])
    && lib.readStringList("") == Malformed
  }
}

=== FILE: queries.dfy ===
/** The single-row lookups the repository and controllers share
    (`FirstOrDefaultAsync` and `FindAsync` by a key), as positions in a
    table: the first row that matches, or `None` for `null`. */
module Queries {
  import opened Wrappers
  import opened Numerics
  import opened Seqs
  import opened Entities

  /** `GetMascotaByIdAsync` and `Mascotas.FindAsync(id)`. */
  function MascotaIndex(db: Db, id: Int32): (r: Option<nat>)
    ensures r.Some? ==> r.value < |db.mascotas| && db.mascotas[r.value].id == id
    ensures r.Some? ==> forall j :: 0 <= j < r.value ==> db.mascotas[j].id != id
    ensures r.None? <==> forall j :: 0 <= j < |db.mascotas| ==> db.mascotas[j].id != id
  {
    FirstIndex(db.mascotas, (m: Mascota) => m.id == id)
  }

  /** `GetRefugioByUsuarioIdAsync`: the shelter an account owns. */
  function RefugioOfUsuario(db: Db, idUsuario: Int32): (r: Option<nat>)
    ensures r.Some? ==> r.value < |db.refugios| && db.refugios[r.value].idUsuario == idUsuario
    ensures r.Some? ==> forall j :: 0 <= j < r.value ==> db.refugios[j].idUsuario != idUsuario
    ensures r.None? <==> forall j :: 0 <= j < |db.refugios| ==> db.refugios[j].idUsuario != idUsuario
  {
    FirstIndex(db.refugios, (f: Refugio) => f.idUsuario == idUsuario)
  }

  /** The shelter with a given key (the `Refugio` navigation of a pet). */
  function RefugioIndex(db: Db, id: Int32): (r: Option<nat>)
    ensures r.Some? ==> r.value < |db.refugios| && db.refugios[r.value].id == id
    ensures r.Some? ==> forall j :: 0 <= j < r.value ==> db.refugios[j].id != id
    ensures r.None? <==> forall j :: 0 <= j < |db.refugios| ==> db.refugios[j].id != id
  {
    FirstIndex(db.refugios, (f: Refugio) => f.id == id)
  }

  /** `GetAdoptanteByUsuarioIdAsync`: the adopter an account owns. */
  function AdoptanteOfUsuario(db: Db, idUsuario: Int32): (r: Option<nat>)
    ensures r.Some? ==> r.value < |db.adoptantes| && db.adoptantes[r.value].idUsuario == idUsuario
    ensures r.Some? ==> forall j :: 0 <= j < r.value ==> db.adoptantes[j].idUsuario != idUsuario
    ensures r.None? <==> forall j :: 0 <= j < |db.adoptantes| ==> db.adoptantes[j].idUsuario != idUsuario
  {
    FirstIndex(db.adoptantes, (a: Adoptante) => a.idUsuario == idUsuario)
  }

  /** The key of the account's adopter; `adoptante.Id` on a missing adopter
      is a `NullReferenceException`. */
  function AdopterKey(db: Db, idUsuario: Int32): (r: Result<Int32, Fault>)
    ensures r.Failure? <==> AdoptanteOfUsuario(db, idUsuario).None?
    ensures r.Failure? ==> r.error == NullReference
    ensures r.Success? ==> exists j :: 0 <= j < |db.adoptantes| && db.adoptantes[j].idUsuario == idUsuario
                                       && db.adoptantes[j].id == r.value
  {
    match AdoptanteOfUsuario(db, idUsuario)
    case None => Failure(NullReference)
    case Some(j) => Success(db.adoptantes[j].id)
  }

  /** The adopter with a given key (the `Adoptante` navigation of a request). */
  function AdoptanteIndex(db: Db, id: Int32): (r: Option<nat>)
    ensures r.Some? ==> r.value < |db.adoptantes| && db.adoptantes[r.value].id == id
    ensures r.None? <==> forall j :: 0 <= j < |db.adoptantes| ==> db.adoptantes[j].id != id
  {
    FirstIndex(db.adoptantes, (a: Adoptante) => a.id == id)
  }

  /** The user with a given key. */
  function UsuarioIndex(db: Db, id: Int32): (r: Option<nat>)
    ensures r.Some? ==> r.value < |db.usuarios| && db.usuarios[r.value].id == id
    ensures r.None? <==> forall j :: 0 <= j < |db.usuarios| ==> db.usuarios[j].id != id
  {
    FirstIndex(db.usuarios, (u: Usuario) => u.id == id)
  }

  /** The adoption request with a given key. */
  function SolicitudIndex(db: Db, id: Int32): (r: Option<nat>)
    ensures r.Some? ==> r.value < |db.solicitudes| && db.solicitudes[r.value].id == id
    ensures r.None? <==> forall j :: 0 <= j < |db.solicitudes| ==> db.solicitudes[j].id != id
  {
    FirstIndex(db.solicitudes, (s: SolicitudAdopcion) => s.id == id)
  }

  /** Every row of the table has its own key. */
  predicate UniqueRefugioKeys(db: Db)
  {
    forall i, j :: 0 <= i < |db.refugios| && 0 <= j < |db.refugios| && db.refugios[i].id == db.refugios[j].id ==> i == j
  }
}

=== FILE: resources.dfy ===
/** The value conversion `ZuvoPetContext` installs on
    `Adoptante.RecursosDisponibles`: a list of strings kept as one JSON text
    column. */
module ResourceColumn {
  import opened Wrappers
  import opened Platform

  const EmptyArray: string := "[]"

  /** To the column: `None` is a `null` list. */
  function ToColumn(lib: Library, list: Option<seq<string>>): (json: string)
    ensures list.None? || list.value == [] ==> json == EmptyArray
  {
    if list.None? || |list.value| == 0 then EmptyArray else lib.writeStringList(list.value)
  }

  /** From the column: `None` is a `null` text; `Failure` is the
      `JsonException` of unreadable JSON. */
  function FromColumn(lib: Library, json: Option<string>): (r: Result<seq<string>, ()>)
    ensures json.None? || json.value == "" || json.value == EmptyArray ==> r == Success([])
  {
    if json.None? || json.value == "" || json.value == EmptyArray then Success([])
    else match lib.readStringList(json.value)
      case Parsed(list) => Success(list)
      case ParsedNull => Success([])
      case Malformed => Failure(())
  }

  /** A stored list reads back as itself; a `null` list reads back empty. */
  lemma ColumnRoundTrip(lib: Library, list: Option<seq<string>>)
    requires JsonRoundTrips(lib)
    ensures FromColumn(lib, Some(ToColumn(lib, list))) == Success(list.GetOr([]))
  {
  }
}

=== FILE: seqs.dfy ===
/** LINQ's sequence operators over in-memory tables: first match, filter,
    count and a stable sort, with the facts the repository proofs rely on. */
module Seqs {
  import opened Wrappers

  /** `FirstOrDefault(p)` as an index: the first position whose element satisfies `p`. */
  function FirstIndex<T>(s: seq<T>, p: T -> bool): (r: Option<nat>)
    ensures r.Some? ==> r.value < |s| && p(s[r.value])
    ensures r.Some? ==> forall j :: 0 <= j < r.value ==> !p(s[j])
    ensures r.None? ==> forall j :: 0 <= j < |s| ==> !p(s[j])
    decreases |s|
  {
    if |s| == 0 then None
    else if p(s[0]) then Some(0)
    else match FirstIndex(s[1..], p)
      case None => None
      case Some(i) => Some(i + 1)
  }

  /** `Where(p)`: the elements satisfying `p`, in their original order. */
  function Filter<T>(s: seq<T>, p: T -> bool): (r: seq<T>)
    ensures |r| <= |s|
    ensures forall i :: 0 <= i < |r| ==> p(r[i])
    decreases |s|
  {
    if |s| == 0 then []
    else
      var rest := Filter(s[1..], p);
      if p(s[0]) then [s[0]] + rest else rest
  }

  /** The filtered sequence keeps exactly the elements satisfying `p`, each
      no more often than before. */
  lemma {:induction false} FilterMembers<T>(s: seq<T>, p: T -> bool)
    ensures var r := Filter(s, p);
      (forall i :: 0 <= i < |r| ==> r[i] in s)
      && (forall i :: 0 <= i < |s| && p(s[i]) ==> s[i] in r)
      && multiset(r) <= multiset(s)
    decreases |s|
  {
    if |s| > 0 {
      FilterMembers(s[1..], p);
      assert s == [s[0]] + s[1..];
    }
  }

  lemma {:induction false} FilterAppend<T>(s: seq<T>, x: T, p: T -> bool)
    ensures Filter(s + [x], p) == Filter(s, p) + (if p(x) then [x] else [])
    decreases |s|
  {
    if |s| > 0 {
      assert (s + [x])[1..] == s[1..] + [x];
      FilterAppend(s[1..], x, p);
    }
  }

  /** `Count(p)`. */
  function Count<T>(s: seq<T>, p: T -> bool): nat
  {
    |Filter(s, p)|
  }

  lemma {:induction false} CountConcat<T>(s: seq<T>, t: seq<T>, p: T -> bool)
    ensures Count(s + t, p) == Count(s, p) + Count(t, p)
    decreases |s|
  {
    if |s| > 0 {
      assert (s + t)[1..] == s[1..] + t;
      CountConcat(s[1..], t, p);
    } else {
      assert s + t == t;
    }
  }

  /** Removing one element lowers the count by one exactly when it satisfies `p`. */
  lemma CountRemoveAt<T>(s: seq<T>, k: nat, p: T -> bool)
    requires k < |s|
    ensures Count(s, p) == Count(RemoveAt(s, k), p) + (if p(s[k]) then 1 else 0)
  {
    assert s == s[..k] + ([s[k]] + s[k + 1..]);
    CountConcat(s[..k], [s[k]] + s[k + 1..], p);
    CountConcat([s[k]], s[k + 1..], p);
    CountConcat(s[..k], s[k + 1..], p);
  }

  /** Replacing one element changes the count by what the old and the new
      element contribute. */
  lemma CountUpdate<T>(s: seq<T>, k: nat, x: T, p: T -> bool)
    requires k < |s|
    ensures Count(s[k := x], p) + (if p(s[k]) then 1 else 0) == Count(s, p) + (if p(x) then 1 else 0)
  {
    assert s == s[..k] + ([s[k]] + s[k + 1..]);
    assert s[k := x] == s[..k] + ([x] + s[k + 1..]);
    CountConcat(s[..k], [s[k]] + s[k + 1..], p);
    CountConcat([s[k]], s[k + 1..], p);
    CountConcat(s[..k], [x] + s[k + 1..], p);
    CountConcat([x], s[k + 1..], p);
  }

  /** Counting does not depend on the order of the elements. */
  lemma {:induction false} CountPermutation<T>(a: seq<T>, b: seq<T>, p: T -> bool)
    requires multiset(a) == multiset(b)
    ensures Count(a, p) == Count(b, p)
    decreases |a|
  {
    if |a| > 0 {
      assert a[0] in multiset(b);
      var j :| 0 <= j < |b| && b[j] == a[0];
      assert a == [a[0]] + a[1..];
      assert multiset(a) == multiset{a[0]} + multiset(a[1..]);
      assert multiset(RemoveAt(b, j)) + multiset{b[j]} == multiset(b);
      assert multiset(a[1..]) == multiset(a) - multiset{a[0]};
      assert multiset(RemoveAt(b, j)) == multiset(b) - multiset{b[j]};
      CountPermutation(a[1..], RemoveAt(b, j), p);
      CountRemoveAt(b, j, p);
    } else {
      assert |b| == 0;
    }
  }

  /** Filtering twice keeps what satisfies both conditions. */
  lemma {:induction false} FilterFilter<T>(s: seq<T>, p: T -> bool, q: T -> bool, both: T -> bool)
    requires forall x :: both(x) == (p(x) && q(x))
    ensures Filter(Filter(s, p), q) == Filter(s, both)
    decreases |s|
  {
    if |s| > 0 {
      FilterFilter(s[1..], p, q, both);
      var rest := Filter(s[1..], p);
      if p(s[0]) {
        assert Filter(s, p) == [s[0]] + rest;
        assert ([s[0]] + rest)[1..] == rest;
      }
    }
  }

  /** Filtering with conditions that agree on every element gives the same rows. */
  lemma {:induction false} FilterAgrees<T>(s: seq<T>, p: T -> bool, q: T -> bool)
    requires forall i :: 0 <= i < |s| ==> p(s[i]) == q(s[i])
    ensures Filter(s, p) == Filter(s, q)
    decreases |s|
  {
    if |s| > 0 {
      assert forall i :: 0 <= i < |s| - 1 ==> s[1..][i] == s[i + 1];
      FilterAgrees(s[1..], p, q);
    }
  }

  /** Membership in a filtered sequence. */
  lemma InFilter<T>(s: seq<T>, p: T -> bool, x: T)
    ensures x in Filter(s, p) <==> x in s && p(x)
  {
    FilterMembers(s, p);
    var r := Filter(s, p);
    if x in r {
      var i :| 0 <= i < |r| && r[i] == x;
    }
    if x in s && p(x) {
      var i :| 0 <= i < |s| && s[i] == x;
    }
  }

  /** `Select(f)`. */
  function Select<T, U>(s: seq<T>, f: T -> U): (r: seq<U>)
    ensures |r| == |s|
    ensures forall i :: 0 <= i < |s| ==> r[i] == f(s[i])
  {
    seq(|s|, i requires 0 <= i < |s| => f(s[i]))
  }

  /** The elements satisfying `p` changed by `f`, all others kept (an update
      of every row a query selected). */
  function MapWhere<T>(s: seq<T>, p: T -> bool, f: T -> T): (r: seq<T>)
    ensures |r| == |s|
  {
    seq(|s|, i requires 0 <= i < |s| => if p(s[i]) then f(s[i]) else s[i])
  }

  /** `Count(p) == 0` is `!Any(p)`. */
  lemma CountZero<T>(s: seq<T>, p: T -> bool)
    ensures Count(s, p) == 0 <==> forall i :: 0 <= i < |s| ==> !p(s[i])
  {
    FilterMembers(s, p);
    var r := Filter(s, p);
    if |r| > 0 {
      assert r[0] in s;
    }
  }

  /** Two sequences whose elements agree position by position on the
      conditions have the same count. */
  lemma {:induction false} CountPointwise<T>(a: seq<T>, b: seq<T>, p: T -> bool, q: T -> bool)
    requires |a| == |b|
    requires forall i :: 0 <= i < |a| ==> p(a[i]) == q(b[i])
    ensures Count(a, p) == Count(b, q)
    decreases |a|
  {
    if |a| > 0 {
      assert forall i :: 0 <= i < |a| - 1 ==> a[1..][i] == a[i + 1] && b[1..][i] == b[i + 1];
      CountPointwise(a[1..], b[1..], p, q);
    }
  }

  /** After an update that makes every selected element unselected, no
      element is selected any more, and running the update again changes nothing. */
  lemma MapWhereSettles<T>(s: seq<T>, p: T -> bool, f: T -> T)
    requires forall x :: p(x) ==> !p(f(x))
    ensures Count(MapWhere(s, p, f), p) == 0
    ensures MapWhere(MapWhere(s, p, f), p, f) == MapWhere(s, p, f)
  {
    var r := MapWhere(s, p, f);
    assert forall i :: 0 <= i < |r| ==> !p(r[i]) by {
      forall i | 0 <= i < |r| ensures !p(r[i]) {
        assert r[i] == if p(s[i]) then f(s[i]) else s[i];
      }
    }
    CountZero(r, p);
  }

  /** LINQ `Skip(n)`: a non-positive count skips nothing. */
  function Skip<T>(s: seq<T>, n: int): (r: seq<T>)
    ensures |r| == if n <= 0 then |s| else if n >= |s| then 0 else |s| - n
  {
    if n <= 0 then s else if n >= |s| then [] else s[n..]
  }

  /** LINQ `Take(n)`: a non-positive count takes nothing. */
  function Take<T>(s: seq<T>, n: int): (r: seq<T>)
    ensures |r| == if n <= 0 then 0 else if n >= |s| then |s| else n
  {
    if n <= 0 then [] else if n >= |s| then s else s[..n]
  }

  /** A page cut by `Skip(off).Take(n)` holds elements of the sequence, in
      the sequence's order. */
  lemma SkipTakeWithin<T>(s: seq<T>, off: int, n: int, le: (T, T) -> bool)
    ensures forall i :: 0 <= i < |Take(Skip(s, off), n)| ==> Take(Skip(s, off), n)[i] in s
    ensures Sorted(s, le) ==> Sorted(Take(Skip(s, off), n), le)
  {
    var start := if off <= 0 then 0 else if off >= |s| then |s| else off;
    var r := Take(Skip(s, off), n);
    assert Skip(s, off) == s[start..];
    assert forall i :: 0 <= i < |r| ==> r[i] == s[start + i];
  }

  /** `Skip(off).Take(n)` is a slice. */
  lemma SkipTakeSlice<T>(s: seq<T>, off: int, n: int)
    requires 0 <= off && 0 <= n
    ensures var lo := if off <= |s| then off else |s|;
      var hi := if off + n <= |s| then off + n else |s|;
      Take(Skip(s, off), n) == s[lo..hi]
  {
  }

  /** Removing the element at position `k` (`Remove` on a tracked entity). */
  function RemoveAt<T>(s: seq<T>, k: nat): (r: seq<T>)
    requires k < |s|
    ensures |r| == |s| - 1
    ensures forall i :: 0 <= i < k ==> r[i] == s[i]
    ensures forall i :: k <= i < |r| ==> r[i] == s[i + 1]
    ensures multiset(r) + multiset{s[k]} == multiset(s)
  {
    assert s == s[..k] + [s[k]] + s[k + 1..];
    s[..k] + s[k + 1..]
  }

  ghost predicate TotalPreorder<T(!new)>(le: (T, T) -> bool)
  {
    (forall a, b :: le(a, b) || le(b, a))
    && (forall a, b, c :: le(a, b) && le(b, c) ==> le(a, c))
  }

  ghost predicate Sorted<T>(s: seq<T>, le: (T, T) -> bool)
  {
    forall i, j :: 0 <= i < j < |s| ==> le(s[i], s[j])
  }

  /** Appending an element that every element may precede keeps a sequence
      sorted. */
  lemma SortedAppend<T>(s: seq<T>, x: T, le: (T, T) -> bool)
    requires Sorted(s, le)
    requires forall i :: 0 <= i < |s| ==> le(s[i], x)
    ensures Sorted(s + [x], le)
  {
  }

  /** An element the last one may precede may follow the whole of a
      sorted sequence. */
  lemma SortedExtend<T(!new)>(s: seq<T>, x: T, le: (T, T) -> bool)
    requires TotalPreorder(le)
    requires Sorted(s, le)
    requires |s| == 0 || le(s[|s| - 1], x)
    ensures Sorted(s + [x], le)
  {
    forall i | 0 <= i < |s| ensures le(s[i], x) {
      if i < |s| - 1 {
        assert le(s[i], s[|s| - 1]);
      }
    }
    SortedAppend(s, x, le);
  }

  /** After inserting `x` below the last element `last`, everything may
      still precede `last`. */
  lemma InsertedBelowLast<T(!new)>(init: seq<T>, last: T, x: T, inserted: seq<T>, le: (T, T) -> bool)
    requires TotalPreorder(le)
    requires Sorted(init + [last], le)
    requires !le(last, x)
    requires multiset(inserted) == multiset(init) + multiset{x}
    ensures forall i :: 0 <= i < |inserted| ==> le(inserted[i], last)
  {
    var s := init + [last];
    forall i | 0 <= i < |inserted| ensures le(inserted[i], last) {
      var y := inserted[i];
      assert y in multiset(inserted);
      if y != x {
        assert y in multiset(init);
        var j :| 0 <= j < |init| && init[j] == y;
        assert s[j] == y && s[|init|] == last;
      }
    }
  }

  /** Inserts `x` after every element of `s` that may precede it, which keeps
      equal elements in their arrival order. */
  function InsertSorted<T(!new)>(s: seq<T>, x: T, le: (T, T) -> bool): (r: seq<T>)
    requires TotalPreorder(le)
    requires Sorted(s, le)
    ensures |r| == |s| + 1
    ensures Sorted(r, le)
    ensures multiset(r) == multiset(s) + multiset{x}
    decreases |s|
  {
    if |s| == 0 || le(s[|s| - 1], x) then
      SortedExtend(s, x, le);
      s + [x]
    else
      var init := s[..|s| - 1];
      var last := s[|s| - 1];
      assert s == init + [last];
      var inserted := InsertSorted(init, x, le);
      InsertedBelowLast(init, last, x, inserted, le);
      SortedAppend(inserted, last, le);
      inserted + [last]
  }

  /** `OrderBy(key)` as a stable insertion sort under the preorder `le`. */
  function SortBy<T(!new)>(s: seq<T>, le: (T, T) -> bool): (r: seq<T>)
    requires TotalPreorder(le)
    ensures |r| == |s|
    ensures Sorted(r, le)
    ensures multiset(r) == multiset(s)
    decreases |s|
  {
    if |s| == 0 then []
    else
      assert s == s[..|s| - 1] + [s[|s| - 1]];
      InsertSorted(SortBy(s[..|s| - 1], le), s[|s| - 1], le)
  }

  /** In a sorted sequence, every element of a prefix may precede every
      element that the prefix leaves out (counting copies). */
  lemma SortedPrefixPrecedes<T>(sorted: seq<T>, le: (T, T) -> bool, k: nat, x: T)
    requires Sorted(sorted, le)
    requires k <= |sorted|
    requires multiset(sorted[..k])[x] < multiset(sorted)[x]
    ensures forall y :: y in sorted[..k] ==> le(y, x)
  {
    var kept := sorted[..k];
    var dropped := sorted[k..];
    assert sorted == kept + dropped;
    assert multiset(sorted) == multiset(kept) + multiset(dropped);
    assert x in multiset(dropped);
    var j :| 0 <= j < |dropped| && dropped[j] == x;
    forall y | y in kept ensures le(y, x) {
      var i :| 0 <= i < |kept| && kept[i] == y;
      assert sorted[i] == y && sorted[k + j] == x;
    }
  }

  /** `OrderBy(...).Take(k)` keeps the best `k` elements: any element the
      prefix leaves out (or keeps fewer copies of) is preceded by all kept ones. */
  lemma SortedPrefixIsTop<T(!new)>(s: seq<T>, le: (T, T) -> bool, k: nat)
    requires TotalPreorder(le)
    requires k <= |s|
    ensures var kept := SortBy(s, le)[..k];
      forall x :: multiset(kept)[x] < multiset(s)[x] ==> forall y :: y in kept ==> le(y, x)
  {
    var sorted := SortBy(s, le);
    forall x | multiset(sorted[..k])[x] < multiset(s)[x]
      ensures forall y :: y in sorted[..k] ==> le(y, x)
    {
      SortedPrefixPrecedes(sorted, le, k, x);
    }
  }

  /** `OrderBy(...).Take(k)`: the first `k` elements in the order `le`. */
  function TakeSorted<T(!new)>(s: seq<T>, le: (T, T) -> bool, k: nat): (r: seq<T>)
    requires TotalPreorder(le)
    ensures |r| == if k <= |s| then k else |s|
    ensures Sorted(r, le)
    ensures multiset(r) <= multiset(s)
    ensures forall i :: 0 <= i < |r| ==> r[i] in s
    ensures forall x :: multiset(r)[x] < multiset(s)[x] ==> forall y :: y in r ==> le(y, x)
  {
    var sorted := SortBy(s, le);
    var n := if k <= |s| then k else |s|;
    var r := sorted[..n];
    SortedPrefixIsTop(s, le, n);
    PrefixWithin(sorted, n);
    assert Sorted(r, le) by {
      forall i, j | 0 <= i < j < |r| ensures le(r[i], r[j]) {
        assert r[i] == sorted[i] && r[j] == sorted[j];
      }
    }
    assert forall i :: 0 <= i < |r| ==> r[i] in s by {
      forall i | 0 <= i < |r| ensures r[i] in s {
        assert r[i] in multiset(r);
      }
    }
    r
  }

  lemma PrefixWithin<T>(s: seq<T>, n: nat)
    requires n <= |s|
    ensures multiset(s[..n]) <= multiset(s)
    ensures forall i :: 0 <= i < n ==> s[..n][i] in s
  {
    assert s == s[..n] + s[n..];
    assert multiset(s) == multiset(s[..n]) + multiset(s[n..]);
  }
}

=== FILE: shelterapi.dfy ===
/** `RefugioController`'s upload actions: replacing a pet's photo, which only
    the shelter that owns the pet may do, uploading a free-standing image,
    and replacing the shelter's profile photo. */
module RefugioApi {
  import opened Wrappers
  import opened Numerics
  import opened Text
  import opened Mime
  import opened Entities
  import opened Queries
  import opened Tokens
  import opened Uploads
  import Pets

  /** The caller's shelter is the shelter the pet belongs to, as the action
      looks both up: the first pet with the key, the first shelter of the
      account. */
  predicate OwnsPet(db: Db, idUsuario: Int32, idMascota: Int32)
  {
    MascotaIndex(db, idMascota).Some? && RefugioOfUsuario(db, idUsuario).Some?
    && db.mascotas[MascotaIndex(db, idMascota).value].idRefugio == db.refugios[RefugioOfUsuario(db, idUsuario).value].id
  }

  /** `PostFotoMascota`. `guid` is the text of `Guid.NewGuid()`. Every answer
      but `Ok` leaves the database as it was and, except the 500 of a failed
      `int.Parse`, is given before any storage call. */
  function PostFotoMascota(db: Db, archivo: Option<FormFile>, idMascota: Int32, claims: seq<Claim>, guid: string): (r: Reply)
    ensures r.status == BadRequest <==> !CheckUpload(archivo).Image?
    ensures r.status == ServerError <==> CheckUpload(archivo).Image? && CallerId(claims).None?
    ensures r.status == NotFound <==>
      CheckUpload(archivo).Image? && CallerId(claims).Some? && MascotaIndex(db, idMascota).None?
    ensures r.status == Forbidden <==>
      CheckUpload(archivo).Image? && CallerId(claims).Some? && MascotaIndex(db, idMascota).Some?
      && !OwnsPet(db, CallerId(claims).value, idMascota)
    ensures r.status == Ok <==>
      CheckUpload(archivo).Image? && CallerId(claims).Some? && OwnsPet(db, CallerId(claims).value, idMascota)
    ensures r.status != Ok ==> r == Early(r.status, db)
    ensures r.status == Ok ==>
      var k := MascotaIndex(db, idMascota).value;
      var name := BlobName(guid, CheckUpload(archivo).extension);
      r.nombreFoto == Some(name) && r.calls == [UpdateBlob(db.mascotas[k].foto, name)]
      && r.db == db.(mascotas := db.mascotas[k := db.mascotas[k].(foto := name)])
  {
    match CheckUpload(archivo)
    case NoFile => Early(BadRequest, db)
    case NotAnImage => Early(BadRequest, db)
    case Image(extension) =>
      match CallerId(claims)
      case None => Early(ServerError, db)
      case Some(idUsuario) =>
        match MascotaIndex(db, idMascota)
        case None => Early(NotFound, db)
        case Some(k) =>
          var mascota := db.mascotas[k];
          var refugio := RefugioOfUsuario(db, idUsuario);
          if refugio.None? || mascota.idRefugio != db.refugios[refugio.value].id then Early(Forbidden, db)
          else
            var newFotoName := BlobName(guid, extension);
            var calls := [UpdateBlob(mascota.foto, newFotoName)];
            var updated := Pets.ActualizarFotoMascota(db, idMascota, newFotoName);
            if !updated.value then Reply(ServerError, db, calls, None)
            else Reply(Ok, updated.db, calls, Some(newFotoName))
  }

  /** Changing a pet's photo moves no pet and no shelter: the same lookups
      find the same rows, so ownership is as it was. */
  lemma PhotoChangeKeepsLookups(db: Db, idMascota: Int32, idUsuario: Int32, name: string)
    requires MascotaIndex(db, idMascota).Some?
    ensures var k := MascotaIndex(db, idMascota).value;
      var changed := db.(mascotas := db.mascotas[k := db.mascotas[k].(foto := name)]);
      MascotaIndex(changed, idMascota) == Some(k)
      && changed.mascotas[k].foto == name
      && (OwnsPet(changed, idUsuario, idMascota) <==> OwnsPet(db, idUsuario, idMascota))
  {
    var k := MascotaIndex(db, idMascota).value;
    var changed := db.(mascotas := db.mascotas[k := db.mascotas[k].(foto := name)]);
    assert forall j :: 0 <= j < |db.mascotas| ==> changed.mascotas[j].id == db.mascotas[j].id;
  }

  /** After a successful replacement the pet refers to the returned name, a
      name that keeps the uploaded file's image extension and is served as
      an image. */
  lemma ReplacedPhotoIsAnImage(db: Db, archivo: Option<FormFile>, idMascota: Int32, claims: seq<Claim>, guid: string, length: int)
    requires PostFotoMascota(db, archivo, idMascota, claims, guid).status == Ok
    requires length != 0
    ensures var r := PostFotoMascota(db, archivo, idMascota, claims, guid);
      var name := r.nombreFoto.value;
      MascotaIndex(r.db, idMascota) == MascotaIndex(db, idMascota)
      && r.db.mascotas[MascotaIndex(db, idMascota).value].foto == name
      && CheckUpload(Some(FormFile(name, length))) == CheckUpload(archivo)
      && GetContentType(name) in {"image/jpeg", "image/png"}
  {
    PhotoChangeKeepsLookups(db, idMascota, CallerId(claims).value, BlobName(guid, CheckUpload(archivo).extension));
    BlobNameKeepsExtension(guid, archivo, length);
  }

  /** A second replacement by the same shelter removes the blob the first
      one stored: the name the first call returned is the old name the
      second hands to `UpdateBlobAsync`. */
  lemma SecondPostReplacesFirst(db: Db, archivo: Option<FormFile>, idMascota: Int32, claims: seq<Claim>,
                                guid: string, archivo2: Option<FormFile>, guid2: string)
    requires PostFotoMascota(db, archivo, idMascota, claims, guid).status == Ok
    requires CheckUpload(archivo2).Image?
    ensures var first := PostFotoMascota(db, archivo, idMascota, claims, guid);
      var second := PostFotoMascota(first.db, archivo2, idMascota, claims, guid2);
      second.status == Ok
      && second.calls == [UpdateBlob(first.nombreFoto.value, second.nombreFoto.value)]
  {
    PhotoChangeKeepsLookups(db, idMascota, CallerId(claims).value, BlobName(guid, CheckUpload(archivo).extension));
  }

  /** `SubirImagen`: stores the image under a fresh name and returns that
      name; the database is not touched. */
  function SubirImagen(db: Db, archivo: Option<FormFile>, guid: string): (r: Reply)
    ensures r.status == BadRequest <==> !CheckUpload(archivo).Image?
    ensures r.status == BadRequest || r.status == Ok
    ensures r.db == db
    ensures r.status == BadRequest ==> r.calls == [] && r.nombreFoto.None?
    ensures r.status == Ok ==> r.nombreFoto == Some(BlobName(guid, CheckUpload(archivo).extension))
  {
    match CheckUpload(archivo)
    case NoFile => Early(BadRequest, db)
    case NotAnImage => Early(BadRequest, db)
    case Image(extension) =>
      var blobName := BlobName(guid, extension);
      Reply(Ok, db, [UploadBlob(blobName)], Some(blobName))
  }

  /** The name `SubirImagen` returns is the one name it stored an object
      under, and that object is an image. */
  lemma SubirImagenNamesUpload(db: Db, archivo: Option<FormFile>, guid: string, length: int)
    requires SubirImagen(db, archivo, guid).status == Ok
    requires length != 0
    ensures var r := SubirImagen(db, archivo, guid);
      r.nombreFoto.Some? && StoredNames(r.calls) == {r.nombreFoto.value}
      && CheckUpload(Some(FormFile(r.nombreFoto.value, length))) == CheckUpload(archivo)
  {
    var r := SubirImagen(db, archivo, guid);
    assert StoredName(r.calls[0]) == r.nombreFoto.value;
    BlobNameKeepsExtension(guid, archivo, length);
  }

  /** `PostFotoPerfil`. `fotoPerfil` is `refugio.Usuario.PerfilUsuario.FotoPerfil`,
      `None` when the navigation is `null`. The new name is written through
      a stored-procedure view that this model does not hold, so the database
      is returned unchanged. */
  function PostFotoPerfil(db: Db, archivo: Option<FormFile>, claims: seq<Claim>, guid: string, fotoPerfil: Option<string>): (r: Reply)
    ensures r.db == db
    ensures r.status == BadRequest <==> !CheckUpload(archivo).Image?
    ensures r.status == NotFound <==>
      CheckUpload(archivo).Image? && CallerId(claims).Some? && RefugioOfUsuario(db, CallerId(claims).value).None?
    ensures r.status == Ok <==>
      CheckUpload(archivo).Image? && CallerId(claims).Some? && RefugioOfUsuario(db, CallerId(claims).value).Some?
      && fotoPerfil.Some?
    ensures r.status == ServerError <==>
      CheckUpload(archivo).Image?
      && (CallerId(claims).None? || (RefugioOfUsuario(db, CallerId(claims).value).Some? && fotoPerfil.None?))
    ensures r.status != Ok ==> r.calls == [] && r.nombreFoto.None?
    ensures r.status == Ok ==>
      r.nombreFoto == Some(BlobName(guid, CheckUpload(archivo).extension))
      && r.calls == [UpdateBlob(fotoPerfil.value, r.nombreFoto.value)]
  {
    match CheckUpload(archivo)
    case NoFile => Early(BadRequest, db)
    case NotAnImage => Early(BadRequest, db)
    case Image(extension) =>
      match CallerId(claims)
      case None => Early(ServerError, db)
      case Some(idUsuario) =>
        if RefugioOfUsuario(db, idUsuario).None? then Early(NotFound, db)
        else if fotoPerfil.None? then Early(ServerError, db)
        else
          var newFotoName := BlobName(guid, extension);
          Reply(Ok, db, [UpdateBlob(fotoPerfil.value, newFotoName)], Some(newFotoName))
  }
}

=== FILE: storage.dfy ===
/** `ServiceStorageS3`: the upload request and the public URL of an object. */
module Storage {
  import opened Wrappers
  import opened Mime

  datatype PutObjectRequest = PutObjectRequest(key: string, bucketName: string, contentType: string)

  const HttpOk: int := 200

  /** `UploadFileAsync`: the request it sends for `fileName`, and whether it
      reports success given the HTTP status S3 answers with. */
  function UploadFileAsync(bucketName: string, fileName: string, statusCode: int): (r: (PutObjectRequest, bool))
    ensures r.0.key == fileName && r.0.bucketName == bucketName
    ensures r.0.contentType == GetContentType(fileName)
    ensures r.1 <==> statusCode == HttpOk
  {
    (PutObjectRequest(fileName, bucketName, GetContentType(fileName)), statusCode == HttpOk)
  }

  function UrlPrefix(bucketName: string): string
  {
    "https://" + bucketName + ".s3.amazonaws.com/"
  }

  /** `GetFileUrl`; `None` is a `null` file name. */
  function GetFileUrl(bucketName: string, fileName: Option<string>): (url: string)
    ensures fileName.None? || fileName.value == "" <==> url == ""
  {
    if fileName.None? || fileName.value == "" then "" else UrlPrefix(bucketName) + fileName.value
  }

  /** The object key a URL of this bucket names. */
  function KeyOfUrl(bucketName: string, url: string): Option<string>
  {
    var prefix := UrlPrefix(bucketName);
    if |prefix| < |url| && url[..|prefix|] == prefix then Some(url[|prefix|..]) else None
  }

  /** The URL of an uploaded object names the key it was uploaded under. */
  lemma UrlNamesUploadedKey(bucketName: string, fileName: string, statusCode: int)
    requires fileName != ""
    ensures KeyOfUrl(bucketName, GetFileUrl(bucketName, Some(fileName))) == Some(UploadFileAsync(bucketName, fileName, statusCode).0.key)
  {
    var prefix := UrlPrefix(bucketName);
    assert (prefix + fileName)[..|prefix|] == prefix;
    assert (prefix + fileName)[|prefix|..] == fileName;
  }
}

=== FILE: stories.dfy ===
/** Success stories and the reactions to them in `RepositoryZuvoPet`: the
    public list of approved stories, an adopter's adopted pets still
    without a story, publishing a story, and the per-user reaction
    (`LikeHistoria`) with its counters. */
module Stories {
  import opened Wrappers
  import opened Numerics
  import opened Calendar
  import opened Seqs
  import opened Entities
  import opened Ids
  import opened Queries
  import Adoptions

  /** Stories are published, and requests approved, with this state. */
  const Aprobada: string := Adoptions.Aprobada

  predicate Published(h: HistoriaExito)
  {
    h.estado == Aprobada
  }

  /** `OrderByDescending(FechaPublicacion)`. */
  predicate NewerStory(a: HistoriaExito, b: HistoriaExito)
  {
    Le(b.fechaPublicacion, a.fechaPublicacion)
  }

  lemma NewerStoryIsPreorder()
    ensures TotalPreorder(NewerStory)
  {
    LeIsTotalOrder();
  }

  /** `ObtenerHistoriasExitoAsync`: exactly the approved stories, newest first. */
  function ObtenerHistoriasExito(db: Db): (r: seq<HistoriaExito>)
    ensures Sorted(r, NewerStory)
    ensures multiset(r) == multiset(Filter(db.historias, Published))
    ensures forall h :: h in r <==> h in db.historias && Published(h)
  {
    NewerStoryIsPreorder();
    var published := Filter(db.historias, Published);
    var r := SortBy(published, NewerStory);
    forall h ensures h in r <==> h in published {
      assert h in r <==> h in multiset(r);
    }
    forall h ensures h in published <==> h in db.historias && Published(h) {
      InFilter(db.historias, Published, h);
    }
    r
  }

  /** An approved request of adopter `idAdoptante` for the pet. */
  predicate AdoptedBy(db: Db, idAdoptante: Int32, idMascota: Int32)
  {
    exists s :: s in db.solicitudes && s.idAdoptante == idAdoptante && s.estado == Aprobada && s.idMascota == idMascota
  }

  /** A story of adopter `idAdoptante` about the pet, in any state. */
  predicate HasStoryBy(db: Db, idAdoptante: Int32, idMascota: Int32)
  {
    exists h :: h in db.historias && h.idAdoptante == idAdoptante && h.idMascota == idMascota
  }

  predicate IsApprovedOf(s: SolicitudAdopcion, idAdoptante: Int32)
  {
    s.idAdoptante == idAdoptante && s.estado == Aprobada
  }

  /** The query plan of `GetMascotasAdoptadasSinHistoria` once the adopter
      is known: the pets of the approved requests whose pet has no story by
      the adopter, in table order. */
  function PetsWithoutStory(db: Db, idAdoptante: Int32): (r: seq<Mascota>)
    ensures |r| <= |db.mascotas|
  {
    var aprobadas := Filter(db.solicitudes, (s: SolicitudAdopcion) => IsApprovedOf(s, idAdoptante));
    var conHistoria := Select(Filter(db.historias, (h: HistoriaExito) => h.idAdoptante == idAdoptante),
                              (h: HistoriaExito) => h.idMascota);
    var sinHistoria := Filter(Select(aprobadas, (s: SolicitudAdopcion) => s.idMascota), (id: Int32) => id !in conHistoria);
    Filter(db.mascotas, (m: Mascota) => m.id in sinHistoria)
  }

  /** `GetMascotasAdoptadasSinHistoria`. */
  function GetMascotasAdoptadasSinHistoria(db: Db, idUsuario: Int32): (r: Result<seq<Mascota>, Fault>)
    ensures r.Failure? <==> AdoptanteOfUsuario(db, idUsuario).None?
    ensures r.Failure? ==> r.error == NullReference
    ensures r.Success? ==> |r.value| <= |db.mascotas|
  {
    match AdopterKey(db, idUsuario)
    case Failure(e) => Failure(e)
    case Success(idAdoptante) => Success(PetsWithoutStory(db, idAdoptante))
  }

  /** The pets listed are exactly the pets of the table that the adopter
      adopted and has not yet written a story about. */
  lemma PetsWithoutStoryAre(db: Db, idAdoptante: Int32)
    ensures forall m :: m in PetsWithoutStory(db, idAdoptante) <==>
      m in db.mascotas && AdoptedBy(db, idAdoptante, m.id) && !HasStoryBy(db, idAdoptante, m.id)
  {
    var isApproved := (s: SolicitudAdopcion) => IsApprovedOf(s, idAdoptante);
    var isMine := (h: HistoriaExito) => h.idAdoptante == idAdoptante;
    var aprobadas := Filter(db.solicitudes, isApproved);
    var mine := Filter(db.historias, isMine);
    var conHistoria := Select(mine, (h: HistoriaExito) => h.idMascota);
    var adoptadas := Select(aprobadas, (s: SolicitudAdopcion) => s.idMascota);
    var sinHistoria := Filter(adoptadas, (id: Int32) => id !in conHistoria);
    forall id: Int32 ensures id in conHistoria <==> HasStoryBy(db, idAdoptante, id) {
      if id in conHistoria {
        var i :| 0 <= i < |conHistoria| && conHistoria[i] == id;
        InFilter(db.historias, isMine, mine[i]);
      }
      if HasStoryBy(db, idAdoptante, id) {
        var h :| h in db.historias && h.idAdoptante == idAdoptante && h.idMascota == id;
        InFilter(db.historias, isMine, h);
        var i :| 0 <= i < |mine| && mine[i] == h;
        assert conHistoria[i] == id;
      }
    }
    forall id: Int32 ensures id in adoptadas <==> AdoptedBy(db, idAdoptante, id) {
      if id in adoptadas {
        var i :| 0 <= i < |adoptadas| && adoptadas[i] == id;
        InFilter(db.solicitudes, isApproved, aprobadas[i]);
      }
      if AdoptedBy(db, idAdoptante, id) {
        var s :| s in db.solicitudes && s.idAdoptante == idAdoptante && s.estado == Aprobada && s.idMascota == id;
        InFilter(db.solicitudes, isApproved, s);
        var i :| 0 <= i < |aprobadas| && aprobadas[i] == s;
        assert adoptadas[i] == id;
      }
    }
    forall m: Mascota ensures m in PetsWithoutStory(db, idAdoptante) <==>
      m in db.mascotas && AdoptedBy(db, idAdoptante, m.id) && !HasStoryBy(db, idAdoptante, m.id)
    {
      InFilter(adoptadas, (id: Int32) => id !in conHistoria, m.id);
      InFilter(db.mascotas, (p: Mascota) => p.id in sinHistoria, m);
    }
  }

  /** The story `CrearHistoriaExito` stores: the caller's title, text, photo
      and pet, published at once under the adopter of the calling account. */
  function NewStory(id: Int32, idAdoptante: Int32, h: HistoriaExito, now: DateTime): HistoriaExito
  {
    HistoriaExito(id, h.idMascota, idAdoptante, h.titulo, h.descripcion, h.foto, now, Aprobada)
  }

  /** `CrearHistoriaExito`. The key is allocated before the adopter's key is
      read, so an empty table fails before a missing adopter. */
  function CrearHistoriaExito(db: Db, h: HistoriaExito, idUsuario: Int32, now: DateTime): (r: Outcome<bool>)
    ensures |db.historias| == 0 <==> r == Failed(EmptyTable)
    ensures |db.historias| > 0 ==> (r == Failed(NullReference) <==> AdoptanteOfUsuario(db, idUsuario).None?)
    ensures r.Done? <==> |db.historias| > 0 && AdoptanteOfUsuario(db, idUsuario).Some?
    ensures r.Done? ==>
      r.value
      && r.db == db.(historias := r.db.historias)
      && |r.db.historias| == |db.historias| + 1
      && r.db.historias[..|db.historias|] == db.historias
      && var added := r.db.historias[|db.historias|];
         added.id == NextKey(db.historias, (s: HistoriaExito) => s.id).value
         && added.idAdoptante == AdopterKey(db, idUsuario).value
         && added.idMascota == h.idMascota && added.titulo == h.titulo
         && added.descripcion == h.descripcion && added.foto == h.foto
         && added.fechaPublicacion == now && added.estado == Aprobada
  {
    match NextKey(db.historias, (s: HistoriaExito) => s.id)
    case None => Failed(EmptyTable)
    case Some(id) =>
      match AdopterKey(db, idUsuario)
      case Failure(e) => Failed(e)
      case Success(idAdoptante) =>
        var after := db.historias + [NewStory(id, idAdoptante, h, now)];
        assert after[..|db.historias|] == db.historias;
        Done(db.(historias := after), true)
  }

  /** A story just written is on the public list. */
  lemma CreatedStoryIsPublished(db: Db, h: HistoriaExito, idUsuario: Int32, now: DateTime)
    requires CrearHistoriaExito(db, h, idUsuario, now).Done?
    ensures var after := CrearHistoriaExito(db, h, idUsuario, now).db;
      after.historias[|db.historias|] in ObtenerHistoriasExito(after)
  {
  }

  /** Writing a story about a pet takes the pet off the adopter's list of
      adopted pets without a story, and puts no pet on it. */
  lemma CreatedStoryClosesPending(db: Db, h: HistoriaExito, idUsuario: Int32, now: DateTime)
    requires CrearHistoriaExito(db, h, idUsuario, now).Done?
    ensures var after := CrearHistoriaExito(db, h, idUsuario, now).db;
      GetMascotasAdoptadasSinHistoria(after, idUsuario).Success?
      && (forall m :: m in GetMascotasAdoptadasSinHistoria(after, idUsuario).value ==> m.id != h.idMascota)
      && (forall m :: m in GetMascotasAdoptadasSinHistoria(after, idUsuario).value ==>
            m in GetMascotasAdoptadasSinHistoria(db, idUsuario).value)
  {
    var after := CrearHistoriaExito(db, h, idUsuario, now).db;
    var idAdoptante := AdopterKey(db, idUsuario).value;
    assert after.adoptantes == db.adoptantes;
    assert AdopterKey(after, idUsuario) == Success(idAdoptante);
    var added := after.historias[|db.historias|];
    assert after.historias == db.historias + [added];
    assert HasStoryBy(after, idAdoptante, h.idMascota) by {
      assert added in after.historias;
    }
    PetsWithoutStoryAre(db, idAdoptante);
    PetsWithoutStoryAre(after, idAdoptante);
    forall m | m in PetsWithoutStory(after, idAdoptante) ensures m in PetsWithoutStory(db, idAdoptante) {
      assert AdoptedBy(db, idAdoptante, m.id);
    }
  }

  // ----- Reactions -----

  /** The reactions to one story. */
  function OnStory(idHistoria: Int32): LikeHistoria -> bool
  {
    (l: LikeHistoria) => l.idHistoria == idHistoria
  }

  /** The reactions of one kind to one story. */
  function ReactionsOf(idHistoria: Int32, tipoReaccion: string): LikeHistoria -> bool
  {
    (l: LikeHistoria) => l.idHistoria == idHistoria && l.tipoReaccion == tipoReaccion
  }

  /** `OrderByDescending(Fecha)`. */
  predicate NewerLike(a: LikeHistoria, b: LikeHistoria)
  {
    Le(b.fecha, a.fecha)
  }

  lemma NewerLikeIsPreorder()
    ensures TotalPreorder(NewerLike)
  {
    LeIsTotalOrder();
  }

  /** `ObtenerLikeHistoriaAsync`: the story's reactions, newest first, each
      as often as it is stored. */
  function ObtenerLikeHistoria(db: Db, idHistoria: Int32): (r: seq<LikeHistoria>)
    ensures Sorted(r, NewerLike)
    ensures forall l :: l in r <==> l in db.likes && l.idHistoria == idHistoria
    ensures multiset(r) == multiset(Filter(db.likes, OnStory(idHistoria)))
  {
    NewerLikeIsPreorder();
    var mine := Filter(db.likes, OnStory(idHistoria));
    var r := SortBy(mine, NewerLike);
    forall l ensures l in r <==> l in mine {
      assert l in r <==> l in multiset(r);
    }
    forall l ensures l in mine <==> l in db.likes && l.idHistoria == idHistoria {
      InFilter(db.likes, OnStory(idHistoria), l);
    }
    r
  }

  /** The first reaction of the user to the story. */
  function LikeIndex(db: Db, idHistoria: Int32, idUsuario: Int32): (r: Option<nat>)
    ensures r.Some? ==> r.value < |db.likes| && db.likes[r.value].idHistoria == idHistoria
                        && db.likes[r.value].idUsuario == idUsuario
    ensures r.None? <==> forall j :: 0 <= j < |db.likes| ==>
                           !(db.likes[j].idHistoria == idHistoria && db.likes[j].idUsuario == idUsuario)
  {
    FirstIndex(db.likes, (l: LikeHistoria) => l.idHistoria == idHistoria && l.idUsuario == idUsuario)
  }

  /** `ObtenerLikeUsuarioHistoriaAsync`: the user's reaction to the story,
      `None` when there is none. */
  function ObtenerLikeUsuarioHistoria(db: Db, idHistoria: Int32, idUsuario: Int32): (r: Option<LikeHistoria>)
    ensures r.Some? ==> r.value in db.likes && r.value.idHistoria == idHistoria && r.value.idUsuario == idUsuario
    ensures r.None? <==> !exists l :: l in db.likes && l.idHistoria == idHistoria && l.idUsuario == idUsuario
  {
    match LikeIndex(db, idHistoria, idUsuario)
    case None => None
    case Some(k) => Some(db.likes[k])
  }

  /** `CrearLikeHistoriaAsync`. An unknown user answers `false`; so does an
      empty table, whose `MaxAsync` exception the method catches. Either way
      nothing is stored. */
  function CrearLikeHistoria(db: Db, idHistoria: Int32, idUsuario: Int32, tipoReaccion: string, now: DateTime): (r: Outcome<bool>)
    ensures r.Done?
    ensures r.value <==> UsuarioIndex(db, idUsuario).Some? && |db.likes| > 0
    ensures !r.value ==> r.db == db
    ensures r.value ==>
      r.db == db.(likes := db.likes + [LikeHistoria(NextKey(db.likes, (l: LikeHistoria) => l.id).value,
                                                    idHistoria, idUsuario, tipoReaccion, now)])
  {
    match UsuarioIndex(db, idUsuario)
    case None => Done(db, false)
    case Some(u) =>
      match NextKey(db.likes, (l: LikeHistoria) => l.id)
      case None => Done(db, false)
      case Some(id) =>
        Done(db.(likes := db.likes + [LikeHistoria(id, idHistoria, db.usuarios[u].id, tipoReaccion, now)]), true)
  }

  /** `ActualizarLikeHistoriaAsync`: the user's first reaction to the story
      takes the new kind and the current time; `false` when there is none. */
  function ActualizarLikeHistoria(db: Db, idHistoria: Int32, idUsuario: Int32, tipoReaccion: string, now: DateTime): (r: Outcome<bool>)
    ensures r.Done?
    ensures r.value <==> ObtenerLikeUsuarioHistoria(db, idHistoria, idUsuario).Some?
    ensures !r.value ==> r.db == db
    ensures r.value ==>
      var k := LikeIndex(db, idHistoria, idUsuario).value;
      r.db == db.(likes := r.db.likes)
      && |r.db.likes| == |db.likes|
      && (forall j :: 0 <= j < |db.likes| && j != k ==> r.db.likes[j] == db.likes[j])
      && r.db.likes[k] == db.likes[k].(tipoReaccion := tipoReaccion, fecha := now)
  {
    match LikeIndex(db, idHistoria, idUsuario)
    case None => Done(db, false)
    case Some(k) => Done(db.(likes := db.likes[k := db.likes[k].(tipoReaccion := tipoReaccion, fecha := now)]), true)
  }

  /** After an update, reading the user's reaction back gives the same row
      with the new kind and date. */
  lemma ActualizarThenObtenerLike(db: Db, idHistoria: Int32, idUsuario: Int32, tipoReaccion: string, now: DateTime)
    requires ActualizarLikeHistoria(db, idHistoria, idUsuario, tipoReaccion, now).value
    ensures var after := ActualizarLikeHistoria(db, idHistoria, idUsuario, tipoReaccion, now).db;
      var before := ObtenerLikeUsuarioHistoria(db, idHistoria, idUsuario);
      before.Some?
      && ObtenerLikeUsuarioHistoria(after, idHistoria, idUsuario) == Some(before.value.(tipoReaccion := tipoReaccion, fecha := now))
  {
    var after := ActualizarLikeHistoria(db, idHistoria, idUsuario, tipoReaccion, now).db;
    var k := LikeIndex(db, idHistoria, idUsuario).value;
    assert forall j :: 0 <= j < k ==> after.likes[j] == db.likes[j];
    assert LikeIndex(after, idHistoria, idUsuario) == Some(k);
  }

  /** `EliminarLikeHistoriaAsync`: removes the user's first reaction to the
      story; `false` when there is none. */
  function EliminarLikeHistoria(db: Db, idHistoria: Int32, idUsuario: Int32): (r: Outcome<bool>)
    ensures r.Done?
    ensures r.value <==> ObtenerLikeUsuarioHistoria(db, idHistoria, idUsuario).Some?
    ensures !r.value ==> r.db == db
    ensures r.value ==>
      r.db == db.(likes := RemoveAt(db.likes, LikeIndex(db, idHistoria, idUsuario).value))
  {
    match LikeIndex(db, idHistoria, idUsuario)
    case None => Done(db, false)
    case Some(k) => Done(db.(likes := RemoveAt(db.likes, k)), true)
  }

  /** The counters' keys, each with the reaction kind it counts. */
  const Reactions: seq<(string, string)> := [
    ("meGusta", "MeGusta"),
    ("meEncanta", "MeEncanta"),
    ("inspirador", "Inspirador"),
    ("solidario", "Solidario"),
    ("asombroso", "Asombroso")]

  /** The reactions of one kind. */
  function HasKind(tipoReaccion: string): LikeHistoria -> bool
  {
    (l: LikeHistoria) => l.tipoReaccion == tipoReaccion
  }

  /** The counters over a list of reactions. */
  function Counters(likes: seq<LikeHistoria>): (r: map<string, int>)
    ensures r.Keys == set i | 0 <= i < |Reactions| :: Reactions[i].0
  {
    assert Reactions[0].0 == "meGusta" && Reactions[1].0 == "meEncanta" && Reactions[2].0 == "inspirador"
           && Reactions[3].0 == "solidario" && Reactions[4].0 == "asombroso";
    map["meGusta" := Count(likes, HasKind("MeGusta")),
        "meEncanta" := Count(likes, HasKind("MeEncanta")),
        "inspirador" := Count(likes, HasKind("Inspirador")),
        "solidario" := Count(likes, HasKind("Solidario")),
        "asombroso" := Count(likes, HasKind("Asombroso"))]
  }

  lemma CountersAt(likes: seq<LikeHistoria>, i: nat)
    requires i < |Reactions|
    ensures Reactions[i].0 in Counters(likes)
    ensures Counters(likes)[Reactions[i].0] == Count(likes, HasKind(Reactions[i].1))
  {
  }

  /** `ObtenerContadoresReaccionesAsync`. */
  function ObtenerContadoresReacciones(db: Db, idHistoria: Int32): (r: map<string, int>)
    ensures r.Keys == set i | 0 <= i < |Reactions| :: Reactions[i].0
  {
    Counters(ObtenerLikeHistoria(db, idHistoria))
  }

  /** Each counter is the number of stored reactions of its kind to the
      story, whatever order the list was fetched in. */
  lemma ContadoresCountTable(db: Db, idHistoria: Int32, i: nat)
    requires i < |Reactions|
    ensures Reactions[i].0 in ObtenerContadoresReacciones(db, idHistoria)
    ensures ObtenerContadoresReacciones(db, idHistoria)[Reactions[i].0]
            == Count(db.likes, ReactionsOf(idHistoria, Reactions[i].1))
  {
    var tipo := Reactions[i].1;
    var listed := ObtenerLikeHistoria(db, idHistoria);
    var mine := Filter(db.likes, OnStory(idHistoria));
    CountersAt(listed, i);
    CountPermutation(listed, mine, HasKind(tipo));
    FilterFilter(db.likes, OnStory(idHistoria), HasKind(tipo), ReactionsOf(idHistoria, tipo));
  }

  /** Counting over one more row. */
  lemma CountAppendOne<T>(s: seq<T>, x: T, p: T -> bool)
    ensures Count(s + [x], p) == Count(s, p) + (if p(x) then 1 else 0)
  {
    FilterAppend(s, x, p);
  }

  /** A new reaction raises the counter of its kind by one and leaves the
      other counters, and the counters of other stories, as they were. */
  lemma CrearLikeRaisesItsCounter(db: Db, idHistoria: Int32, idUsuario: Int32, tipoReaccion: string, now: DateTime,
                                  story: Int32, i: nat)
    requires CrearLikeHistoria(db, idHistoria, idUsuario, tipoReaccion, now).value
    requires i < |Reactions|
    ensures var after := CrearLikeHistoria(db, idHistoria, idUsuario, tipoReaccion, now).db;
      ObtenerContadoresReacciones(after, story)[Reactions[i].0]
      == ObtenerContadoresReacciones(db, story)[Reactions[i].0]
         + (if story == idHistoria && Reactions[i].1 == tipoReaccion then 1 else 0)
  {
    var after := CrearLikeHistoria(db, idHistoria, idUsuario, tipoReaccion, now).db;
    var added := after.likes[|db.likes|];
    assert after.likes == db.likes + [added];
    ContadoresCountTable(db, story, i);
    ContadoresCountTable(after, story, i);
    CountAppendOne(db.likes, added, ReactionsOf(story, Reactions[i].1));
  }

  /** Removing a reaction lowers the counter of its kind by one and leaves
      the others as they were. */
  lemma EliminarLikeLowersItsCounter(db: Db, idHistoria: Int32, idUsuario: Int32, i: nat)
    requires EliminarLikeHistoria(db, idHistoria, idUsuario).value
    requires i < |Reactions|
    ensures var removed := ObtenerLikeUsuarioHistoria(db, idHistoria, idUsuario).value;
      var after := EliminarLikeHistoria(db, idHistoria, idUsuario).db;
      ObtenerContadoresReacciones(after, idHistoria)[Reactions[i].0] + (if removed.tipoReaccion == Reactions[i].1 then 1 else 0)
      == ObtenerContadoresReacciones(db, idHistoria)[Reactions[i].0]
  {
    var k := LikeIndex(db, idHistoria, idUsuario).value;
    ContadoresCountTable(db, idHistoria, i);
    ContadoresCountTable(EliminarLikeHistoria(db, idHistoria, idUsuario).db, idHistoria, i);
    CountRemoveAt(db.likes, k, ReactionsOf(idHistoria, Reactions[i].1));
  }
}

=== FILE: text.dfy ===
/** Characters, ASCII case mapping and file-name extensions, as far as the
    modelled code uses the .NET base library for them. */
module Text {

  predicate IsAsciiLower(c: char) { 'a' <= c <= 'z' }
  predicate IsAsciiUpper(c: char) { 'A' <= c <= 'Z' }
  predicate IsAsciiDigit(c: char) { '0' <= c <= '9' }

  /** `char.ToLowerInvariant`, on ASCII letters. */
  function LowerChar(c: char): (r: char)
    ensures !IsAsciiUpper(r)
    ensures !IsAsciiUpper(c) ==> r == c
  {
    if IsAsciiUpper(c) then (c as int + 32) as char else c
  }

  /** `char.ToUpper`, on ASCII letters. */
  function UpperChar(c: char): (r: char)
    ensures !IsAsciiLower(r)
    ensures !IsAsciiLower(c) ==> r == c
  {
    if IsAsciiLower(c) then (c as int - 32) as char else c
  }

  /** `string.ToLowerInvariant()` (and `ToLower()`), on ASCII letters. */
  function ToLower(s: string): (r: string)
    ensures |r| == |s|
    ensures forall i :: 0 <= i < |s| ==> r[i] == LowerChar(s[i])
  {
    seq(|s|, i requires 0 <= i < |s| => LowerChar(s[i]))
  }

  /** Lower-casing twice is lower-casing once. */
  lemma ToLowerIdempotent(s: string)
    ensures ToLower(ToLower(s)) == ToLower(s)
  {
  }

  /** The `\d` class of .NET regular expressions, `\p{Nd}`, as it applies
      to one UTF-16 code unit: the decimal digits of the Basic Multilingual
      Plane, which come in blocks of ten (Unicode 15). A digit outside that
      plane is two surrogate code units, neither of them a digit. */
  predicate IsDecimalDigit(c: char)
  {
    var u := c as int;
    ('0' <= c <= '9')
    || (0x0660 <= u <= 0x0669) || (0x06F0 <= u <= 0x06F9) || (0x07C0 <= u <= 0x07C9)
    || (0x0966 <= u <= 0x096F) || (0x09E6 <= u <= 0x09EF) || (0x0A66 <= u <= 0x0A6F)
    || (0x0AE6 <= u <= 0x0AEF) || (0x0B66 <= u <= 0x0B6F) || (0x0BE6 <= u <= 0x0BEF)
    || (0x0C66 <= u <= 0x0C6F) || (0x0CE6 <= u <= 0x0CEF) || (0x0D66 <= u <= 0x0D6F)
    || (0x0DE6 <= u <= 0x0DEF) || (0x0E50 <= u <= 0x0E59) || (0x0ED0 <= u <= 0x0ED9)
    || (0x0F20 <= u <= 0x0F29) || (0x1040 <= u <= 0x1049) || (0x1090 <= u <= 0x1099)
    || (0x17E0 <= u <= 0x17E9) || (0x1810 <= u <= 0x1819) || (0x1946 <= u <= 0x194F)
    || (0x19D0 <= u <= 0x19D9) || (0x1A80 <= u <= 0x1A89) || (0x1A90 <= u <= 0x1A99)
    || (0x1B50 <= u <= 0x1B59) || (0x1BB0 <= u <= 0x1BB9) || (0x1C40 <= u <= 0x1C49)
    || (0x1C50 <= u <= 0x1C59) || (0xA620 <= u <= 0xA629) || (0xA8D0 <= u <= 0xA8D9)
    || (0xA900 <= u <= 0xA909) || (0xA9D0 <= u <= 0xA9D9) || (0xA9F0 <= u <= 0xA9F9)
    || (0xAA50 <= u <= 0xAA59) || (0xABF0 <= u <= 0xABF9) || (0xFF10 <= u <= 0xFF19)
  }

  /** A .NET `char`: one UTF-16 code unit. */
  type CodeUnit = u: int | 0 <= u < 0x1_0000

  /** The UTF-16 code units of one character: itself inside the Basic
      Multilingual Plane, a high and a low surrogate outside it. */
  function Utf16(c: char): (units: seq<CodeUnit>)
    ensures |units| == if c as int < 0x1_0000 then 1 else 2
    ensures c as int < 0x1_0000 ==> units[0] == c as int
    ensures c as int >= 0x1_0000 ==> 0xD800 <= units[0] < 0xDC00 && 0xDC00 <= units[1] < 0xE000
  {
    var v := c as int;
    if v < 0x1_0000 then [v]
    else [0xD800 + (v - 0x1_0000) / 0x400, 0xDC00 + (v - 0x1_0000) % 0x400]
  }

  /** `string.Length`: the number of UTF-16 code units. */
  function Utf16Length(s: string): (n: nat)
    ensures |s| <= n <= 2 * |s|
  {
    if |s| == 0 then 0 else |Utf16(s[0])| + Utf16Length(s[1..])
  }

  /** In the Basic Multilingual Plane one character is one code unit. */
  lemma {:induction false} Utf16LengthOfBmp(s: string)
    requires forall i :: 0 <= i < |s| ==> s[i] as int < 0x1_0000
    ensures Utf16Length(s) == |s|
  {
    if |s| > 0 {
      Utf16LengthOfBmp(s[1..]);
    }
  }

  /** Lengths in code units add up. */
  lemma {:induction false} Utf16LengthConcat(a: string, b: string)
    ensures Utf16Length(a + b) == Utf16Length(a) + Utf16Length(b)
    decreases |a|
  {
    if |a| > 0 {
      assert (a + b)[1..] == a[1..] + b;
      Utf16LengthConcat(a[1..], b);
    } else {
      assert a + b == b;
    }
  }

  /** `char.ToUpper` on one code unit, for ASCII letters. */
  function UpperUnit(u: CodeUnit): (r: CodeUnit)
  {
    if 'a' as int <= u <= 'z' as int then u - 32 else u
  }

  /** The `\s` class of .NET regular expressions: `[\f\n\r\t\v\x85\p{Z}]`. */
  predicate IsRegexSpace(c: char)
  {
    ('\t' <= c <= '\r') || c == ' ' || c == '\U{85}' || c == '\U{A0}' || c == '\U{1680}'
    || ('\U{2000}' <= c <= '\U{200A}') || c == '\U{2028}' || c == '\U{2029}'
    || c == '\U{202F}' || c == '\U{205F}' || c == '\U{3000}'
  }

  /** The directory separators of `System.IO.Path` on Linux. */
  predicate IsDirectorySeparator(c: char)
  {
    c == '/'
  }

  predicate IsSuffix(suffix: string, s: string)
  {
    |suffix| <= |s| && s[|s| - |suffix|..] == suffix
  }

  /** What `Path.GetExtension` can return besides the empty string: a dot
      followed by at least one character, none of them a dot or a separator. */
  predicate ExtensionShaped(ext: string)
  {
    |ext| >= 2 && ext[0] == '.'
    && forall i :: 1 <= i < |ext| ==> ext[i] != '.' && !IsDirectorySeparator(ext[i])
  }

  /** The scan of `Path.GetExtension` over `path[..i]`, from the end. */
  function ExtensionScan(path: string, i: nat): (ext: string)
    requires i <= |path|
    requires forall j :: i <= j < |path| ==> path[j] != '.' && !IsDirectorySeparator(path[j])
    ensures ext == "" || (ExtensionShaped(ext) && IsSuffix(ext, path))
    ensures ext != "" ==> |path| - |ext| < i
    decreases i
  {
    if i == 0 then ""
    else if path[i - 1] == '.' then (if i != |path| then path[i - 1..] else "")
    else if IsDirectorySeparator(path[i - 1]) then ""
    else ExtensionScan(path, i - 1)
  }

  /** `Path.GetExtension(path)`: from the last dot after the last separator,
      or "" when there is none or the dot ends the path. */
  function GetExtension(path: string): (ext: string)
    ensures ext == "" || (ExtensionShaped(ext) && IsSuffix(ext, path))
  {
    ExtensionScan(path, |path|)
  }

  lemma {:induction false} ExtensionScanFindsSuffix(stem: string, ext: string, i: nat)
    requires ExtensionShaped(ext)
    requires |stem| < i <= |stem + ext|
    ensures ExtensionScan(stem + ext, i) == ext
    decreases i
  {
    var path := stem + ext;
    if i - 1 == |stem| {
      assert path[i - 1..] == ext;
    } else {
      assert path[i - 1] == ext[i - 1 - |stem|];
      ExtensionScanFindsSuffix(stem, ext, i - 1);
    }
  }

  /** A path that ends in an extension-shaped suffix has exactly that
      extension, whatever comes before it; with the contract of
      `GetExtension` this says `GetExtension(p) == ""` exactly when `p` has
      no such suffix. */
  lemma ExtensionOfSuffix(stem: string, ext: string)
    requires ExtensionShaped(ext)
    ensures GetExtension(stem + ext) == ext
  {
    ExtensionScanFindsSuffix(stem, ext, |stem + ext|);
  }
}

=== FILE: tokens.dfy ===
/** The session token: the claims `Login` issues, the JWT lifetime, and
    `HelperUsuarioToken`, which recovers the user from the encrypted
    `UserData` claim of the authenticated request. */
module Tokens {
  import opened Wrappers
  import opened Numerics
  import opened Platform
  import opened Cryptography

  datatype Claim = Claim(claimType: string, value: string)

  const UserDataClaimType: string := "UserData"
  /** `ClaimTypes.Name`, `ClaimTypes.NameIdentifier` and `ClaimTypes.Role`. */
  const NameClaimType: string := "http://schemas.xmlsoap.org/ws/2005/05/identity/claims/name"
  const NameIdentifierClaimType: string := "http://schemas.xmlsoap.org/ws/2005/05/identity/claims/nameidentifier"
  const RoleClaimType: string := "http://schemas.microsoft.com/ws/2008/06/identity/claims/role"

  /** `DateTime` ticks are 100 ns. */
  const TicksPerHour: int := 36_000_000_000
  const TokenLifetimeHours: int := 2

  /** `ClaimsPrincipal.FindFirst`: the first claim of the given type. */
  function FindFirst(claims: seq<Claim>, claimType: string): (r: Option<Claim>)
    ensures r.None? <==> forall i :: 0 <= i < |claims| ==> claims[i].claimType != claimType
    ensures r.Some? ==> exists i :: 0 <= i < |claims| && claims[i] == r.value && r.value.claimType == claimType
                          && forall j :: 0 <= j < i ==> claims[j].claimType != claimType
    decreases |claims|
  {
    if |claims| == 0 then None
    else if claims[0].claimType == claimType then Some(claims[0])
    else
      var r := FindFirst(claims[1..], claimType);
      assert r.Some? ==> forall j :: 1 <= j < |claims| && claims[j] == r.value ==> claims[j] == claims[1..][j - 1];
      r
  }

  /** The `UsuarioTokenDTO` built from a signed-in user's id, name and type. */
  function TokenUserOf(id: Int32, nombreUsuario: string, tipoUsuario: string): TokenUser
  {
    TokenUser(id, nombreUsuario, tipoUsuario)
  }

  /** The four claims `Login` puts in the token, in order: the encrypted JSON
      of the user, the name, the id in decimal and the role. Fails when the
      encryption throws. */
  function SessionClaims(lib: Library, settings: CipherSettings, id: Int32, nombreUsuario: string, tipoUsuario: string)
    : (r: Result<seq<Claim>, CryptoError>)
    ensures r.Success? <==> EncryptString(lib, settings, lib.writeTokenUser(TokenUserOf(id, nombreUsuario, tipoUsuario))).Success?
    ensures r.Success? ==>
      var cifrado := EncryptString(lib, settings, lib.writeTokenUser(TokenUserOf(id, nombreUsuario, tipoUsuario)));
      |r.value| == 4 && r.value[0] == Claim(UserDataClaimType, cifrado.value)
      && r.value[1] == Claim(NameClaimType, nombreUsuario)
      && r.value[2] == Claim(NameIdentifierClaimType, IntToDecimal(id))
      && r.value[3] == Claim(RoleClaimType, tipoUsuario)
  {
    match EncryptString(lib, settings, lib.writeTokenUser(TokenUserOf(id, nombreUsuario, tipoUsuario)))
    case Failure(e) => Failure(e)
    case Success(jsonCifrado) =>
      Success([
        Claim(UserDataClaimType, jsonCifrado),
        Claim(NameClaimType, nombreUsuario),
        Claim(NameIdentifierClaimType, IntToDecimal(id)),
        Claim(RoleClaimType, tipoUsuario)])
  }

  datatype JwtToken = JwtToken(issuer: string, audience: string, claims: seq<Claim>, notBefore: int, expires: int)

  /** `new JwtSecurityToken(...)`: the arguments are evaluated in the order
      written, so `expires` comes from a clock reading taken just before the
      one that gives `notBefore`. Times are `DateTime` ticks. */
  function IssueToken(issuer: string, audience: string, claims: seq<Claim>, expiresClock: int, notBeforeClock: int): JwtToken
  {
    JwtToken(issuer, audience, claims, notBeforeClock, expiresClock + TokenLifetimeHours * TicksPerHour)
  }

  /** A token is valid for two hours from issuance: exactly two hours when
      both readings agree, and never longer since the clock does not go back
      between them. */
  lemma TokenLifetime(issuer: string, audience: string, claims: seq<Claim>, expiresClock: int, notBeforeClock: int)
    requires expiresClock <= notBeforeClock
    ensures var t := IssueToken(issuer, audience, claims, expiresClock, notBeforeClock);
      t.expires - t.notBefore <= 2 * TicksPerHour
      && (expiresClock == notBeforeClock ==> t.expires - t.notBefore == 2 * TicksPerHour)
      && t.notBefore == notBeforeClock
  {
  }

  /** Why recovering the user failed: the claim did not decrypt, the JSON
      did not parse, or there was no user and `usuario.IdUsuario`
      dereferenced `null`. */
  datatype TokenError = Undecryptable(cause: CryptoError) | MalformedJson | NullUser

  /** What `GetUsuario` returns or throws. */
  datatype UserLookup = NoUser | FoundUser(user: TokenUser) | LookupFailed(error: TokenError)

  /** The first "UserData" claim of the current request's principal, if
      there is a request. */
  function UserDataClaim(httpContext: Option<seq<Claim>>): Option<Claim>
  {
    if httpContext.None? then None else FindFirst(httpContext.value, UserDataClaimType)
  }

  /** `GetUsuario`: `httpContext` is `None` when there is no current request,
      otherwise the claims of its principal. */
  function GetUsuario(lib: Library, settings: CipherSettings, httpContext: Option<seq<Claim>>): (r: UserLookup)
    ensures UserDataClaim(httpContext).None? ==> r == NoUser
    ensures UserDataClaim(httpContext).Some? ==>
      var decrypted := DecryptString(lib, settings, UserDataClaim(httpContext).value.value);
      (r.LookupFailed? && r.error.Undecryptable? <==> decrypted.Failure?)
      && (decrypted.Success? ==>
            var parsed := lib.readTokenUser(decrypted.value);
            (r.FoundUser? <==> parsed.Parsed?)
            && (r.FoundUser? ==> parsed == Parsed(r.user))
            && (r == NoUser <==> parsed == ParsedNull)
            && (r == LookupFailed(MalformedJson) <==> parsed == Malformed))
  {
    if httpContext.None? then NoUser
    else match FindFirst(httpContext.value, UserDataClaimType)
      case None => NoUser
      case Some(claim) =>
        match DecryptString(lib, settings, claim.value)
        case Failure(e) => LookupFailed(Undecryptable(e))
        case Success(jsonUsuario) =>
          match lib.readTokenUser(jsonUsuario)
          case Parsed(model) => FoundUser(model)
          case ParsedNull => NoUser
          case Malformed => LookupFailed(MalformedJson)
  }

  /** `GetAuthenticatedUserId`: the id of the user `GetUsuario` finds; no
      user is a `NullReferenceException`, not a default id. */
  function GetAuthenticatedUserId(lib: Library, settings: CipherSettings, httpContext: Option<seq<Claim>>): (r: Result<Int32, TokenError>)
    ensures r.Success? <==> GetUsuario(lib, settings, httpContext).FoundUser?
    ensures r.Success? ==> r.value == GetUsuario(lib, settings, httpContext).user.idUsuario
    ensures GetUsuario(lib, settings, httpContext).NoUser? ==> r == Failure(NullUser)
    ensures httpContext.None? ==> r == Failure(NullUser)
  {
    match GetUsuario(lib, settings, httpContext)
    case NoUser => Failure(NullUser)
    case FoundUser(u) => Success(u.idUsuario)
    case LookupFailed(e) => Failure(e)
  }

  /** A request carrying the claims issued at sign-in yields the signed-in
      user: `GetUsuario` decrypts and parses it back, `GetAuthenticatedUserId`
      returns its id, and the `NameIdentifier` claim parses to the same id. */
  lemma SessionClaimsIdentifyUser(lib: Library, settings: CipherSettings, id: Int32, nombreUsuario: string, tipoUsuario: string)
    requires CodecRoundTrips(lib) && JsonRoundTrips(lib)
    requires SessionClaims(lib, settings, id, nombreUsuario, tipoUsuario).Success?
    ensures var claims := SessionClaims(lib, settings, id, nombreUsuario, tipoUsuario).value;
      GetUsuario(lib, settings, Some(claims)) == FoundUser(TokenUser(id, nombreUsuario, tipoUsuario))
      && GetAuthenticatedUserId(lib, settings, Some(claims)) == Success(id)
      && FindFirst(claims, NameIdentifierClaimType).Some?
      && ParseInt32(FindFirst(claims, NameIdentifierClaimType).value.value) == Some(id)
  {
    var json := lib.writeTokenUser(TokenUserOf(id, nombreUsuario, tipoUsuario));
    var claims := SessionClaims(lib, settings, id, nombreUsuario, tipoUsuario).value;
    var cipher := EncryptString(lib, settings, json).value;
    assert claims[0] == Claim(UserDataClaimType, cipher);
    assert FindFirst(claims, UserDataClaimType) == Some(claims[0]);
    DecryptUndoesEncrypt(lib, settings, json);
    assert DecryptString(lib, settings, cipher) == Success(json);
    assert lib.readTokenUser(json) == Parsed(TokenUser(id, nombreUsuario, tipoUsuario));
    assert claims[2] == Claim(NameIdentifierClaimType, IntToDecimal(id));
    assert FindFirst(claims, NameIdentifierClaimType) == Some(claims[2]) by {
      assert claims[0].claimType != NameIdentifierClaimType;
      assert claims[1].claimType != NameIdentifierClaimType;
      assert FindFirst(claims[2..], NameIdentifierClaimType) == Some(claims[2]);
      assert claims[1..][1..] == claims[2..];
    }
    ParseFormatRoundTrip(id);
  }
}

=== FILE: uploads.dfy ===
/** What the shelter and adopter controllers share around image uploads:
    the guards on the posted file, the name a stored image gets, the caller's
    key from the `NameIdentifier` claim, and the shape of a response. */
module Uploads {
  import opened Wrappers
  import opened Numerics
  import opened Text
  import opened Mime
  import opened Entities
  import opened Tokens
  import opened Storage
  import Platform
  import Cryptography

  /** An `IFormFile`: the client's file name and the length in bytes. */
  datatype FormFile = FormFile(fileName: string, length: int)

  const AllowedExtensions: set<string> := {".jpg", ".jpeg", ".png"}

  /** The outcome of the two guards: no file (or an empty one), a file that
      is not a JPG, JPEG or PNG, or an image with its lower-cased extension. */
  datatype UploadCheck = NoFile | NotAnImage | Image(extension: string)

  /** The guards every upload action runs first; `None` is a `null` file. */
  function CheckUpload(archivo: Option<FormFile>): (r: UploadCheck)
    ensures r == NoFile <==> archivo.None? || archivo.value.length == 0
    ensures r == NotAnImage <==>
      archivo.Some? && archivo.value.length != 0 && ToLower(GetExtension(archivo.value.fileName)) !in AllowedExtensions
    ensures r.Image? ==> r.extension in AllowedExtensions && r.extension == ToLower(GetExtension(archivo.value.fileName))
  {
    if archivo.None? || archivo.value.length == 0 then NoFile
    else
      var extension := ToLower(GetExtension(archivo.value.fileName));
      if extension != ".jpg" && extension != ".jpeg" && extension != ".png" then NotAnImage
      else Image(extension)
  }

  /** `$"{Guid.NewGuid()}{extension}"`; the GUID's text is a parameter. */
  function BlobName(guid: string, extension: string): string
  {
    guid + extension
  }

  /** A stored name keeps the accepted extension: uploading it again would
      pass the same guards with the same extension, and it is served as
      an image, whatever the GUID's text. */
  lemma BlobNameKeepsExtension(guid: string, archivo: Option<FormFile>, length: int)
    requires CheckUpload(archivo).Image?
    requires length != 0
    ensures var extension := CheckUpload(archivo).extension;
      CheckUpload(Some(FormFile(BlobName(guid, extension), length))) == Image(extension)
      && GetContentType(BlobName(guid, extension)) == (if extension == ".png" then "image/png" else "image/jpeg")
  {
    var extension := CheckUpload(archivo).extension;
    assert ExtensionShaped(extension);
    ExtensionOfSuffix(guid, extension);
  }

  /** `int.Parse(HttpContext.User.FindFirst(ClaimTypes.NameIdentifier).Value)`;
      `None` is the exception of a missing claim or a malformed number. */
  function CallerId(claims: seq<Claim>): (r: Option<Int32>)
    ensures r.Some? ==> FindFirst(claims, NameIdentifierClaimType).Some?
    ensures FindFirst(claims, NameIdentifierClaimType).Some? ==>
      r == ParseInt32(FindFirst(claims, NameIdentifierClaimType).value.value)
  {
    match FindFirst(claims, NameIdentifierClaimType)
    case None => None
    case Some(claim) => ParseInt32(claim.value)
  }

  /** The claims a login issues name the caller: the actions read back the
      very key the session was issued for. */
  lemma CallerIdOfSession(lib: Platform.Library, settings: Cryptography.CipherSettings, id: Int32, nombreUsuario: string, tipoUsuario: string)
    requires SessionClaims(lib, settings, id, nombreUsuario, tipoUsuario).Success?
    ensures CallerId(SessionClaims(lib, settings, id, nombreUsuario, tipoUsuario).value) == Some(id)
  {
    var claims := SessionClaims(lib, settings, id, nombreUsuario, tipoUsuario).value;
    assert UserDataClaimType != NameIdentifierClaimType by {
      assert |UserDataClaimType| != |NameIdentifierClaimType|;
    }
    assert NameClaimType != NameIdentifierClaimType by {
      assert |NameClaimType| != |NameIdentifierClaimType|;
    }
    assert FindFirst(claims, NameIdentifierClaimType) == Some(claims[2]);
    ParseFormatRoundTrip(id);
  }

  datatype Status = Ok | BadRequest | Forbidden | NotFound | ServerError

  /** A call into storage, in the order the action makes them: an upload to
      the blob container, a replacement of one blob by another, or an S3
      `PutObject`. */
  datatype StorageCall = UploadBlob(name: string) | UpdateBlob(oldName: string, newName: string) | PutObject(request: PutObjectRequest)

  /** The name a call leaves an object under. */
  function StoredName(call: StorageCall): string
  {
    match call
    case UploadBlob(name) => name
    case UpdateBlob(_, newName) => newName
    case PutObject(request) => request.key
  }

  /** Every name the calls leave an object under. */
  function StoredNames(calls: seq<StorageCall>): set<string>
  {
    if calls == [] then {} else {StoredName(calls[0])} + StoredNames(calls[1..])
  }

  /** An action's effect: the status, the database afterwards, the storage
      calls made, and the `nombreFoto` of a successful upload. */
  datatype Reply = Reply(status: Status, db: Db, calls: seq<StorageCall>, nombreFoto: Option<string>)

  /** A response sent before any effect. */
  function Early(status: Status, db: Db): Reply
  {
    Reply(status, db, [], None)
  }
}

=== FILE: validation.dfy ===
/** The checks `Registro` applies to a new account: the user type, the
    password-strength expression and the e-mail expression, each given once
    as what the .NET regular expression matches and once as a direct test,
    with a proof that the two agree. .NET matches patterns over UTF-16 code
    units: `.` matches any code unit but a line feed, `\d` is a decimal digit
    of any script, and `$` also matches just before a final line feed. */
module Validation {
  import opened Text

  const Adoptante: string := "Adoptante"
  const Refugio: string := "Refugio"
  const MinPasswordLength: nat := 8

  predicate ValidRole(tipoUsuario: string)
  {
    tipoUsuario == Adoptante || tipoUsuario == Refugio
  }

  /** Where `$` can match: at the end, or before a line feed that ends the input. */
  predicate RegexEnd(s: string, j: int)
  {
    j == |s| || (j == |s| - 1 && 0 <= j && s[j] == '\n')
  }

  predicate NoLineFeedBefore(s: string, j: int)
  {
    forall k :: 0 <= k < j && k < |s| ==> s[k] != '\n'
  }

  /** `(?=.*C)` at the start: some character of class `C` that no line feed precedes. */
  predicate LookaheadAt(s: string, i: int, cls: char -> bool)
  {
    0 <= i < |s| && NoLineFeedBefore(s, i) && cls(s[i])
  }

  /** `.{8,}$` at the start: at least eight code units, so a character
      outside the Basic Multilingual Plane counts twice. */
  predicate LongLineEndsAt(s: string, j: int)
  {
    0 <= j <= |s| && MinPasswordLength <= Utf16Length(s[..j]) && NoLineFeedBefore(s, j) && RegexEnd(s, j)
  }

  /** `[^\da-zA-Z]`. For a character outside the Basic Multilingual Plane
      the lookahead sees its high surrogate, which is in this class too. */
  predicate IsSpecial(c: char)
  {
    !IsDecimalDigit(c) && !IsAsciiLower(c) && !IsAsciiUpper(c)
  }

  /** What `^(?=.*[a-z])(?=.*[A-Z])(?=.*\d)(?=.*[^\da-zA-Z]).{8,}$` matches. */
  ghost predicate PasswordPatternMatches(s: string)
  {
    (exists i :: LookaheadAt(s, i, IsAsciiLower))
    && (exists i :: LookaheadAt(s, i, IsAsciiUpper))
    && (exists i :: LookaheadAt(s, i, IsDecimalDigit))
    && (exists i :: LookaheadAt(s, i, IsSpecial))
    && (exists j :: LongLineEndsAt(s, j))
  }

  /** The index of the first `c` in `s`, or `|s|` when there is none; for a
      line feed, the length of the first line. */
  function IndexOf(s: string, c: char): (n: nat)
    ensures n <= |s|
    ensures forall k :: 0 <= k < n ==> s[k] != c
    ensures n < |s| ==> s[n] == c
    decreases |s|
  {
    if |s| == 0 || s[0] == c then 0 else 1 + IndexOf(s[1..], c)
  }

  predicate HasCharOf(s: string, cls: char -> bool)
  {
    exists k :: 0 <= k < |s| && cls(s[k])
  }

  /** The password test as a direct check: a single line of at least eight
      UTF-16 code units, optionally followed by one line feed, with an ASCII
      lower-case letter, an ASCII upper-case letter and a decimal digit, and
      a special character, which the trailing line feed itself can be. */
  predicate IsStrongPassword(s: string)
  {
    var n := IndexOf(s, '\n');
    var line := s[..n];
    (n == |s| || n == |s| - 1) && Utf16Length(line) >= MinPasswordLength
    && HasCharOf(line, IsAsciiLower) && HasCharOf(line, IsAsciiUpper) && HasCharOf(line, IsDecimalDigit)
    && (HasCharOf(line, IsSpecial) || n < |s|)
  }

  lemma LookaheadInFirstLine(s: string, cls: char -> bool)
    requires !cls('\n')
    ensures (exists i :: LookaheadAt(s, i, cls)) <==> HasCharOf(s[..IndexOf(s, '\n')], cls)
  {
    var n := IndexOf(s, '\n');
    if i :| LookaheadAt(s, i, cls) {
      assert i <= n;
      assert s[..n][i] == s[i];
    }
    if HasCharOf(s[..n], cls) {
      var k :| 0 <= k < n && cls(s[..n][k]);
      assert LookaheadAt(s, k, cls);
    }
  }

  /** The direct check accepts exactly the passwords the expression matches. */
  lemma PasswordCheckMatchesPattern(s: string)
    ensures IsStrongPassword(s) <==> PasswordPatternMatches(s)
  {
    var n := IndexOf(s, '\n');
    var line := s[..n];
    LookaheadInFirstLine(s, IsAsciiLower);
    LookaheadInFirstLine(s, IsAsciiUpper);
    LookaheadInFirstLine(s, IsDecimalDigit);
    var special := (exists i :: LookaheadAt(s, i, IsSpecial));
    assert special <==> (HasCharOf(line, IsSpecial) || n < |s|) by {
      if i :| LookaheadAt(s, i, IsSpecial) {
        assert i <= n;
        if i < n {
          assert line[i] == s[i];
        }
      }
      if HasCharOf(line, IsSpecial) {
        var k :| 0 <= k < n && IsSpecial(line[k]);
        assert LookaheadAt(s, k, IsSpecial);
      } else if n < |s| {
        assert LookaheadAt(s, n, IsSpecial);
      }
    }
    assert (exists j :: LongLineEndsAt(s, j)) <==> ((n == |s| || n == |s| - 1) && Utf16Length(line) >= MinPasswordLength) by {
      if j :| LongLineEndsAt(s, j) {
        assert j <= n;
        assert j == n;
      }
      if (n == |s| || n == |s| - 1) && Utf16Length(line) >= MinPasswordLength {
        assert LongLineEndsAt(s, n);
      }
    }
  }

  /** On a single line the test is the familiar one: at least eight code
      units with a lower-case letter, an upper-case letter, a digit and a
      special character. */
  lemma StrongPasswordOnOneLine(s: string)
    requires forall k :: 0 <= k < |s| ==> s[k] != '\n'
    ensures IsStrongPassword(s) <==>
      Utf16Length(s) >= MinPasswordLength && HasCharOf(s, IsAsciiLower) && HasCharOf(s, IsAsciiUpper)
      && HasCharOf(s, IsDecimalDigit) && HasCharOf(s, IsSpecial)
  {
    assert IndexOf(s, '\n') == |s|;
    assert s[..|s|] == s;
  }

  lemma FirstLineOfTerminated(t: string)
    requires forall k :: 0 <= k < |t| ==> t[k] != '\n'
    ensures IndexOf(t + "\n", '\n') == |t|
  {
    var n := IndexOf(t + "\n", '\n');
    assert (t + "\n")[|t|] == '\n';
  }

  /** A trailing line feed counts as the special character: `Abcdefg1` is
      refused but `Abcdefg1` followed by a line feed is accepted. */
  lemma TrailingLineFeedIsSpecial()
    ensures !IsStrongPassword("Abcdefg1")
    ensures IsStrongPassword("Abcdefg1\n")
  {
    NoSpecialInAbcdefg1();
    LineFeedCompletesAbcdefg1();
  }

  lemma NoSpecialInAbcdefg1()
    ensures !IsStrongPassword("Abcdefg1")
  {
    var weak := "Abcdefg1";
    assert !HasCharOf(weak, IsSpecial) by {
      forall k | 0 <= k < |weak| ensures !IsSpecial(weak[k]) {
        if k == 0 {
          assert IsAsciiUpper(weak[0]);
        } else if k == 7 {
          assert IsDecimalDigit(weak[7]);
        } else {
          assert k in {1, 2, 3, 4, 5, 6};
          assert IsAsciiLower(weak[k]);
        }
      }
    }
    assert forall k :: 0 <= k < |weak| ==> weak[k] != '\n';
    StrongPasswordOnOneLine(weak);
  }

  lemma LineFeedCompletesAbcdefg1()
    ensures IsStrongPassword("Abcdefg1\n")
  {
    var weak := "Abcdefg1";
    var s := weak + "\n";
    assert s == "Abcdefg1\n";
    FirstLineOfTerminated(weak);
    var line := s[..IndexOf(s, '\n')];
    assert line == weak;
    assert IsAsciiUpper(line[0]) && IsAsciiLower(line[1]) && IsDecimalDigit(line[7]);
    assert HasCharOf(line, IsAsciiLower) && HasCharOf(line, IsAsciiUpper) && HasCharOf(line, IsDecimalDigit);
  }

  /** An Arabic-Indic three is a digit, so it cannot stand for the special
      character. */
  lemma ArabicDigitIsNoSpecial()
    ensures !IsStrongPassword("Abcdefg1\U{0663}")
  {
    var arabic := "Abcdefg1\U{0663}";
    assert arabic[8] as int == 0x0663;
    assert !HasCharOf(arabic, IsSpecial) by {
      forall k | 0 <= k < |arabic| ensures !IsSpecial(arabic[k]) {
        if k == 0 {
          assert IsAsciiUpper(arabic[0]);
        } else if k == 7 || k == 8 {
          assert IsDecimalDigit(arabic[k]);
        } else {
          assert k in {1, 2, 3, 4, 5, 6};
          assert IsAsciiLower(arabic[k]);
        }
      }
    }
    assert forall k :: 0 <= k < |arabic| ==> arabic[k] != '\n';
    StrongPasswordOnOneLine(arabic);
  }

  /** An Arabic-Indic three can stand for the digit. */
  lemma ArabicDigitCounts()
    ensures IsStrongPassword("Abcdef\U{0663}!")
  {
    Utf16LengthOfBmp("Abcdef\U{0663}!");
    StrongFromParts("Abcdef\U{0663}!", 0, 1, 6, 7);
  }

  /** Length is counted in code units: two emoji make up half of the eight. */
  lemma EmojiCountTwice()
    ensures IsStrongPassword("Aa1!\U{1F600}\U{1F600}")
  {
    Utf16LengthConcat("Aa1!", "\U{1F600}\U{1F600}");
    Utf16LengthOfBmp("Aa1!");
    StrongFromParts("Aa1!\U{1F600}\U{1F600}", 0, 1, 2, 3);
  }

  /** A single line of at least eight code units with an upper-case letter,
      a lower-case letter, a digit and a special character at the given
      positions is a strong password. */
  lemma StrongFromParts(s: string, upper: nat, lower: nat, digit: nat, special: nat)
    requires upper < |s| && lower < |s| && digit < |s| && special < |s|
    requires IsAsciiUpper(s[upper]) && IsAsciiLower(s[lower]) && IsDecimalDigit(s[digit]) && IsSpecial(s[special])
    requires forall k :: 0 <= k < |s| ==> s[k] != '\n'
    requires Utf16Length(s) >= MinPasswordLength
    ensures IsStrongPassword(s)
  {
    CharAt(s, upper, IsAsciiUpper);
    CharAt(s, lower, IsAsciiLower);
    CharAt(s, digit, IsDecimalDigit);
    CharAt(s, special, IsSpecial);
    StrongPasswordOnOneLine(s);
  }

  lemma CharAt(s: string, k: int, cls: char -> bool)
    requires 0 <= k < |s| && cls(s[k])
    ensures HasCharOf(s, cls)
  {
  }

  /** `[^@\s]`. */
  predicate IsPlain(c: char)
  {
    c != '@' && !IsRegexSpace(c)
  }

  predicate AllPlain(s: string, from: int, to: int)
  {
    forall k :: from <= k < to && 0 <= k < |s| ==> IsPlain(s[k])
  }

  /** One way `^[^@\s]+@[^@\s]+\.[^@\s]+$` can match: the `@` at `a`, the
      chosen dot at `d` and `$` at `e`. */
  predicate EmailSplit(s: string, a: int, d: int, e: int)
  {
    0 < a && a + 1 < d && d + 1 < e <= |s| && s[a] == '@' && s[d] == '.' && RegexEnd(s, e)
    && AllPlain(s, 0, a) && AllPlain(s, a + 1, d) && AllPlain(s, d + 1, e)
  }

  ghost predicate EmailPatternMatches(s: string)
  {
    exists a, d, e :: EmailSplit(s, a, d, e)
  }

  /** The input without the one line feed `$` may skip at the end. */
  function WithoutFinalLineFeed(s: string): (body: string)
    ensures body == s || (body + "\n" == s)
  {
    if |s| > 0 && s[|s| - 1] == '\n' then s[..|s| - 1] else s
  }

  /** The e-mail test as a direct check: apart from a final line feed, no
      white space and exactly one `@`, with something before it and a dot
      after it that is neither next to the `@` nor last. */
  predicate IsValidEmail(s: string)
  {
    var body := WithoutFinalLineFeed(s);
    var a := IndexOf(body, '@');
    (forall k :: 0 <= k < |body| ==> !IsRegexSpace(body[k]))
    && 0 < a && a + 3 < |body|
    && (forall k :: a < k < |body| ==> body[k] != '@')
    && '.' in body[a + 2..|body| - 1]
  }

  /** The direct check accepts exactly the addresses the expression matches. */
  lemma EmailCheckMatchesPattern(s: string)
    ensures IsValidEmail(s) <==> EmailPatternMatches(s)
  {
    if IsValidEmail(s) {
      ValidEmailMatches(s);
    }
    if EmailPatternMatches(s) {
      MatchedEmailIsValid(s);
    }
  }

  /** An address the direct check accepts has a match: its `@`, a dot after
      it, and the end of the body. */
  lemma ValidEmailMatches(s: string)
    requires IsValidEmail(s)
    ensures EmailPatternMatches(s)
  {
    var body := WithoutFinalLineFeed(s);
    var a := IndexOf(body, '@');
    var k :| 0 <= k < |body[a + 2..|body| - 1]| && body[a + 2..|body| - 1][k] == '.';
    var d := a + 2 + k;
    assert body[d] == '.';
    assert forall i :: 0 <= i < |body| ==> s[i] == body[i];
    assert EmailSplit(s, a, d, |body|);
  }

  /** Any match puts its `@` at the first one and leaves a dot inside the
      domain, so the direct check accepts the address. */
  lemma MatchedEmailIsValid(s: string)
    requires EmailPatternMatches(s)
    ensures IsValidEmail(s)
  {
    var body := WithoutFinalLineFeed(s);
    var a := IndexOf(body, '@');
    var a', d, e :| EmailSplit(s, a', d, e);
    assert IsPlain(s[e - 1]);
    assert body == s[..e];
    assert forall i :: 0 <= i < |body| ==> body[i] == s[i];
    assert a' == a;
    assert body[d] == '.';
    assert body[a + 2..|body| - 1][d - a - 2] == '.';
  }
}

=== FILE: wrappers.dfy ===
/** Optional values and results with an error case, used wherever the
    modelled C# code returns `null` or throws. */
module Wrappers {

  datatype Option<+T> = None | Some(value: T)
  {
    function GetOr(default: T): T
    {
      match this
      case None => default
      case Some(v) => v
    }
  }

  datatype Result<+T, +E> = Success(value: T) | Failure(error: E)
  {
    predicate IsFailure()
    {
      Failure?
    }

    function PropagateFailure<U>(): Result<U, E>
      requires Failure?
    {
      Failure(this.error)
    }

    function Extract(): T
      requires Success?
    {
      value
    }
  }
}
